=== FILE: README.md ===
# Developers Community — a Dafny model of the request handlers and page logic

Developers Community is a community site. Members post questions and answers, projects, blogs, events and discussions, and like, upvote, attend and comment on them. This project models the deciding part of the Express backend's handlers and the pure logic of a few React pages. It proves properties of that model.

**How the backend is modelled.** Each handler is one atomic step.
- It is a pure function from a store (`map<DocId, Doc>`) and the request to either an error reply or the new store together with the response body.
- An error reply is `Reject(status, message)`, with the handler's own status code and message. Otherwise it is `Crash`: an exception that reaches the error middleware and is answered with 500. `Crash` covers `split` on an absent field, an unparseable date, and `matchPassword` on a missing account.
- The order of checks is part of every contract. Each error case is stated as an if-and-only-if.

**External services become parameters.**
- The media service's upload is `upload`.
- bcrypt is `hash` and `verify`, and jwt decoding is `decode`.
- A MongoDB `$regex` search is `regex`.
- The request time is `now`.
- A new document's id is a parameter that is not yet in the store.

**How the pages are modelled.** The page logic works on state records. The projects page, the blogs page, the tag box and the sign-up form each have an event type, and a run of events is folded over the state. Invariants are proved over every run.

**Module layout.**
- Shared modules:
  - `Http`: actors, errors, results, the ownership rules.
  - `Seqs`: filtering and subsequences.
  - `Text`: split, join, trim, lower case, substring search.
  - `Membership`: the two like-toggle variants.
  - `Embedded`: embedded comments.
  - `Paging`: page, limit, skip and `ceil`.
- One module per backend controller: `Questions` and `QuestionSearch`, `Projects`, `Blogs`, `Events`, `Discussions`, `Showcase` (the second project controller), `Profiles`, `Auth`.
- One module per client file: `ProjectsPage`, `BlogsPage`, `TagInput`, `SignupForm`, `Countdown`, `RouteGuard`.

## Model

| member | source | states |
|---|---|---|
| Membership.Toggle | backend/controllers/questionController.js:240-254 | The user ends up listed iff they were not listed before. Every other user keeps their membership, and the user appears at most once. Removal is a subsequence; addition appends exactly once at the end. |
| Membership.ToggleKeepsOthers | backend/controllers/eventController.js:259-271 | Every other user keeps exactly as many entries as before the toggle. |
| Membership.IndexOf | backend/controllers/project.controller.js:105 | The first position of the user, or -1 exactly when the user is absent. |
| Membership.ToggleTwiceRestores | backend/controllers/projectController.js:244-264 | For a user not yet listed, toggling twice gives back the original list. |
| Membership.ToggleKeepsNoDup | backend/controllers/blogController.js:226-246 | A duplicate-free list stays duplicate-free after a toggle. |
| Membership.CounterToggle | backend/controllers/project.controller.js:105-117 | The counter-plus-list variant. An absent user is appended and the counter goes up by one. A present user's first occurrence is removed (the multiset loses exactly one copy), and the counter goes down by one. |
| Membership.CounterToggleTwiceRestores | backend/controllers/project.controller.js:105-117 | A like followed by an unlike by the same user restores both the counter and the list. |
| Membership.CounterToggleKeepsNoDup | backend/controllers/project.controller.js:105-117 | The toggle keeps the list duplicate-free, and an unlike leaves the user unlisted. |
| Http.KeepOrUpload | backend/controllers/projectController.js:166-168 | A missing image, or the one already stored, keeps the stored URL. A different one is uploaded and its URL stored. |
| Embedded.FindIndex | backend/controllers/questionController.js:449-455 | The position of the first element with the id, or -1 exactly when none has it. |
| Embedded.RemoveKey | backend/controllers/projectController.js:355-357 | Exactly the entries without the id survive, in order and with their multiplicities. The list is unchanged when the id is absent. |
| Embedded.RemoveAppended | backend/controllers/projectController.js:355-357 | Removing the id of an element just appended gives back the list before it (given the id was new). |
| Embedded.DeleteComment | backend/controllers/projectController.js:335-357 | 404 iff no comment has the id; then 403 iff the actor is neither the comment's author nor an admin. On success every comment with that id is gone and the rest keep their order. |
| Paging.OrDefault | backend/controllers/questionController.js:65-66 | `NaN` and 0 give the default; every other number is kept. |
| Paging.WindowOf | backend/controllers/questionController.js:65-67 | page and limit are never 0. skip is `(page-1)*limit`, and a positive limit gives a non-negative skip iff page is at least 1. |
| Paging.CeilDiv | backend/controllers/questionController.js:98 | The exact ceiling of a quotient: `(q-1)*b < a <= q*b` for a positive divisor. |
| Paging.Slice | backend/controllers/questionController.js:80-83 | At most `limit` items, taken from position `skip` onward in order. Empty once skip passes the end. |
| Paging.Paginate | backend/controllers/questionController.js:65-101 | total counts all matches and count is the page length. The items are the skip/limit window of the matches. totalPages is the exact ceiling of total/limit. |
| Paging.PageAfterLastIsEmpty | backend/controllers/questionController.js:80-98 | Asking for page totalPages+1 gives an empty page, not an error. |
| Paging.EveryItemOnItsPage | backend/controllers/questionController.js:65-98 | Every match appears on page `k/limit+1` at position `k%limit`, and that page is at most totalPages. |
| Text.Split | backend/controllers/questionController.js:15 | At least one piece, and no piece contains the separator. |
| Text.JoinSplit | backend/controllers/questionController.js:15 | Joining the pieces of a split gives back the string. |
| Text.SplitJoin | backend/controllers/questionController.js:15 | Splitting a join of separator-free pieces gives back the pieces. |
| Text.SplitLength | backend/controllers/blogController.js:26 | The number of pieces is the number of separators plus one; empty pieces are kept. |
| Text.Trim | backend/controllers/questionController.js:15 | The result is a contiguous middle part of the input, with only white space cut from both ends. It neither starts nor ends with white space, and is empty iff the input is all white space. |
| Text.SplitTrim | backend/controllers/questionController.js:45 | One piece per comma plus one, and piece k is the k-th comma-separated field trimmed. So no piece contains a comma, and every non-empty piece starts and ends with non-space. |
| Text.ParseList | backend/controllers/eventController.js:29 | An array is kept as is. A string gives one piece per comma-separated field, each trimmed in order, none containing a comma. An absent field throws (`Crash`), and only then. |
| Text.IncludesSpec | frontend/src/pages/projects/Projects.tsx:64-67 | `includes` holds iff the query occurs at some position of the string. |
| Questions.CreateQuestion | backend/controllers/questionController.js:7-26 | Crash iff tags are absent, and no other error. Otherwise the one new question belongs to the actor and has the parsed tags, no answers, no upvotes and no views. |
| Questions.GetQuestionById | backend/controllers/questionController.js:110-146 | 404 iff missing, and success whenever it exists. Only the view counter changes, by one. |
| Questions.UpdateQuestion | backend/controllers/questionController.js:151-190 | 404, then 403 for anybody but the creator (admins included), then Crash iff the tags are absent; success otherwise. Only title, content and tags change. |
| Questions.DeleteQuestion | backend/controllers/questionController.js:195-223 | 404, then 403 unless the actor is the creator or an admin; success otherwise. On success exactly that question is gone. |
| Questions.UpvoteQuestion | backend/controllers/questionController.js:228-264 | 404 iff missing, success whenever it exists. Only the upvotes change: the new list is the old one with the actor toggled, and the returned count is its length. |
| Questions.AddAnswer | backend/controllers/questionController.js:269-316 | 400 for empty content before the lookup, then 404; success otherwise. One answer (the content, the actor, no upvotes, not accepted) is appended at the end, and nothing else changes. |
| Questions.UpdateAnswer | backend/controllers/questionController.js:321-378 | 400, 404 for the question, then 404 iff no answer has the id. For the first answer with the id, 403 iff the actor is not its author (no admin override), success otherwise. Only that answer's content changes. |
| Questions.DeleteAnswer | backend/controllers/questionController.js:383-424 | 404, then 404 iff no answer has the id. For the first answer with the id, 403 iff the actor is neither its author nor an admin, success otherwise. Every answer with the id is removed and the others keep their order. |
| Questions.AcceptAt | backend/controllers/questionController.js:458-464 | Exactly the answer at the given position is accepted. No other field of any answer changes. |
| Questions.AcceptAnswer | backend/controllers/questionController.js:429-476 | 404 for the question, then 403 for a non-creator even when the answer does not exist, then 404 iff no answer has the id; success otherwise. Afterwards exactly the first answer with the id is accepted. |
| Questions.AcceptTwiceIsAcceptOnce | backend/controllers/questionController.js:458-466 | When the creator accepts an existing answer, the accept succeeds. Accepting the same answer again also succeeds and changes nothing. |
| Questions.UpvoteAnswer | backend/controllers/questionController.js:481-527 | 404, then 404 iff no answer has the id; success otherwise. Only the first such answer's upvotes change: the actor is toggled in them, and the count is the new length. |
| Questions.SubseqKeepsAtMostOne | backend/controllers/questionController.js:412-413 | Removing answers (keeping the rest in order) never creates a second accepted answer. |
| Questions.DeleteAcceptedLeavesNone | backend/controllers/questionController.js:383-424 | With at most one accepted answer, deleting the accepted answer leaves no answer accepted: no other answer is promoted. |
| Questions.AnswerIndex | backend/controllers/questionController.js:342 | `answers.id(answerId)`: the first position holding the id, or -1 exactly when no answer has it. |
| Questions.HandleKeepsConsistent | backend/controllers/questionController.js:7-527 | Every question handler keeps "at most one accepted answer per question" for the whole store. |
| QuestionSearch.BuildAsWritten | backend/controllers/questionController.js:36-62 | The filter as the code builds it: `answered=false` replaces the search condition, and `answered=true` requires an accepted answer. |
| QuestionSearch.AsWrittenDropsSearch | backend/controllers/questionController.js:36-62 | With a search term and `answered=false`, an unanswered question that does not match the search is still returned. |
| QuestionSearch.AsWrittenFaithfulOtherwise | backend/controllers/questionController.js:36-62 | Except for a search combined with `answered=false`, the filter as written selects exactly the wanted questions. |
| QuestionSearch.Build | backend/controllers/questionController.js:36-62 | The corrected filter keeps the search and the answered condition side by side. |
| QuestionSearch.BuildFaithful | backend/controllers/questionController.js:36-62 | The corrected filter accepts a question iff it meets every requested condition. |
| QuestionSearch.GetQuestions | backend/controllers/questionController.js:31-105 | Corrected behaviour: the listing is exactly the paged window of the wanted questions from the sorted list, and the total counts every wanted question. |
| QuestionSearch.BuildSelectsAsked | backend/controllers/questionController.js:31-105 | Filtering with the corrected filter selects exactly the wanted questions. |
| QuestionSearch.GetQuestionsAsWritten | backend/controllers/questionController.js:31-105 | As written: the listing is the paged window of what the handler's filter selects. It equals the corrected listing whenever the request does not combine a search with `answered=false`. |
| QuestionSearch.SelectsAsked | backend/controllers/questionController.js:36-62 | Without a search combined with `answered=false`, the handler's filter selects exactly the wanted questions from any list. |
| Projects.CreateProject | backend/controllers/projectController.js:8-39 | Crash iff techStack or tags are absent, and no other error. The new project belongs to the actor and is created now. Title, description, difficulty and both links are the sent ones, and the lists are parsed. It has no likes and no comments. Its image is the upload's URL, or "" when none was sent. |
| Projects.GetProjectById | backend/controllers/projectController.js:112-139 | 404 iff missing; otherwise the stored project, and nothing changes. |
| Projects.BuildFaithful | backend/controllers/projectController.js:44-81 | The built query accepts a project iff it meets every requested condition. |
| Projects.GetProjects | backend/controllers/projectController.js:44-107 | Only wanted projects are listed. The total counts them all, and the listing is their paged window. |
| Projects.UpdateProject | backend/controllers/projectController.js:144-194 | 404, then 403 for a non-creator, then Crash iff a list field is absent; success otherwise. Title, description, difficulty and both links are the sent ones, and techStack and tags are the parsed lists. The image is kept unless a different non-empty one is sent. The creator, likes, comments and creation time never change. |
| Projects.UpdateProjectIdempotent | backend/controllers/projectController.js:144-194 | Sending the same update again, with no new image, succeeds and changes nothing. |
| Projects.DeleteProject | backend/controllers/projectController.js:199-227 | 404, then 403 unless creator or admin; success otherwise. Exactly that project is gone. |
| Projects.LikeProject | backend/controllers/projectController.js:232-268 | 404 iff missing, success whenever it exists. Only the likes change: the new list is the old one with the actor toggled, and likesCount is its length. |
| Projects.LikeTwiceRestores | backend/controllers/projectController.js:244-264 | A like then an unlike by the same user restores the store. |
| Projects.CommentOnProject | backend/controllers/projectController.js:273-318 | 400 for empty text before the lookup, then 404; success otherwise. Exactly one comment by the actor is appended at the end. |
| Projects.DeleteProjectComment | backend/controllers/projectController.js:323-369 | 404 for the project, then the comment's 404 and 403; success when the comment step succeeds. Only the comments change: every one with that id is removed, order kept. |
| Projects.CommentThenDeleteRestores | backend/controllers/projectController.js:273-369 | Deleting a comment one has just added (with a fresh id) restores the store. |
| Blogs.Excerpt | backend/controllers/blogController.js:23 | A supplied excerpt is kept. Otherwise the result is the first 150 characters of the content (all of it when shorter) followed by "...", even for short content. |
| Blogs.ReadTime | backend/controllers/blogController.js:26 | A supplied read time is kept. Otherwise it is the least whole number of minutes covering the words at 200 per minute, so at least 1. |
| Blogs.ReadTimeOneMinute | backend/controllers/blogController.js:26 | Content with fewer than 200 spaces reads in one minute. |
| Blogs.CreateBlog | backend/controllers/blogController.js:8-37 | Crash iff the content or the tags are absent, and no other error. The new blog belongs to the actor, with no likes or comments, the excerpt and read time derived from the content when not given, and the cover image's URL. |
| Blogs.GetBlogById | backend/controllers/blogController.js:96-123 | 404 iff missing, success whenever it exists; the stored blog. |
| Blogs.BuildFaithful | backend/controllers/blogController.js:42-66 | The built query accepts a blog iff it meets every requested condition. |
| Blogs.StripContent | backend/controllers/blogController.js:75 | Every listed blog loses its content and nothing else. |
| Blogs.GetBlogs | backend/controllers/blogController.js:42-91 | The listing is the paged window of the wanted blogs, without their content. The total counts all of them. |
| Blogs.UpdateBlog | backend/controllers/blogController.js:128-176 | 404, then 403 for a non-creator. For the creator, Crash iff the tags are absent or a derived field is needed while the content is absent; success otherwise. With content, the excerpt and read time are derived again by the creation rules; without, the content is kept. The creator, likes and comments are kept. |
| Blogs.DeleteBlog | backend/controllers/blogController.js:181-209 | 404, then 403 unless creator or admin; success otherwise. Exactly that blog is gone. |
| Blogs.LikeBlog | backend/controllers/blogController.js:214-250 | 404 iff missing, success whenever it exists. Only the likes change: the actor is toggled in them, and likesCount is the new length. |
| Blogs.LikeTwiceRestores | backend/controllers/blogController.js:226-246 | A like then an unlike by the same user restores the store. |
| Blogs.CommentOnBlog | backend/controllers/blogController.js:255-300 | 400 before the lookup, then 404; success otherwise. One comment by the actor is appended at the end. |
| Blogs.DeleteBlogComment | backend/controllers/blogController.js:305-351 | 404, 404, then 403 unless author or admin; success when the comment step succeeds. Comments with the id are removed, order kept. |
| Blogs.CommentThenDeleteRestores | backend/controllers/blogController.js:255-351 | Deleting a comment one has just added restores the store. |
| Events.CreateEvent | backend/controllers/eventController.js:8-40 | Crash iff tags are absent, and no other error. The actor organizes the new event, created now, with no attendees. Title, description, type, dates, location and meeting link are the sent ones, and the tags are parsed. Its cover is the upload's URL, or "" when none was sent. |
| Events.GetEventById | backend/controllers/eventController.js:130-153 | 404 iff missing, success whenever it exists; the stored event. |
| Events.Build | backend/controllers/eventController.js:74-90 | `upcoming=true` makes the start bound "at or after now", whatever startDate says. `past=true` makes the end bound "before now", whatever endDate says. An unparseable date crashes only when it is not overridden. |
| Events.UpcomingOverridesStartDate | backend/controllers/eventController.js:74-85 | With `upcoming=true` the startDate parameter has no effect on the filter. |
| Events.PastOverridesEndDate | backend/controllers/eventController.js:78-90 | With `past=true` the endDate parameter has no effect on the filter. |
| Events.OrderOf | backend/controllers/eventController.js:97-103 | Newest first iff `sort=newest`; otherwise by start date. |
| Events.GetEvents | backend/controllers/eventController.js:45-125 | Crash iff the filter cannot be built. Otherwise the listing is exactly the paged window of the matching events in the requested order, and the total counts all matches. With `upcoming` every listed event starts at or after now; with `past` every one ends before now. |
| Events.UpdateEvent | backend/controllers/eventController.js:158-209 | 404, then 403 for anybody but the organizer (no admin override); then Crash iff the tags are absent; success otherwise. Title, description, type, dates, location and meeting link are the sent ones, and the tags are the parsed list. The cover is kept unless a different one is sent. The organizer, attendees and creation time are kept. |
| Events.UpdateEventIdempotent | backend/controllers/eventController.js:158-209 | Sending the same update again, with no new cover, succeeds and changes nothing. |
| Events.DeleteEvent | backend/controllers/eventController.js:214-242 | 404, then 403 unless organizer or admin; success otherwise. Exactly that event is gone. |
| Events.AttendEvent | backend/controllers/eventController.js:247-284 | 404 iff missing, success whenever it exists. The attendees are the old list with the actor toggled, `attending` is the negation of the prior membership, and the count is the new length. |
| Events.AttendTwiceRestores | backend/controllers/eventController.js:259-271 | Attending then leaving restores the store. |
| Discussions.NormalizeTag | backend/models/discussion.model.js:15-21 | The stored tag is the trimmed input, character by character in lower case: same length as the trimmed input, no upper-case letter, and no white space at either end. |
| Discussions.NormalizeTags | backend/models/discussion.model.js:15-21 | Each tag is normalized in place, and none is dropped. |
| Discussions.NormalizeTagIdempotent | backend/models/discussion.model.js:15-21 | Normalizing a stored tag again changes nothing. |
| Discussions.CreateDiscussion | backend/controllers/discussion.controller.js:5-30 | 400 for a missing title or description before the account is looked up, then 404; success otherwise. The new discussion is the actor's, with normalized tags and no likes or comments. |
| Discussions.LikeDiscussion | backend/controllers/discussion.controller.js:47-74 | 404 iff missing, success whenever it exists. Only the likes change: the actor is toggled in them. totalLikes is the new length, and the message says which way it went. |
| Discussions.LikeTwiceRestores | backend/controllers/discussion.controller.js:57-69 | A like then an unlike restores the store. |
| Discussions.AddCommentToDiscussion | backend/controllers/discussion.controller.js:76-110 | 400 before the lookup, then 404; success otherwise. One comment is appended: the actor's text with the new id and the time. The reply is the comment as the handler built it, with the user, text and time but no id. |
| Discussions.DeleteDiscussion | backend/controllers/discussion.controller.js:114-134 | 404, then 403 for anybody but the author (admins included); success otherwise. Exactly that discussion is gone. |
| Showcase.UploadAll | backend/controllers/project.controller.js:20-25 | One upload per image, in order. |
| Showcase.CreateProject | backend/controllers/project.controller.js:6-44 | 404 for a missing account comes before the 400 for a missing title or description; success otherwise. The new project has zero likes, no likers and no comments, and one uploaded URL per image. |
| Showcase.GetProjectById | backend/controllers/project.controller.js:68-91 | 404 iff missing; otherwise exactly the stored project. |
| Showcase.LikeProject | backend/controllers/project.controller.js:95-122 | 404 iff missing, success whenever it exists. Only the counter and likers change. A like appends and increments; an unlike drops one copy and decrements. |
| Showcase.LikeAllKeepsAgreement | backend/controllers/project.controller.js:105-117 | Over any sequence of likes and unlikes, a counter equal to the number of likers (with no liker twice) stays equal. |
| Showcase.LikeTwiceRestores | backend/controllers/project.controller.js:105-117 | A like then an unlike by the same user restores the store. |
| Showcase.AddComment | backend/controllers/project.controller.js:126-151 | 400 before the lookup, then 404; success otherwise. One remark with the actor's id and user name is appended, and the reply is the full list. |
| Showcase.PublicId | backend/controllers/project.controller.js:169 | The public id contains neither '/' nor '.'. |
| Showcase.PublicIdOfUrl | backend/controllers/project.controller.js:169 | For `base/name.ext` the public id is `name`. |
| Showcase.DeleteProject | backend/controllers/project.controller.js:154-181 | 404 when the project or its creator's account is missing. Then 401 (not 403) for anybody but the creator, with no admin override; success for the creator. One public id per image is destroyed, and exactly that project is gone. |
| Profiles.GetUserProfile | backend/controllers/userController.js:12-40 | 404 iff the account is missing. The profile has no password, and each count is the number of that collection's documents created by the user. |
| Profiles.CountByInsert | backend/controllers/userController.js:24-26 | Inserting a document under a fresh id adds one to its creator's count and nothing to anybody else's, for any collection. |
| Profiles.CreateProjectCounts | backend/controllers/userController.js:24-26 | Creating a project raises its creator's count by one and nobody else's. |
| Profiles.UpdateProfile | backend/controllers/userController.js:45-93 | An empty name keeps the old one. bio, links and skills are overwritten, with "" and [] when not sent. The avatar changes only for a different non-empty upload. Email, password and role never change. |
| Profiles.UpdateProfileIdempotent | backend/controllers/userController.js:59-71 | Sending the same form twice without a new avatar changes nothing the second time. |
| Profiles.UpdatePassword | backend/controllers/userController.js:98-142 | 400 for a missing field, a crash for a missing account, 401 for a wrong current password, 400 for reusing the stored password. Otherwise only the password changes, to the sealed new one. |
| Profiles.PasswordChangeTakesEffect | backend/controllers/userController.js:98-142 | When the hash accepts exactly its own password, after a change the old password is refused and the new one is accepted. |
| Profiles.GetUserProjects | backend/controllers/userController.js:147-173 | Only the user's projects are listed, and the total counts them. |
| Profiles.UserProjectsIsUserFilter | backend/controllers/userController.js:147-173 | The user's project list equals the general project list filtered on that user alone. |
| Profiles.GetUserBlogs | backend/controllers/userController.js:178-205 | The listing is the paged window of the user's blogs, each without its content; the total counts them all. |
| Profiles.UserBlogsIsUserFilter | backend/controllers/userController.js:178-205 | The user's blog list equals the general blog list filtered on that user alone. |
| Profiles.GetUserQuestions | backend/controllers/userController.js:210-236 | The listing is exactly the paged window of the user's questions; the total counts them all. |
| Profiles.UserQuestionsIsUserFilter | backend/controllers/userController.js:210-236 | The user's question list equals the corrected general question list filtered on that user alone. |
| Auth.FindByEmail | backend/controllers/auth.controller.js:17 | The first account with the email, or none iff no account has it. |
| Auth.Signup | backend/controllers/auth.controller.js:6-41 | Missing fields (400) come before a short password (400), which comes before a taken email (400). Success appends exactly one account with the hashed password, signs the session for it, and keeps emails unique. |
| Auth.NoSecondAccount | backend/controllers/auth.controller.js:17-18 | A registered email can never sign up again. |
| Auth.Login | backend/controllers/auth.controller.js:43-64 | Every failure is the same 400 "Invalid credentials". Success iff the first account with the email accepts the password; the session is that account's. |
| Auth.SignupThenLogin | backend/controllers/auth.controller.js:6-64 | A fresh account logs in at once with its password and gets the session signup gave it. |
| Auth.Logout | backend/controllers/auth.controller.js:66-74 | The cookie is emptied. |
| Auth.GetMe | backend/controllers/auth.controller.js:76-84 | The account without its password, or null iff no account has the id. |
| Auth.AuthCheck | backend/controllers/auth.controller.js:87-103 | Logged in iff a token is present and decodes to a truthy payload. An absent token, a throw or a falsy payload are all "logged out". |
| Auth.LogoutThenCheck | backend/controllers/auth.controller.js:66-103 | After a logout the check answers "logged out". |
| ProjectsPage.FilterProjects | frontend/src/pages/projects/Projects.tsx:58-81 | The result is an order-preserving subsequence of the fetched list, holding exactly the projects that match the query (if any) and some selected tag (if any). No query and no tag give the fetched list. |
| ProjectsPage.FilterProjectsIsOneFilter | frontend/src/pages/projects/Projects.tsx:58-81 | The two passes equal a single filter on the combined condition. |
| ProjectsPage.HandleSearch | frontend/src/pages/projects/Projects.tsx:44-47 | The query is replaced, the selected tags and the fetched list are kept, and the shown list is the fetched list filtered anew. |
| ProjectsPage.HandleTagSelect | frontend/src/pages/projects/Projects.tsx:49-56 | The tag becomes selected iff it was not. The others keep their state, and the shown list is recomputed from the fetched one. |
| ProjectsPage.ClearFilters | frontend/src/pages/projects/Projects.tsx:83-87 | No query and no tag, and the fetched list is shown again. |
| ProjectsPage.RunKeepsFetched | frontend/src/pages/projects/Projects.tsx:44-87 | After any run of searches, tag clicks and clears, the fetched list is untouched and the shown list is it filtered by the current inputs. |
| ProjectsPage.RunFrom | frontend/src/pages/projects/Projects.tsx:44-87 | From any consistent page, any run keeps the fetched list and only ever shows a subsequence of it. |
| ProjectsPage.SelectTwiceRestores | frontend/src/pages/projects/Projects.tsx:49-56 | Clicking a tag twice restores the page. |
| BlogsPage.FilterBlogs | frontend/src/pages/blogs/Blogs.tsx:61-81 | An order-preserving subsequence of the list it starts from, holding exactly the blogs matching the query (title or excerpt) and some selected tag. |
| BlogsPage.HandleSearchAsWritten | frontend/src/pages/blogs/Blogs.tsx:47-50 | As written, a search filters the list currently shown, so the list can only shrink. |
| BlogsPage.HandleTagSelectAsWritten | frontend/src/pages/blogs/Blogs.tsx:52-59 | As written, the tag is toggled and the list currently shown is filtered again. |
| BlogsPage.ClearFiltersAsWritten | frontend/src/pages/blogs/Blogs.tsx:83-87 | As written, clearing empties the inputs but leaves the shown list as it is. |
| BlogsPage.AsWrittenOnlyNarrows | frontend/src/pages/blogs/Blogs.tsx:47-87 | As written, no run of actions can bring back a blog once it has been filtered out. |
| BlogsPage.AsWrittenClearDoesNotRestore | frontend/src/pages/blogs/Blogs.tsx:61-87 | Two blogs "a" and "b". Searching "a" then clearing does not show both again, and searching "b" after "a" shows nothing. |
| BlogsPage.HandleSearch | frontend/src/pages/blogs/Blogs.tsx:47-50 | Corrected: the query is replaced and the fetched list is filtered anew. |
| BlogsPage.HandleTagSelect | frontend/src/pages/blogs/Blogs.tsx:52-59 | Corrected: the tag is toggled, the others keep their state, and the fetched list is filtered anew. |
| BlogsPage.ClearFilters | frontend/src/pages/blogs/Blogs.tsx:83-87 | Corrected: clearing shows the fetched list again. |
| BlogsPage.RunShowsCurrentFilter | frontend/src/pages/blogs/Blogs.tsx:47-87 | Corrected: after any run the shown list is the fetched list filtered by the current inputs, and a run ending in a clear shows everything. |
| BlogsPage.FixedRestores | frontend/src/pages/blogs/Blogs.tsx:61-87 | Corrected, on the same two blogs: clearing shows both, and searching "b" after "a" finds "b". |
| TagInput.HandleAddTag | frontend/src/pages/questions/CreateQuestion.tsx:75-93 | Nothing happens unless the key is Enter and the box is not blank. A trimmed duplicate is ignored silently, even at five tags. At five tags the error is set and the tags are unchanged. Otherwise the trimmed text is appended and the box cleared. |
| TagInput.RemoveTag | frontend/src/pages/questions/CreateQuestion.tsx:95-98 | Every copy of the tag is removed. Every other tag keeps its count and order. |
| TagInput.AddThenRemove | frontend/src/pages/events/CreateEvent.tsx:92-115 | Removing a tag just added gives the same tags as removing it before the add. |
| TagInput.SessionKeepsWellFormed | frontend/src/pages/events/CreateEvent.tsx:92-115 | After any typing, key presses and removals, the tags are at most five, duplicate-free and trimmed non-blank. |
| TagInput.ValidateQuestion | frontend/src/pages/questions/CreateQuestion.tsx:35-39 | No error iff the title has 10 to 150 characters, the content at least 30, and there are 1 to 5 tags. Each failed bound reports its message. |
| TagInput.ValidateEvent | frontend/src/pages/events/CreateEvent.tsx:40-53 | No error iff the title has 5 to 100 characters, the description at least 20, an event type and a start date are set, and there are 1 to 5 tags. |
| TagInput.TagBoxSatisfiesSchema | frontend/src/pages/questions/CreateQuestion.tsx:35-93 | Tags entered through the tag box never trip the schema's five-tag bound. |
| TagInput.EndDateDisabled | frontend/src/pages/events/CreateEvent.tsx:249-252 | A day is disabled iff a start date is chosen and the day is before it. |
| TagInput.PickedEndNotBeforeStart | frontend/src/pages/events/CreateEvent.tsx:249-252 | Once a start date is chosen, any end date the picker accepts is on or after it. |
| SignupForm.PasswordError | frontend/src/components/auth/SignupForm.tsx:41-45 | An error iff the password is shorter than 8 characters. |
| SignupForm.ConfirmError | frontend/src/components/auth/SignupForm.tsx:46-50 | An error iff the confirmation differs from the password. |
| SignupForm.HandleSubmit | frontend/src/components/auth/SignupForm.tsx:61-91 | The terms are checked first, then the mismatch (which sets the confirmation error), then any recorded error. signup is called iff all three pass, with the form's name, email and password. |
| SignupForm.FillKeepsTracking | frontend/src/components/auth/SignupForm.tsx:27-52 | Under any editing, the password error describes the current password (or the password is still empty). |
| SignupForm.SignupOnlyWhenValid | frontend/src/components/auth/SignupForm.tsx:27-91 | A submit the browser lets through calls signup only with the terms accepted, a password of at least 8 characters, and a matching confirmation. |
| SignupForm.StaleConfirmErrorBlocks | frontend/src/components/auth/SignupForm.tsx:46-80 | Typing the confirmation before the password leaves a stale mismatch error, which blocks a valid form. |
| Countdown.CalculateTimeLeft | frontend/src/components/events/EventCountdown.tsx:14-27 | Zero fields once the start is reached. Otherwise days ≥ 0, hours < 24, minutes and seconds < 60, and the fields add up to the difference rounded down to the second. |
| Countdown.StartedIffUnderASecond | frontend/src/components/events/EventCountdown.tsx:14-42 | "Event has started!" is shown iff less than a second is left. |
| Countdown.MonotoneInDifference | frontend/src/components/events/EventCountdown.tsx:14-27 | For any two clock readings, the later one never shows more time left than the earlier one. |
| RouteGuard.Middleware | frontend/middleware.js:3-22 | With a cookie, /login and /signup redirect to "/". Without one, /dashboard and /profile redirect to /login. Every other case passes, and only matcher paths are ever redirected. |
| RouteGuard.Route | frontend/middleware.js:24-26 | Paths outside the matcher always pass, which is what the middleware itself would decide for them. |
| RouteGuard.NoRedirectLoop | frontend/middleware.js:3-26 | Following a redirect never leads to another one. |

## Left out

Persistence and environment:
- Persistence, `populate`, `select`, `countDocuments`. The store is a map. Each listing handler takes the documents as a list that is assumed to be in the database's sort order already. Only Events.GetEvents states that order, as a precondition. The other listings (Projects.GetProjects, Blogs.GetBlogs, QuestionSearch.GetQuestions and the three Profiles.GetUser* lists) accept any list. The `sort` parameter of the question list (questionController.js:69-77: newest first by default, or by `views`, `upvotes` or `answers`) is not modelled, because the list arrives already sorted. The projection that leaves answer contents out of the question list is not modelled.
- Regular-expression search. `$regex` with a user-supplied pattern is the parameter `regex`, a total predicate. A pattern the database cannot compile makes it throw, which the handlers answer with 500; the model does not have that error.
- Concurrent requests. Each handler is one atomic step, and the unguarded read-modify-write races are not modelled.
- The external services. Media uploads and deletions, bcrypt and jwt are parameters. Their side effects and failures are not modelled.
- Success status codes (200 and 201) and log output.
- Sorting of questions (questionController.js) by `'upvotes.length'` and `'answers.length'`. These sort on a literal field path, not on an array length.
- Malformed ids. DocId and UserId stand for well-formed ObjectIds. A malformed `:id` makes Mongoose throw a CastError, which the handlers answer with 500. The model answers a 404, or an empty page for the user lists. Only a malformed date is modelled as a crash (Events.Build).
- backend/models/user.model.js and backend/models/User.js are not part of this model. Their password hashing on save is the parameter `seal`, and their default profile picture is taken as "".
- Schema validators (enum, maxlength, required) in backend/models/*.js. Two are modelled: the discussion tags' trim and lower case, and the `required` blog content, whose absence is a crash (Blogs.CreateBlog). An empty blog content (`""`), which `required` also refuses, is not.
- Projects.CreateProject, Events.CreateEvent and Showcase.CreateProject: an absent scalar field is stored as "". The schema defaults that replace it are not modelled: `'intermediate'` for a project's difficulty (backend/models/Project.js:24), `'Online'` for an event's location (backend/models/Event.js:29), and `"Web"` for a showcase project's category (backend/models/project.model.js:10).
- The `trim: true` on titles is not modelled. It applies to questions (backend/models/Question.js:32), blogs (Blog.js:8), events (Event.js:8), projects (Project.js:8) and discussions (discussion.model.js:7). Titles are stored as sent.

Partial models and simplifications:
- getAllDiscussions and getAllProjects (in project.controller.js): plain listings with no filter and no paging, so they have no behaviour beyond the store.
- Paging.Paginate: only page and limit of at least 1 are modelled. A negative skip or limit is passed to the database, whose answer is outside this model.
- Scalar update fields: an absent scalar field in an update is the empty string. Mongoose would ignore an `undefined` field. The blog content is the exception: its absence is modelled, because the handlers call `split` on it.
- Lower-casing is ASCII only. JavaScript's `toLowerCase` also maps other letters.
- Lengths count characters. JavaScript counts UTF-16 code units.
- Trimming removes space, tab, line feed, carriage return, vertical tab, form feed, U+00A0, U+FEFF, U+2028 and U+2029. JavaScript's `trim` also removes the other Unicode space separators (U+1680, U+2000 to U+200A, U+202F, U+205F, U+3000).
- Login with an absent email or password is not modelled. `findOne({ email: undefined })` and `bcrypt.compare(undefined, …)` have library-specific behaviour.
- Countdown.CalculateTimeLeft: an invalid start date, which gives NaN fields in the source, is not modelled; times are integers.

Frontend:
- The meeting link's URL check in the event form (zod's `url()`).
- React rendering, toasts and navigation.

## Findings

| source | as written | input that shows it | evidently intended | confidence | as-written member | corrected member |
|---|---|---|---|---|---|---|
| frontend/src/pages/blogs/Blogs.tsx:61-87 | `filterBlogs` filters the list currently shown, and `clearFilters` sets the list to itself | two blogs titled "a" and "b"; search "a", then clear (or search "b") | clearing restores the fetched list, and each search starts from it (the code comment says "Reset to original blogs list"), as on the projects page | high, not executed | BlogsPage.AsWrittenClearDoesNotRestore | BlogsPage.RunShowsCurrentFilter |
| backend/controllers/questionController.js:36-62 | `answered=false` assigns `query.$or`, replacing the search condition set just before | `search=x&answered=false` with an unanswered question whose title and content do not match x | both conditions apply together | medium, not executed | QuestionSearch.AsWrittenDropsSearch | QuestionSearch.BuildFaithful |

=== FILE: auth.dfy ===
/** The account handlers of backend/controllers/auth.controller.js. The
    account schema (backend/models/user.model.js) is not part of this model;
    the accounts are kept in insertion order so that `findOne({ email })`
    means the first account with that email. bcrypt is the pair of
    parameters `hash` and `verify(plain, stored)`; the token `generateToken`
    puts in the `jwt` cookie is modelled by the account id it is signed for,
    and `jwt.verify` is the parameter `decode`. */
module Auth {
  import opened Http

  datatype Account = Account(id: UserId, fullName: string, email: string, password: string, profilePic: string)

  type Accounts = seq<Account>

  /** The reply of signup and login: the account id the session cookie is
      signed for, and the account without its password. */
  datatype Public = Public(id: UserId, fullName: string, email: string, profilePic: string)

  datatype Session = Session(token: UserId, user: Public)

  const InvalidCredentials := "Invalid credentials"

  function PublicOf(a: Account): (p: Public)
    ensures p.id == a.id && p.fullName == a.fullName && p.email == a.email && p.profilePic == a.profilePic
  {
    Public(a.id, a.fullName, a.email, a.profilePic)
  }

  predicate EmailTaken(users: Accounts, email: string) {
    exists k :: 0 <= k < |users| && users[k].email == email
  }

  /** The unique index on `email`: no two accounts share one. */
  predicate UniqueEmails(users: Accounts) {
    forall i, j :: 0 <= i < j < |users| ==> users[i].email != users[j].email
  }

  /** `User.findOne({ email })`: the position of the first account with the
      email, if any. */
  function FindByEmail(users: Accounts, email: string): (r: Option<nat>)
    ensures r.None? <==> !EmailTaken(users, email)
    ensures r.Some? ==> && r.value < |users| && users[r.value].email == email
                        && forall k :: 0 <= k < r.value ==> users[k].email != email
  {
    if |users| == 0 then None
    else if users[0].email == email then Some(0)
    else
      match FindByEmail(users[1..], email)
      case None => None
      case Some(i) => Some(i + 1)
  }

  /** POST /api/auth/signup: missing fields (400), then a password shorter
      than 6 characters (400), then a taken email (400); otherwise one
      account is appended with the hashed password, the schema's default
      picture (taken as "") and the fresh id `newId`, and the session is
      signed for it. */
  function Signup(users: Accounts, newId: UserId, fullName: string, email: string, password: string,
                  hash: string -> string): (r: Result<(Accounts, Session)>)
    requires forall k :: 0 <= k < |users| ==> users[k].id != newId
    ensures fullName == "" || email == "" || password == "" <==>
              r == Err(Reject(BadRequest, "All fields are required"))
    ensures fullName != "" && email != "" && password != "" ==>
              (|password| < 6 <==> r == Err(Reject(BadRequest, "Password must be at least 6 characters")))
    ensures fullName != "" && email != "" && |password| >= 6 ==>
              (EmailTaken(users, email) <==> r == Err(Reject(BadRequest, "Email already exists")))
    ensures r.Ok? ==> && r.value.0 == users + [Account(newId, fullName, email, hash(password), "")]
                      && r.value.1 == Session(newId, Public(newId, fullName, email, ""))
    ensures r.Ok? && UniqueEmails(users) ==> UniqueEmails(r.value.0)
  {
    if fullName == "" || email == "" || password == "" then Err(Reject(BadRequest, "All fields are required"))
    else if |password| < 6 then Err(Reject(BadRequest, "Password must be at least 6 characters"))
    else if FindByEmail(users, email).Some? then Err(Reject(BadRequest, "Email already exists"))
    else
      var a := Account(newId, fullName, email, hash(password), "");
      Ok((users + [a], Session(newId, PublicOf(a))))
  }

  /** POST /api/auth/login: an unknown email and a wrong password get the
      same 400 reply, so the reply does not tell which one failed. */
  function Login(users: Accounts, email: string, password: string,
                 verify: (string, string) -> bool): (r: Result<Session>)
    ensures r.Err? ==> r == Err(Reject(BadRequest, InvalidCredentials))
    ensures !EmailTaken(users, email) ==> r.Err?
    ensures r.Ok? <==> exists k :: && 0 <= k < |users| && users[k].email == email
                                   && (forall j :: 0 <= j < k ==> users[j].email != email)
                                   && verify(password, users[k].password)
                                   && r == Ok(Session(users[k].id, PublicOf(users[k])))
  {
    match FindByEmail(users, email)
    case None => Err(Reject(BadRequest, InvalidCredentials))
    case Some(k) =>
      if !verify(password, users[k].password) then Err(Reject(BadRequest, InvalidCredentials))
      else Ok(Session(users[k].id, PublicOf(users[k])))
  }

  /** A fresh account can log in at once with the password it signed up
      with, when the hash accepts the password it was made from; the login
      opens the same session the signup did. */
  lemma SignupThenLogin(users: Accounts, newId: UserId, fullName: string, email: string, password: string,
                        hash: string -> string, verify: (string, string) -> bool)
    requires forall k :: 0 <= k < |users| ==> users[k].id != newId
    requires verify(password, hash(password))
    requires Signup(users, newId, fullName, email, password, hash).Ok?
    ensures var s := Signup(users, newId, fullName, email, password, hash).value;
            Login(s.0, email, password, verify) == Ok(s.1)
  {
    var s := Signup(users, newId, fullName, email, password, hash).value;
    assert !EmailTaken(users, email);
    assert s.0[|users|].email == email;
    assert forall j :: 0 <= j < |users| ==> s.0[j].email != email;
    assert FindByEmail(s.0, email) == Some(|users|);
  }

  /** A signup with an email that is already registered stores nothing,
      whoever tries it and with whatever password. */
  lemma NoSecondAccount(users: Accounts, newId: UserId, fullName: string, email: string, password: string,
                        hash: string -> string)
    requires forall k :: 0 <= k < |users| ==> users[k].id != newId
    requires EmailTaken(users, email)
    ensures Signup(users, newId, fullName, email, password, hash).Err?
  {
  }

  /** POST /api/auth/logout: the cookie is overwritten with an empty token. */
  function Logout(): (cookie: string)
    ensures |cookie| == 0
  {
    ""
  }

  /** GET /api/auth/me: the authenticated account without its password, or
      null (still a 200 reply) when it no longer exists. */
  function GetMe(users: Accounts, actor: Actor): (r: Option<Public>)
    ensures r.None? <==> forall k :: 0 <= k < |users| ==> users[k].id != actor.id
    ensures r.Some? ==> exists k :: 0 <= k < |users| && users[k].id == actor.id && r.value == PublicOf(users[k])
  {
    if |users| == 0 then None
    else if users[0].id == actor.id then Some(PublicOf(users[0]))
    else
      var rest := GetMe(users[1..], actor);
      assert rest.Some? ==> exists k :: 1 <= k < |users| && users[k].id == actor.id && rest.value == PublicOf(users[k]);
      rest
  }

  /** The outcome of `jwt.verify(token, secret)`: the decoded payload,
      truthy or not, or an exception (bad signature, expired token). */
  datatype Decoded = Payload(truthy: bool) | Throws

  /** GET /api/auth/check: logged in exactly when a token is present and it
      decodes to a truthy payload; every failure answers "logged out". */
  function AuthCheck(token: string, decode: string -> Decoded): (isLoggedIn: bool)
    ensures isLoggedIn <==> token != "" && decode(token) == Payload(true)
  {
    if token == "" then false
    else match decode(token)
         case Throws => false
         case Payload(truthy) => truthy
  }

  /** After a logout the check reports "logged out", whatever the verifier. */
  lemma LogoutThenCheck(decode: string -> Decoded)
    ensures !AuthCheck(Logout(), decode)
  {
  }
}

=== FILE: blog_filter.dfy ===
/** The client-side filter of the blogs page
    (frontend/src/pages/blogs/Blogs.tsx). Unlike the projects page, this
    page keeps a single list: `filterBlogs` starts from the list currently
    shown and overwrites it, and `clearFilters` sets the list to itself.
    The page as written is modelled first; the page as its comments say it
    should behave (a reset to the fetched list) follows, with the fetched
    list kept beside the shown one. Lower-casing is ASCII only. */
module BlogsPage {
  import opened Seqs
  import opened Text
  import opened Membership

  /** A blog as the page receives it (no optional chaining here). */
  datatype Card = Card(title: string, excerpt: string, tags: seq<string>)

  /** The search box: the lower-cased query occurs in the lower-cased title
      or excerpt. */
  predicate QueryHit(b: Card, query: string) {
    Includes(Lower(b.title), Lower(query)) || Includes(Lower(b.excerpt), Lower(query))
  }

  /** The tag chips, match-any against the blog's own tags. */
  predicate TagHit(b: Card, tags: seq<string>) {
    exists k :: 0 <= k < |tags| && tags[k] in b.tags
  }

  predicate Wanted(b: Card, query: string, tags: seq<string>) {
    (query != "" ==> QueryHit(b, query)) && (|tags| > 0 ==> TagHit(b, tags))
  }

  function Searched(query: string): Card -> bool {
    b => QueryHit(b, query)
  }

  function Tagged(tags: seq<string>): Card -> bool {
    b => TagHit(b, tags)
  }

  /** `filterBlogs` applied to the list `from`: the search, then the tags. */
  function FilterBlogs(from: seq<Card>, query: string, tags: seq<string>): (r: seq<Card>)
    ensures SubseqOf(r, from)
    ensures forall b :: b in r <==> b in from && Wanted(b, query, tags)
    ensures query == "" && |tags| == 0 ==> r == from
  {
    var searched := if query != "" then Filter(from, Searched(query)) else from;
    SubseqRefl(from);
    var r := if |tags| > 0 then Filter(searched, Tagged(tags)) else searched;
    SubseqRefl(searched);
    SubseqTransitive(r, searched, from);
    r
  }

  /** The inputs of the page's event handlers. */
  datatype Action = Search(query: string) | SelectTag(tag: string) | Clear

  // ---------------------------------------------------------------------
  // The page as written: one list, filtered in place.

  datatype Page = Page(query: string, selected: seq<string>, blogs: seq<Card>)

  function Loaded(fetched: seq<Card>): Page {
    Page("", [], fetched)
  }

  /** `handleSearch` as written: the new query filters what is shown now. */
  function HandleSearchAsWritten(s: Page, query: string): (s': Page)
    ensures s'.query == query && s'.selected == s.selected
    ensures SubseqOf(s'.blogs, s.blogs)
    ensures forall b :: b in s'.blogs <==> b in s.blogs && Wanted(b, query, s.selected)
  {
    s.(query := query, blogs := FilterBlogs(s.blogs, query, s.selected))
  }

  /** `handleTagSelect` as written: the tag is toggled and what is shown now
      is filtered again. */
  function HandleTagSelectAsWritten(s: Page, tag: string): (s': Page)
    ensures tag in s'.selected <==> tag !in s.selected
    ensures forall t :: t != tag ==> (t in s'.selected <==> t in s.selected)
    ensures s'.query == s.query && SubseqOf(s'.blogs, s.blogs)
  {
    var selected := Toggle(s.selected, tag);
    s.(selected := selected, blogs := FilterBlogs(s.blogs, s.query, selected))
  }

  /** `clearFilters` as written: the inputs are emptied and the list is set
      to itself. */
  function ClearFiltersAsWritten(s: Page): (s': Page)
    ensures s'.query == "" && s'.selected == [] && s'.blogs == s.blogs
  {
    Page("", [], s.blogs)
  }

  function ApplyAsWritten(s: Page, a: Action): Page {
    match a
    case Search(q) => HandleSearchAsWritten(s, q)
    case SelectTag(t) => HandleTagSelectAsWritten(s, t)
    case Clear => ClearFiltersAsWritten(s)
  }

  function RunAsWritten(s: Page, actions: seq<Action>): Page
    decreases |actions|
  {
    if |actions| == 0 then s else RunAsWritten(ApplyAsWritten(s, actions[0]), actions[1..])
  }

  /** As written, nothing the user does can bring a blog back: the list
      only ever shrinks. */
  lemma {:induction false} AsWrittenOnlyNarrows(s: Page, actions: seq<Action>)
    ensures SubseqOf(RunAsWritten(s, actions).blogs, s.blogs)
    decreases |actions|
  {
    if |actions| == 0 {
      SubseqRefl(s.blogs);
    } else {
      var s1 := ApplyAsWritten(s, actions[0]);
      SubseqRefl(s.blogs);
      assert SubseqOf(s1.blogs, s.blogs);
      AsWrittenOnlyNarrows(s1, actions[1..]);
      SubseqTransitive(RunAsWritten(s, actions).blogs, s1.blogs, s.blogs);
    }
  }

  /** Two blogs; searching "a" and then clearing the filters leaves only
      the first on screen, and searching "b" after "a" shows nothing,
      although the second blog's title is "b". */
  lemma AsWrittenClearDoesNotRestore()
    ensures var fetched := [Card("a", "", []), Card("b", "", [])];
            && RunAsWritten(Loaded(fetched), [Search("a"), Clear]).blogs != fetched
            && RunAsWritten(Loaded(fetched), [Search("a"), Search("b")]).blogs == []
  {
    var x := Card("a", "", []);
    var y := Card("b", "", []);
    var fetched := [x, y];
    assert Lower("a") == "a" && Lower("b") == "b" && Lower("") == "";
    assert !("b" <= "a") && !("a" <= "b") by {
      assert "a"[0] != "b"[0];
    }
    assert !Includes("a", "b") && !Includes("b", "a") && !Includes("", "a") && !Includes("", "b");
    assert Includes("a", "a");
    var s1 := HandleSearchAsWritten(Loaded(fetched), "a");
    assert y !in s1.blogs;
    assert s1.blogs != fetched;
    var s2 := HandleSearchAsWritten(s1, "b");
    assert forall b :: b in s1.blogs ==> b == x;
    assert forall b :: b !in s2.blogs;
  }

  // ---------------------------------------------------------------------
  // The page as intended: the fetched list is kept and every filter starts
  // from it.

  datatype Fixed = Fixed(query: string, selected: seq<string>, shown: seq<Card>, original: seq<Card>)

  /** The shown list is the fetched list filtered by the current inputs. */
  predicate Consistent(s: Fixed) {
    s.shown == FilterBlogs(s.original, s.query, s.selected)
  }

  function LoadedFixed(fetched: seq<Card>): (s: Fixed)
    ensures Consistent(s) && s.shown == fetched
  {
    Fixed("", [], fetched, fetched)
  }

  function HandleSearch(s: Fixed, query: string): (s': Fixed)
    ensures s'.query == query && s'.selected == s.selected && s'.original == s.original
    ensures Consistent(s')
  {
    s.(query := query, shown := FilterBlogs(s.original, query, s.selected))
  }

  function HandleTagSelect(s: Fixed, tag: string): (s': Fixed)
    ensures tag in s'.selected <==> tag !in s.selected
    ensures forall t :: t != tag ==> (t in s'.selected <==> t in s.selected)
    ensures s'.query == s.query && s'.original == s.original
    ensures Consistent(s')
  {
    var selected := Toggle(s.selected, tag);
    s.(selected := selected, shown := FilterBlogs(s.original, s.query, selected))
  }

  /** `clearFilters` as its comment says: back to the fetched list. */
  function ClearFilters(s: Fixed): (s': Fixed)
    ensures s'.query == "" && s'.selected == [] && s'.original == s.original
    ensures Consistent(s') && s'.shown == s.original
  {
    Fixed("", [], s.original, s.original)
  }

  function Apply(s: Fixed, a: Action): Fixed {
    match a
    case Search(q) => HandleSearch(s, q)
    case SelectTag(t) => HandleTagSelect(s, t)
    case Clear => ClearFilters(s)
  }

  function Run(s: Fixed, actions: seq<Action>): Fixed
    decreases |actions|
  {
    if |actions| == 0 then s else Run(Apply(s, actions[0]), actions[1..])
  }

  /** With the fetched list kept, the shown list depends only on the
      current inputs, never on the history: any run shows the fetched list
      filtered by the final query and tags, and a run ending in a clear
      shows everything again. */
  lemma {:induction false} RunShowsCurrentFilter(s: Fixed, actions: seq<Action>)
    requires Consistent(s)
    ensures var e := Run(s, actions);
            e.original == s.original && Consistent(e) && SubseqOf(e.shown, s.original)
    ensures |actions| > 0 && actions[|actions| - 1] == Clear ==> Run(s, actions).shown == s.original
    decreases |actions|
  {
    if |actions| > 0 {
      RunShowsCurrentFilter(Apply(s, actions[0]), actions[1..]);
      if |actions| > 1 {
        assert actions[1..][|actions[1..]| - 1] == actions[|actions| - 1];
      }
    } else {
      assert s.shown == FilterBlogs(s.original, s.query, s.selected);
    }
  }

  /** The same two blogs as above: on the corrected page the clear brings
      both back, and the second search finds the second blog. */
  lemma FixedRestores()
    ensures var fetched := [Card("a", "", []), Card("b", "", [])];
            && Run(LoadedFixed(fetched), [Search("a"), Clear]).shown == fetched
            && Card("b", "", []) in Run(LoadedFixed(fetched), [Search("a"), Search("b")]).shown
  {
    var y := Card("b", "", []);
    var fetched := [Card("a", "", []), y];
    assert Lower("b") == "b";
    assert Includes("b", "b");
    assert QueryHit(y, "b");
    var s2 := Run(LoadedFixed(fetched), [Search("a"), Search("b")]);
    assert s2 == HandleSearch(HandleSearch(LoadedFixed(fetched), "a"), "b");
  }
}

=== FILE: blogs.dfy ===
/** The blog handlers of backend/controllers/blogController.js. Besides the
    shapes shared with the project handlers, a blog derives two fields when
    the author leaves them out: the excerpt (the first 150 characters and an
    ellipsis) and the reading time (words at 200 a minute, rounded up). */
module Blogs {
  import opened Http
  import opened Seqs
  import opened Text
  import opened Membership
  import opened Embedded
  import opened Paging

  datatype Blog = Blog(title: string, content: string, excerpt: string, coverImage: string,
                       tags: seq<string>, createdBy: UserId, likes: seq<UserId>, comments: seq<Comment>,
                       readTime: int, createdAt: int)

  type Store = map<DocId, Blog>

  /** The request body of create and update; `readTime` 0 stands for an
      absent (falsy) value, and `content` is `None` when it is not sent at
      all (an empty string is still a string to `substring` and `split`). */
  datatype Input = Input(title: string, content: Option<string>, excerpt: string, tags: ListField,
                         readTime: int, coverImage: string)

  /** Whether a derived field has to be computed from a content that was
      not sent, so that `content.substring` or `content.split` throws. */
  predicate DerivesFromMissing(input: Input) {
    input.content.None? && (input.excerpt == "" || input.readTime == 0)
  }

  const BlogNotFound := "Blog not found"
  const CommentRequired := "Comment text is required"
  const ExcerptLength := 150
  const WordsPerMinute := 200

  datatype Likes = Likes(likes: seq<UserId>, likesCount: nat)

  /** `excerpt || content.substring(0, 150) + '...'` */
  function Excerpt(excerpt: string, content: string): (r: string)
    ensures excerpt != "" ==> r == excerpt
    ensures excerpt == "" ==> && |r| == (if |content| < ExcerptLength then |content| else ExcerptLength) + 3
                              && r[..|r| - 3] <= content
                              && r[|r| - 3..] == "..."
  {
    if excerpt != "" then excerpt
    else if |content| < ExcerptLength then content + "..."
    else content[..ExcerptLength] + "..."
  }

  /** The number of words `content.split(' ').length` counts: one more than
      the number of spaces. */
  function Words(content: string): (n: nat)
    ensures n == CountChar(content, ' ') + 1
  {
    SplitLength(content, ' ');
    |Split(content, ' ')|
  }

  /** `readTime || Math.ceil(content.split(' ').length / 200)` */
  function ReadTime(readTime: int, content: string): (m: int)
    ensures readTime != 0 ==> m == readTime
    ensures readTime == 0 ==> && m >= 1
                              && (m - 1) * WordsPerMinute < Words(content) <= m * WordsPerMinute
  {
    if readTime != 0 then readTime
    else
      var m := CeilDiv(Words(content), WordsPerMinute);
      assert m >= 1 by {
        if m < 1 {
          MulMono(0, m, WordsPerMinute);
        }
      }
      m
  }

  /** A text of at most 200 words (199 spaces) reads in one minute. */
  lemma ReadTimeOneMinute(content: string)
    requires CountChar(content, ' ') < WordsPerMinute
    ensures ReadTime(0, content) == 1
  {
    var m := ReadTime(0, content);
    if m >= 2 {
      MulMono(m - 1, 1, WordsPerMinute);
      assert false;
    }
  }

  /** POST /api/blogs. A missing content throws: in `substring` or `split`
      when a derived field needs it, and otherwise in the schema's
      `required` check on `content` (backend/models/Blog.js). */
  function CreateBlog(store: Store, id: DocId, actor: Actor, input: Input, upload: string -> string,
                      now: int): (r: Result<Step<Blog, Blog>>)
    requires id !in store
    ensures input.content.None? || input.tags.Absent? <==> r == Err(Crash)
    ensures r.Ok? || r == Err(Crash)
    ensures r.Ok? ==> input.content.Some? && var b := r.value.body; var content := input.content.value;
              && r.value.store == store[id := b] && r.value.store.Keys == store.Keys + {id}
              && b.createdBy == actor.id && b.likes == [] && b.comments == []
              && b.title == input.title && b.content == content
              && b.excerpt == Excerpt(input.excerpt, content)
              && b.readTime == ReadTime(input.readTime, content)
              && b.tags == ParseList(input.tags).value
              && (input.coverImage == "" ==> b.coverImage == "")
              && (input.coverImage != "" ==> b.coverImage == upload(input.coverImage))
  {
    var cover := if input.coverImage != "" then upload(input.coverImage) else "";
    if input.content.None? then Err(Crash)
    else
      var content := input.content.value;
      var tags :- ParseList(input.tags);
      var b := Blog(input.title, content, Excerpt(input.excerpt, content), cover, tags,
                    actor.id, [], [], ReadTime(input.readTime, content), now);
      Ok(Step(store[id := b], b))
  }

  /** GET /api/blogs/:id: a read that changes nothing. */
  function GetBlogById(store: Store, id: DocId): (r: Result<Blog>)
    ensures id !in store <==> r == Err(Reject(NotFound, BlogNotFound))
    ensures id in store ==> r.Ok?
    ensures r.Ok? ==> id in store && r.value == store[id]
  {
    Find(store, id, BlogNotFound)
  }

  datatype Query = Query(search: string, tags: string, user: string, page: Parsed, limit: Parsed)

  /** What the request asks for: every supplied parameter restricts the list. */
  predicate Wanted(q: Query, b: Blog, regex: (string, string) -> bool) {
    && (q.search != "" ==> regex(b.title, q.search) || regex(b.content, q.search))
    && (q.tags != "" ==> exists k :: 0 <= k < |b.tags| && b.tags[k] in SplitTrim(q.tags))
    && (q.user != "" ==> b.createdBy == q.user)
  }

  /** The filter document the handler builds. */
  datatype Filter = Filter(search: Option<string>, tags: Option<seq<string>>, createdBy: Option<UserId>)

  predicate Matches(f: Filter, b: Blog, regex: (string, string) -> bool) {
    && (f.search.Some? ==> regex(b.title, f.search.value) || regex(b.content, f.search.value))
    && (f.tags.Some? ==> exists k :: 0 <= k < |b.tags| && b.tags[k] in f.tags.value)
    && (f.createdBy.Some? ==> b.createdBy == f.createdBy.value)
  }

  function Build(q: Query): (f: Filter)
    ensures f.search.Some? <==> q.search != ""
    ensures f.tags.Some? <==> q.tags != ""
    ensures f.createdBy.Some? <==> q.user != ""
  {
    Filter(if q.search != "" then Some(q.search) else None,
           if q.tags != "" then Some(SplitTrim(q.tags)) else None,
           if q.user != "" then Some(q.user) else None)
  }

  /** The built filter selects exactly what the request asks for. */
  lemma BuildFaithful(q: Query, b: Blog, regex: (string, string) -> bool)
    ensures Matches(Build(q), b, regex) <==> Wanted(q, b, regex)
  {
  }

  function Asks(q: Query, regex: (string, string) -> bool): Blog -> bool {
    b => Wanted(q, b, regex)
  }

  /** The listing leaves out the content (`.select('-content')`). */
  function WithoutContent(b: Blog): Blog {
    b.(content := "")
  }

  function StripContent(items: seq<Blog>): (r: seq<Blog>)
    ensures |r| == |items|
    ensures forall k :: 0 <= k < |r| ==> r[k] == WithoutContent(items[k])
  {
    seq(|items|, k requires 0 <= k < |items| => WithoutContent(items[k]))
  }

  /** GET /api/blogs over the blogs newest first: the requested page of those
      the query asks for, each without its content, with their total. */
  function GetBlogs(sorted: seq<Blog>, q: Query, regex: (string, string) -> bool): (r: Listing<Blog>)
    requires WindowOf(q.page, q.limit).page >= 1 && WindowOf(q.page, q.limit).limit >= 1
    ensures r.total == |Seqs.Filter(sorted, Asks(q, regex))|
    ensures var page := Paginate(Seqs.Filter(sorted, Asks(q, regex)), q.page, q.limit);
            && r == page.(items := StripContent(page.items))
            && forall k :: 0 <= k < |r.items| ==> && r.items[k].content == ""
                                                  && page.items[k] in sorted && Wanted(q, page.items[k], regex)
  {
    forall b | b in sorted ensures Matches(Build(q), b, regex) == Asks(q, regex)(b) {
      BuildFaithful(q, b, regex);
    }
    FilterExt(sorted, b => Matches(Build(q), b, regex), Asks(q, regex));
    var page := Paginate(Seqs.Filter(sorted, b => Matches(Build(q), b, regex)), q.page, q.limit);
    assert forall k :: 0 <= k < |page.items| ==> page.items[k] in Seqs.Filter(sorted, Asks(q, regex));
    page.(items := StripContent(page.items))
  }

  /** PUT /api/blogs/:id: the creator only; the derived fields are computed
      again from the new content; the cover is kept unless a different one
      is sent. */
  function UpdateBlog(store: Store, id: DocId, actor: Actor, input: Input,
                      upload: string -> string): (r: Result<Step<Blog, Blog>>)
    ensures id !in store <==> r == Err(Reject(NotFound, BlogNotFound))
    ensures id in store && !IsOwner(actor, store[id].createdBy) <==>
              r == Err(Reject(Forbidden, "Not authorized to update this blog"))
    ensures id in store && IsOwner(actor, store[id].createdBy) ==>
              (DerivesFromMissing(input) || input.tags.Absent? <==> r == Err(Crash))
    ensures id in store && IsOwner(actor, store[id].createdBy) && !DerivesFromMissing(input) && !input.tags.Absent? ==>
              r.Ok?
    ensures r.Ok? ==> id in store && var b := store[id]; var b' := r.value.body;
              && r.value.store == store[id := b'] && r.value.store.Keys == store.Keys
              && b'.createdBy == b.createdBy && b'.likes == b.likes && b'.comments == b.comments
              && b'.createdAt == b.createdAt
              && b'.title == input.title && b'.tags == ParseList(input.tags).value
              && (input.content.Some? ==> && b'.content == input.content.value
                                          && b'.excerpt == Excerpt(input.excerpt, input.content.value)
                                          && b'.readTime == ReadTime(input.readTime, input.content.value))
              && (input.content.None? ==> && b'.content == b.content
                                          && b'.excerpt == input.excerpt && b'.readTime == input.readTime)
              && b'.coverImage == KeepOrUpload(b.coverImage, input.coverImage, upload)
  {
    var b :- Find(store, id, BlogNotFound);
    if !IsOwner(actor, b.createdBy) then Err(Reject(Forbidden, "Not authorized to update this blog"))
    else if DerivesFromMissing(input) then Err(Crash)
    else
      var cover := KeepOrUpload(b.coverImage, input.coverImage, upload);
      var tags :- ParseList(input.tags);
      // `findByIdAndUpdate` drops an undefined field, so a missing content
      // is kept; the derived fields were then both supplied.
      var content := if input.content.Some? then input.content.value else b.content;
      var b' := b.(title := input.title, content := content,
                   excerpt := if input.content.Some? then Excerpt(input.excerpt, content) else input.excerpt,
                   coverImage := cover, tags := tags,
                   readTime := if input.content.Some? then ReadTime(input.readTime, content) else input.readTime);
      Ok(Step(store[id := b'], b'))
  }

  /** DELETE /api/blogs/:id: the creator or an admin. */
  function DeleteBlog(store: Store, id: DocId, actor: Actor): (r: Result<Step<Blog, string>>)
    ensures id !in store <==> r == Err(Reject(NotFound, BlogNotFound))
    ensures id in store && !OwnerOrAdmin(actor, store[id].createdBy) <==>
              r == Err(Reject(Forbidden, "Not authorized to delete this blog"))
    ensures id in store && OwnerOrAdmin(actor, store[id].createdBy) ==> r.Ok?
    ensures r.Ok? ==> r.value.store.Keys == store.Keys - {id}
                      && forall k :: k in r.value.store ==> r.value.store[k] == store[k]
  {
    var b :- Find(store, id, BlogNotFound);
    if !OwnerOrAdmin(actor, b.createdBy) then Err(Reject(Forbidden, "Not authorized to delete this blog"))
    else Ok(Step(store - {id}, "Blog removed"))
  }

  /** POST /api/blogs/:id/like: the filter-all toggle; only the likes change. */
  function LikeBlog(store: Store, id: DocId, actor: Actor): (r: Result<Step<Blog, Likes>>)
    ensures id !in store <==> r == Err(Reject(NotFound, BlogNotFound))
    ensures id in store ==> r.Ok?
    ensures r.Ok? ==> id in store && id in r.value.store && var b := store[id]; var b' := r.value.store[id];
              && r.value.store == store[id := b']
              && b' == b.(likes := b'.likes)
              && b'.likes == Toggle(b.likes, actor.id)
              && (actor.id in b'.likes <==> actor.id !in b.likes)
              && (forall u :: u != actor.id ==> (u in b'.likes <==> u in b.likes))
              && r.value.body == Likes(b'.likes, |b'.likes|)
  {
    var b :- Find(store, id, BlogNotFound);
    var b' := b.(likes := Toggle(b.likes, actor.id));
    Ok(Step(store[id := b'], Likes(b'.likes, |b'.likes|)))
  }

  /** Liking twice leaves the store as it was. */
  lemma LikeTwiceRestores(store: Store, id: DocId, actor: Actor)
    requires id in store && actor.id !in store[id].likes
    ensures var s1 := LikeBlog(store, id, actor).value.store;
            LikeBlog(s1, id, actor).Ok? && LikeBlog(s1, id, actor).value.store == store
  {
    var b := store[id];
    ToggleTwiceRestores(b.likes, actor.id);
    var s1 := LikeBlog(store, id, actor).value.store;
    assert s1[id].likes == Toggle(b.likes, actor.id);
    assert s1[id := s1[id].(likes := b.likes)] == store;
  }

  /** POST /api/blogs/:id/comments */
  function CommentOnBlog(store: Store, id: DocId, actor: Actor, text: string, commentId: DocId,
                         now: int): (r: Result<Step<Blog, seq<Comment>>>)
    ensures text == "" <==> r == Err(Reject(BadRequest, CommentRequired))
    ensures text != "" ==> (id !in store <==> r == Err(Reject(NotFound, BlogNotFound)))
    ensures text != "" && id in store ==> r.Ok?
    ensures r.Ok? ==> id in store && id in r.value.store && var b := store[id]; var b' := r.value.store[id];
              && r.value.store == store[id := b']
              && b' == b.(comments := b.comments + [Comment(commentId, actor.id, text, now)])
              && r.value.body == b'.comments
  {
    if text == "" then Err(Reject(BadRequest, CommentRequired))
    else
      var b :- Find(store, id, BlogNotFound);
      var b' := b.(comments := b.comments + [Comment(commentId, actor.id, text, now)]);
      Ok(Step(store[id := b'], b'.comments))
  }

  /** DELETE /api/blogs/:id/comments/:commentId */
  function DeleteBlogComment(store: Store, id: DocId, commentId: DocId, actor: Actor): (r: Result<Step<Blog, seq<Comment>>>)
    ensures id !in store <==> r == Err(Reject(NotFound, BlogNotFound))
    ensures id in store && DeleteComment(store[id].comments, commentId, actor).Err? ==>
              r == Err(DeleteComment(store[id].comments, commentId, actor).error)
    ensures id in store && DeleteComment(store[id].comments, commentId, actor).Ok? ==> r.Ok?
    ensures r.Ok? ==> id in store && id in r.value.store && var b := store[id]; var b' := r.value.store[id];
              && r.value.store == store[id := b']
              && b' == b.(comments := b'.comments)
              && SubseqOf(b'.comments, b.comments)
              && (forall c :: c in b'.comments <==> c in b.comments && c.id != commentId)
              && r.value.body == b'.comments
  {
    var b :- Find(store, id, BlogNotFound);
    var comments :- DeleteComment(b.comments, commentId, actor);
    var b' := b.(comments := comments);
    Ok(Step(store[id := b'], comments))
  }

  /** A comment posted under a fresh id and deleted by its author leaves the
      store as it was. */
  lemma CommentThenDeleteRestores(store: Store, id: DocId, actor: Actor, text: string, commentId: DocId, now: int)
    requires id in store && text != ""
    requires forall k :: 0 <= k < |store[id].comments| ==> store[id].comments[k].id != commentId
    ensures var s1 := CommentOnBlog(store, id, actor, text, commentId, now).value.store;
            DeleteBlogComment(s1, id, commentId, actor).Ok?
            && DeleteBlogComment(s1, id, commentId, actor).value.store == store
  {
    var b := store[id];
    var c := Comment(commentId, actor.id, text, now);
    var s1 := CommentOnBlog(store, id, actor, text, commentId, now).value.store;
    var cs := b.comments + [c];
    assert s1[id].comments == cs;
    assert forall k :: 0 <= k < |b.comments| ==> CommentId(cs[k]) != commentId;
    assert CommentId(cs[|b.comments|]) == commentId;
    assert FindIndex(cs, CommentId, commentId) == |b.comments|;
    RemoveAppended(b.comments, CommentId, c);
    assert s1[id := s1[id].(comments := b.comments)] == store;
  }
}

=== FILE: countdown.dfy ===
/** The countdown on an event page
    (frontend/src/components/events/EventCountdown.tsx). Times are whole
    milliseconds (`getTime()`), and `now` is the clock reading of the tick.
    The source divides in floating point and floors; for a positive
    difference `Math.floor((d / k) % n)` equals `(d / k) % n` on integers
    (the integer part of `d / k` determines the floor of its remainder), so
    the model uses integer division throughout. */
module Countdown {
  import Paging

  const Second := 1000
  const Minute := 60 * Second
  const Hour := 60 * Minute
  const Day := 24 * Hour

  datatype TimeLeft = TimeLeft(days: int, hours: int, minutes: int, seconds: int)

  /** The milliseconds a countdown stands for. */
  function Millis(t: TimeLeft): int {
    t.days * Day + t.hours * Hour + t.minutes * Minute + t.seconds * Second
  }

  /** `calculateTimeLeft`: zero once the start is reached, otherwise whole
      days, then the hours, minutes and seconds left over. */
  function CalculateTimeLeft(startDate: int, now: int): (t: TimeLeft)
    ensures startDate - now <= 0 ==> t == TimeLeft(0, 0, 0, 0)
    ensures t.days >= 0 && 0 <= t.hours < 24 && 0 <= t.minutes < 60 && 0 <= t.seconds < 60
    ensures startDate - now > 0 ==> Millis(t) <= startDate - now < Millis(t) + Second
  {
    var d := startDate - now;
    if d <= 0 then TimeLeft(0, 0, 0, 0)
    else
      var t := TimeLeft(d / Day, (d / Hour) % 24, (d / Minute) % 60, (d / Second) % 60);
      Decompose(d);
      t
  }

  /** The four fields add back up to the whole seconds of the difference. */
  lemma Decompose(d: nat)
    ensures (d / Day) * Day + ((d / Hour) % 24) * Hour + ((d / Minute) % 60) * Minute + ((d / Second) % 60) * Second
            == (d / Second) * Second
  {
    var s := d / Second;
    var m := d / Minute;
    var h := d / Hour;
    assert m == s / 60 && h == m / 60 && d / Day == h / 24;
    assert s == 60 * m + s % 60;
    assert m == 60 * h + m % 60;
    assert h == 24 * (d / Day) + h % 24;
  }

  /** "Event has started!" is shown when every field is zero. */
  predicate Started(t: TimeLeft) {
    t.days == 0 && t.hours == 0 && t.minutes == 0 && t.seconds == 0
  }

  /** The page says the event has started exactly when less than one second
      is left, so it does so up to a second before the start. */
  lemma StartedIffUnderASecond(startDate: int, now: int)
    ensures Started(CalculateTimeLeft(startDate, now)) <==> startDate - now < Second
  {
    var t := CalculateTimeLeft(startDate, now);
    if startDate - now > 0 && Started(t) {
      assert Millis(t) == 0;
    }
  }

  /** The countdown never grows as time passes: a later reading never shows
      more time left than an earlier one. */
  lemma MonotoneInDifference(startDate: int, earlier: int, now: int)
    requires earlier <= now
    ensures Millis(CalculateTimeLeft(startDate, now)) <= Millis(CalculateTimeLeft(startDate, earlier))
  {
    var d1, d2 := startDate - now, startDate - earlier;
    if d1 > 0 {
      Decompose(d1);
      Decompose(d2);
      DivMono(d1, d2, Second);
      assert Millis(CalculateTimeLeft(startDate, now)) == (d1 / Second) * Second;
      assert Millis(CalculateTimeLeft(startDate, earlier)) == (d2 / Second) * Second;
    }
  }

  lemma DivMono(a: nat, b: nat, k: nat)
    requires a <= b && k > 0
    ensures a / k <= b / k
  {
    var p, q := a / k, b / k;
    assert p * k <= a;
    assert b < q * k + k;
    assert p * k < (q + 1) * k;
    Paging.MulLess(p, q + 1, k);
  }
}

=== FILE: discussions.dfy ===
/** The discussion handlers of backend/controllers/discussion.controller.js,
    with the tag normalization the schema in
    backend/models/discussion.model.js applies on save (trim, then lower
    case). These handlers answer with an `error` field instead of a
    `message`; the model keeps the text either way. */
module Discussions {
  import opened Http
  import opened Seqs
  import opened Text
  import opened Membership
  import opened Embedded

  datatype Discussion = Discussion(title: string, description: string, tags: seq<string>, author: UserId,
                                   likes: seq<UserId>, comments: seq<Comment>)

  type Store = map<DocId, Discussion>

  const DiscussionNotFound := "Discussion not found"

  /** A tag as the schema stores it. */
  function NormalizeTag(t: string): (r: string)
    ensures |r| == |Trim(t)| <= |t|
    ensures forall k :: 0 <= k < |r| ==> r[k] == LowerChar(Trim(t)[k])
    ensures forall k :: 0 <= k < |r| ==> !('A' <= r[k] <= 'Z')
    ensures |r| > 0 ==> !IsSpace(r[0]) && !IsSpace(r[|r| - 1])
  {
    var s := Trim(t);
    var r := Lower(s);
    assert |r| > 0 ==> r[0] == LowerChar(s[0]) && r[|r| - 1] == LowerChar(s[|s| - 1]);
    r
  }

  function NormalizeTags(tags: seq<string>): (r: seq<string>)
    ensures |r| == |tags|
    ensures forall k :: 0 <= k < |r| ==> r[k] == NormalizeTag(tags[k])
  {
    seq(|tags|, k requires 0 <= k < |tags| => NormalizeTag(tags[k]))
  }

  /** A string without leading or trailing white space trims to itself. */
  lemma TrimTrimmed(s: string)
    requires |s| > 0 ==> !IsSpace(s[0]) && !IsSpace(s[|s| - 1])
    ensures Trim(s) == s
  {
    var r := Trim(s);
    var i, j :| && 0 <= i <= j <= |s| && r == s[i..j]
                && (forall m :: 0 <= m < i ==> IsSpace(s[m]))
                && (forall m :: j <= m < |s| ==> IsSpace(s[m]));
    assert i == 0 && j == |s|;
  }

  /** Saving a discussion again does not change its tags. */
  lemma NormalizeTagIdempotent(t: string)
    ensures NormalizeTag(NormalizeTag(t)) == NormalizeTag(t)
  {
    var r := NormalizeTag(t);
    TrimTrimmed(r);
    assert Lower(r) == r;
  }

  /** The actor's registered account must exist; `users` is the set of
      account ids. Title and description are checked first (400), then the
      account (404). */
  function CreateDiscussion(store: Store, users: set<UserId>, id: DocId, actor: Actor, title: string,
                            description: string, tags: seq<string>): (r: Result<Step<Discussion, Discussion>>)
    requires id !in store
    ensures title == "" || description == "" <==> r == Err(Reject(BadRequest, "Title and description are required"))
    ensures title != "" && description != "" ==> (actor.id !in users <==> r == Err(Reject(NotFound, "User not found")))
    ensures r.Ok? ==> var d := r.value.body;
              && r.value.store == store[id := d] && r.value.store.Keys == store.Keys + {id}
              && d.author == actor.id && d.title == title && d.description == description
              && d.likes == [] && d.comments == []
              && d.tags == NormalizeTags(tags)
    ensures title != "" && description != "" && actor.id in users ==> r.Ok?
  {
    if title == "" || description == "" then Err(Reject(BadRequest, "Title and description are required"))
    else if actor.id !in users then Err(Reject(NotFound, "User not found"))
    else
      var d := Discussion(title, description, NormalizeTags(tags), actor.id, [], []);
      Ok(Step(store[id := d], d))
  }

  /** The like response: which way the toggle went and the new total. */
  datatype LikeReply = LikeReply(message: string, totalLikes: nat)

  /** POST /api/discussions/:id/like: `includes` then `pull` (every entry)
      or `push`. */
  function LikeDiscussion(store: Store, id: DocId, actor: Actor): (r: Result<Step<Discussion, LikeReply>>)
    ensures id !in store <==> r == Err(Reject(NotFound, DiscussionNotFound))
    ensures id in store ==> r.Ok?
    ensures r.Ok? ==> id in store && id in r.value.store && var d := store[id]; var d' := r.value.store[id];
              && r.value.store == store[id := d']
              && d' == d.(likes := d'.likes)
              && d'.likes == Toggle(d.likes, actor.id)
              && (actor.id in d'.likes <==> actor.id !in d.likes)
              && (forall u :: u != actor.id ==> (u in d'.likes <==> u in d.likes))
              && r.value.body.totalLikes == |d'.likes|
              && (r.value.body.message == "Liked successfully" <==> actor.id in d'.likes)
              && (r.value.body.message == "Unliked successfully" <==> actor.id !in d'.likes)
  {
    var d :- Find(store, id, DiscussionNotFound);
    var liked := actor.id in d.likes;
    var d' := d.(likes := Toggle(d.likes, actor.id));
    Ok(Step(store[id := d'], LikeReply(if liked then "Unliked successfully" else "Liked successfully", |d'.likes|)))
  }

  /** Liking twice leaves the store as it was. */
  lemma LikeTwiceRestores(store: Store, id: DocId, actor: Actor)
    requires id in store && actor.id !in store[id].likes
    ensures var s1 := LikeDiscussion(store, id, actor).value.store;
            LikeDiscussion(s1, id, actor).Ok? && LikeDiscussion(s1, id, actor).value.store == store
  {
    var d := store[id];
    ToggleTwiceRestores(d.likes, actor.id);
    var s1 := LikeDiscussion(store, id, actor).value.store;
    assert s1[id].likes == Toggle(d.likes, actor.id);
    assert s1[id := s1[id].(likes := d.likes)] == store;
  }

  /** The comment as the handler builds it: the user, the text and the
      time, without the id the stored sub-document receives. */
  datatype NewComment = NewComment(user: UserId, text: string, createdAt: int)

  /** POST /api/discussions/:id/comment: the stored comment gets an id; the
      reply carries the literal the handler built, which has none. */
  function AddCommentToDiscussion(store: Store, id: DocId, actor: Actor, text: string, commentId: DocId,
                                  now: int): (r: Result<Step<Discussion, NewComment>>)
    ensures text == "" <==> r == Err(Reject(BadRequest, "Comment text is required"))
    ensures text != "" ==> (id !in store <==> r == Err(Reject(NotFound, DiscussionNotFound)))
    ensures text != "" && id in store ==> r.Ok?
    ensures r.Ok? ==> id in store && id in r.value.store && var d := store[id]; var d' := r.value.store[id];
              && r.value.store == store[id := d']
              && r.value.body == NewComment(actor.id, text, now)
              && d' == d.(comments := d.comments + [Comment(commentId, actor.id, text, now)])
  {
    if text == "" then Err(Reject(BadRequest, "Comment text is required"))
    else
      var d :- Find(store, id, DiscussionNotFound);
      var c := NewComment(actor.id, text, now);
      Ok(Step(store[id := d.(comments := d.comments + [Comment(commentId, c.user, c.text, c.createdAt)])], c))
  }

  /** DELETE /api/discussions/:id: the author only, with no admin override. */
  function DeleteDiscussion(store: Store, id: DocId, actor: Actor): (r: Result<Step<Discussion, string>>)
    ensures id !in store <==> r == Err(Reject(NotFound, DiscussionNotFound))
    ensures id in store && !IsOwner(actor, store[id].author) <==>
              r == Err(Reject(Forbidden, "You are not authorized to delete this discussion"))
    ensures id in store && IsOwner(actor, store[id].author) ==> r.Ok?
    ensures r.Ok? ==> r.value.store.Keys == store.Keys - {id}
                      && forall k :: k in r.value.store ==> r.value.store[k] == store[k]
  {
    var d :- Find(store, id, DiscussionNotFound);
    if !IsOwner(actor, d.author) then Err(Reject(Forbidden, "You are not authorized to delete this discussion"))
    else Ok(Step(store - {id}, "Discussion deleted successfully"))
  }
}

=== FILE: embedded.dfy ===
/** Comments and answers are sub-documents embedded in their parent, each
    with a server-assigned id. This module holds what the controllers do to
    such a list: find the first entry with an id (`array.find`,
    `answers.id(...)`), remove every entry with an id (`filter`, `pull`), and
    the comment-deletion step shared by the project and blog controllers. */
module Embedded {
  import opened Http
  import opened Seqs

  datatype Comment = Comment(id: DocId, user: UserId, text: string, createdAt: int)

  /** Position of the first entry whose key is `id`, or -1. */
  function FindIndex<T>(s: seq<T>, key: T -> DocId, id: DocId): (i: int)
    ensures -1 <= i < |s|
    ensures i == -1 <==> forall k :: 0 <= k < |s| ==> key(s[k]) != id
    ensures i >= 0 ==> key(s[i]) == id && forall k :: 0 <= k < i ==> key(s[k]) != id
  {
    if |s| == 0 then -1
    else if key(s[0]) == id then 0
    else
      var k := FindIndex(s[1..], key, id);
      if k == -1 then -1 else k + 1
  }

  /** Every entry whose key is `id` removed, the others kept in order. */
  function RemoveKey<T(!new)>(s: seq<T>, key: T -> DocId, id: DocId): (r: seq<T>)
    ensures forall x :: x in r <==> x in s && key(x) != id
    ensures forall k :: 0 <= k < |r| ==> key(r[k]) != id
    ensures SubseqOf(r, s)
    ensures (forall k :: 0 <= k < |s| ==> key(s[k]) != id) ==> r == s
    ensures forall x :: key(x) != id ==> Count(r, x) == Count(s, x)
  {
    var keep := x => key(x) != id;
    assert (forall k :: 0 <= k < |s| ==> key(s[k]) != id) ==> Filter(s, keep) == s by {
      if forall k :: 0 <= k < |s| ==> key(s[k]) != id {
        FilterAllPass(s, keep);
      }
    }
    assert forall x :: key(x) != id ==> Count(Filter(s, keep), x) == Count(s, x) by {
      forall x | key(x) != id ensures Count(Filter(s, keep), x) == Count(s, x) {
        FilterCount(s, keep, x);
      }
    }
    Filter(s, keep)
  }

  /** An entry appended with a fresh id is exactly undone by removing that id. */
  lemma RemoveAppended<T(!new)>(s: seq<T>, key: T -> DocId, x: T)
    requires forall k :: 0 <= k < |s| ==> key(s[k]) != key(x)
    ensures RemoveKey(s + [x], key, key(x)) == s
  {
    FilterAppend(s, [x], y => key(y) != key(x));
    FilterAllPass(s, y => key(y) != key(x));
  }

  function CommentId(c: Comment): DocId {
    c.id
  }

  /** The comment-deletion step of the project and blog controllers once the
      parent is loaded: 404 when no comment has the id, then 403 unless the
      actor wrote the (first) comment with that id or is an admin; otherwise
      every comment with that id is removed. */
  function DeleteComment(comments: seq<Comment>, id: DocId, actor: Actor): (r: Result<seq<Comment>>)
    ensures r == Err(Reject(NotFound, "Comment not found")) <==>
              forall k :: 0 <= k < |comments| ==> comments[k].id != id
    ensures r == Err(Reject(Forbidden, "Not authorized to delete this comment")) <==>
              exists k :: 0 <= k < |comments| && comments[k].id == id
                 && (forall m :: 0 <= m < k ==> comments[m].id != id)
                 && !OwnerOrAdmin(actor, comments[k].user)
    ensures r.Ok? || r == Err(Reject(NotFound, "Comment not found"))
            || r == Err(Reject(Forbidden, "Not authorized to delete this comment"))
    ensures r.Ok? ==> forall c :: c in r.value <==> c in comments && c.id != id
    ensures r.Ok? ==> SubseqOf(r.value, comments)
  {
    var i := FindIndex(comments, CommentId, id);
    if i == -1 then Err(Reject(NotFound, "Comment not found"))
    else if !OwnerOrAdmin(actor, comments[i].user) then
      Err(Reject(Forbidden, "Not authorized to delete this comment"))
    else
      Ok(RemoveKey(comments, CommentId, id))
  }
}

=== FILE: events.dfy ===
/** The event handlers of backend/controllers/eventController.js. Dates are
    milliseconds since the epoch; the request's `new Date()` is the parameter
    `now`. */
module Events {
  import opened Http
  import opened Seqs
  import opened Text
  import opened Membership
  import opened Paging

  datatype Event = Event(title: string, description: string, eventType: string, startDate: int, endDate: int,
                         location: string, meetingLink: string, coverImage: string, tags: seq<string>,
                         organizer: UserId, attendees: seq<UserId>, createdAt: int)

  type Store = map<DocId, Event>

  datatype Input = Input(title: string, description: string, eventType: string, startDate: int, endDate: int,
                         location: string, meetingLink: string, tags: ListField, coverImage: string)

  const EventNotFound := "Event not found"

  /** POST /api/events: the actor organizes the new event, which starts with
      no attendees. */
  function CreateEvent(store: Store, id: DocId, actor: Actor, input: Input, upload: string -> string,
                       now: int): (r: Result<Step<Event, Event>>)
    requires id !in store
    ensures input.tags.Absent? <==> r == Err(Crash)
    ensures r.Ok? || r == Err(Crash)
    ensures r.Ok? ==> var e := r.value.body;
              && r.value.store == store[id := e] && r.value.store.Keys == store.Keys + {id}
              && e.organizer == actor.id && e.attendees == []
              && e.title == input.title && e.startDate == input.startDate && e.endDate == input.endDate
              && e.description == input.description && e.eventType == input.eventType
              && e.location == input.location && e.meetingLink == input.meetingLink
              && e.createdAt == now
              && e.tags == ParseList(input.tags).value
              && (input.coverImage == "" ==> e.coverImage == "")
              && (input.coverImage != "" ==> e.coverImage == upload(input.coverImage))
  {
    var cover := if input.coverImage != "" then upload(input.coverImage) else "";
    var tags :- ParseList(input.tags);
    var e := Event(input.title, input.description, input.eventType, input.startDate, input.endDate,
                   input.location, input.meetingLink, cover, tags, actor.id, [], now);
    Ok(Step(store[id := e], e))
  }

  /** GET /api/events/:id: a read that changes nothing. */
  function GetEventById(store: Store, id: DocId): (r: Result<Event>)
    ensures id !in store <==> r == Err(Reject(NotFound, EventNotFound))
    ensures id in store ==> r.Ok?
    ensures r.Ok? ==> id in store && r.value == store[id]
  {
    Find(store, id, EventNotFound)
  }

  /** A date parameter: absent, parsed, or unparseable (an Invalid Date the
      database refuses to cast, which throws). */
  datatype DateParam = NoDate | Date(t: int) | BadDate

  datatype Query = Query(search: string, eventType: string, tags: string, organizer: string,
                         startDate: DateParam, endDate: DateParam, upcoming: string, past: string,
                         sort: string, page: Parsed, limit: Parsed)

  /** The bound on `endDate`: `$lte` from the parameter or `$lt` now. */
  datatype EndBound = AtMost(t: int) | Before(t: int)

  datatype Filter = Filter(search: Option<string>, eventType: Option<string>, tags: Option<seq<string>>,
                           organizer: Option<UserId>, startFrom: Option<int>, endBound: Option<EndBound>)

  predicate Matches(f: Filter, e: Event, regex: (string, string) -> bool) {
    && (f.search.Some? ==> regex(e.title, f.search.value) || regex(e.description, f.search.value))
    && (f.eventType.Some? ==> e.eventType == f.eventType.value)
    && (f.tags.Some? ==> exists k :: 0 <= k < |e.tags| && e.tags[k] in f.tags.value)
    && (f.organizer.Some? ==> e.organizer == f.organizer.value)
    && (f.startFrom.Some? ==> e.startDate >= f.startFrom.value)
    && (match f.endBound
        case None => true
        case Some(AtMost(t)) => e.endDate <= t
        case Some(Before(t)) => e.endDate < t)
  }

  /** The filter the handler builds. `upcoming=true` replaces the start-date
      bound and `past=true` the end-date bound, so an unparseable date that
      is replaced does no harm. */
  function Build(q: Query, now: int): (r: Result<Filter>)
    ensures r == Err(Crash) <==> (q.startDate.BadDate? && q.upcoming != "true") || (q.endDate.BadDate? && q.past != "true")
    ensures r.Ok? ==> && (q.upcoming == "true" ==> r.value.startFrom == Some(now))
                      && (q.upcoming != "true" && q.startDate.Date? ==> r.value.startFrom == Some(q.startDate.t))
                      && (q.upcoming != "true" && q.startDate.NoDate? ==> r.value.startFrom.None?)
                      && (q.past == "true" ==> r.value.endBound == Some(Before(now)))
                      && (q.past != "true" && q.endDate.Date? ==> r.value.endBound == Some(AtMost(q.endDate.t)))
                      && (q.past != "true" && q.endDate.NoDate? ==> r.value.endBound.None?)
  {
    var startFrom :- if q.upcoming == "true" then Ok(Some(now))
                     else match q.startDate
                          case NoDate => Ok(None)
                          case Date(t) => Ok(Some(t))
                          case BadDate => Err(Crash);
    var endBound :- if q.past == "true" then Ok(Some(Before(now)))
                    else match q.endDate
                         case NoDate => Ok(None)
                         case Date(t) => Ok(Some(AtMost(t)))
                         case BadDate => Err(Crash);
    Ok(Filter(if q.search != "" then Some(q.search) else None,
              if q.eventType != "" then Some(q.eventType) else None,
              if q.tags != "" then Some(SplitTrim(q.tags)) else None,
              if q.organizer != "" then Some(q.organizer) else None,
              startFrom, endBound))
  }

  /** With `upcoming=true` the start-date parameter has no effect at all. */
  lemma UpcomingOverridesStartDate(q: Query, now: int, d: DateParam)
    requires q.upcoming == "true"
    ensures Build(q, now) == Build(q.(startDate := d), now)
  {
  }

  /** With `past=true` the end-date parameter has no effect at all. */
  lemma PastOverridesEndDate(q: Query, now: int, d: DateParam)
    requires q.past == "true"
    ensures Build(q, now) == Build(q.(endDate := d), now)
  {
  }

  /** The sort orders: start date ascending unless `sort=newest`. */
  datatype Order = ByStart | Newest

  function OrderOf(sort: string): (o: Order)
    ensures o == Newest <==> sort == "newest"
  {
    if sort == "newest" then Newest else ByStart
  }

  /** Whether `a` may come before `b` in the order. */
  function Precedes(o: Order): (Event, Event) -> bool {
    match o
    case ByStart => (a: Event, b: Event) => a.startDate <= b.startDate
    case Newest => (a: Event, b: Event) => a.createdAt >= b.createdAt
  }

  /** The events a built filter lets through. */
  function Hits(f: Filter, regex: (string, string) -> bool): Event -> bool {
    e => Matches(f, e, regex)
  }

  /** GET /api/events over the events in the order the query asks for: the
      page holds matching events only, in that order, and the total counts
      every matching event. */
  function GetEvents(sorted: seq<Event>, q: Query, now: int, regex: (string, string) -> bool): (r: Result<Listing<Event>>)
    requires Ordered(sorted, Precedes(OrderOf(q.sort)))
    requires WindowOf(q.page, q.limit).page >= 1 && WindowOf(q.page, q.limit).limit >= 1
    ensures r.Err? <==> Build(q, now).Err?
    ensures r.Ok? ==> var f := Build(q, now).value;
              && (forall e :: e in r.value.items ==> e in sorted && Matches(f, e, regex))
              && Ordered(r.value.items, Precedes(OrderOf(q.sort)))
              && r.value.total == |Seqs.Filter(sorted, Hits(f, regex))|
              && r.value == Paginate(Seqs.Filter(sorted, Hits(f, regex)), q.page, q.limit)
    ensures r.Ok? && q.upcoming == "true" ==> forall e :: e in r.value.items ==> e.startDate >= now
    ensures r.Ok? && q.past == "true" ==> forall e :: e in r.value.items ==> e.endDate < now
  {
    var f :- Build(q, now);
    var matching := Seqs.Filter(sorted, Hits(f, regex));
    SubseqOrdered(matching, sorted, Precedes(OrderOf(q.sort)));
    var r := Paginate(matching, q.page, q.limit);
    assert forall k :: 0 <= k < |r.items| ==> r.items[k] in matching;
    Ok(r)
  }

  /** PUT /api/events/:id: the organizer only (no admin override); the
      attendees, organizer and creation time are kept. */
  function UpdateEvent(store: Store, id: DocId, actor: Actor, input: Input,
                       upload: string -> string): (r: Result<Step<Event, Event>>)
    ensures id !in store <==> r == Err(Reject(NotFound, EventNotFound))
    ensures id in store && !IsOwner(actor, store[id].organizer) <==>
              r == Err(Reject(Forbidden, "Not authorized to update this event"))
    ensures id in store && IsOwner(actor, store[id].organizer) ==> (input.tags.Absent? <==> r == Err(Crash))
    ensures id in store && IsOwner(actor, store[id].organizer) && !input.tags.Absent? ==> r.Ok?
    ensures r.Ok? ==> id in store && var e := store[id]; var e' := r.value.body;
              && r.value.store == store[id := e'] && r.value.store.Keys == store.Keys
              && e'.organizer == e.organizer && e'.attendees == e.attendees && e'.createdAt == e.createdAt
              && e'.title == input.title && e'.startDate == input.startDate && e'.endDate == input.endDate
              && e'.description == input.description && e'.eventType == input.eventType
              && e'.location == input.location && e'.meetingLink == input.meetingLink
              && e'.tags == ParseList(input.tags).value
              && e'.coverImage == KeepOrUpload(e.coverImage, input.coverImage, upload)
  {
    var e :- Find(store, id, EventNotFound);
    if !IsOwner(actor, e.organizer) then Err(Reject(Forbidden, "Not authorized to update this event"))
    else
      var cover := KeepOrUpload(e.coverImage, input.coverImage, upload);
      var tags :- ParseList(input.tags);
      var e' := e.(title := input.title, description := input.description, eventType := input.eventType,
                   startDate := input.startDate, endDate := input.endDate, location := input.location,
                   meetingLink := input.meetingLink, coverImage := cover, tags := tags);
      Ok(Step(store[id := e'], e'))
  }

  /** Sending the same form twice (with no new cover) changes nothing the
      second time. */
  lemma UpdateEventIdempotent(store: Store, id: DocId, actor: Actor, input: Input, upload: string -> string)
    requires UpdateEvent(store, id, actor, input, upload).Ok?
    requires input.coverImage == ""
    ensures var s1 := UpdateEvent(store, id, actor, input, upload).value.store;
            UpdateEvent(s1, id, actor, input, upload).Ok?
            && UpdateEvent(s1, id, actor, input, upload).value.store == s1
  {
    var e' := UpdateEvent(store, id, actor, input, upload).value.body;
    var s1 := store[id := e'];
    assert s1[id] == e';
    assert s1[id := e'] == s1;
  }

  /** DELETE /api/events/:id: the organizer or an admin. */
  function DeleteEvent(store: Store, id: DocId, actor: Actor): (r: Result<Step<Event, string>>)
    ensures id !in store <==> r == Err(Reject(NotFound, EventNotFound))
    ensures id in store && !OwnerOrAdmin(actor, store[id].organizer) <==>
              r == Err(Reject(Forbidden, "Not authorized to delete this event"))
    ensures id in store && OwnerOrAdmin(actor, store[id].organizer) ==> r.Ok?
    ensures r.Ok? ==> r.value.store.Keys == store.Keys - {id}
                      && forall k :: k in r.value.store ==> r.value.store[k] == store[k]
  {
    var e :- Find(store, id, EventNotFound);
    if !OwnerOrAdmin(actor, e.organizer) then Err(Reject(Forbidden, "Not authorized to delete this event"))
    else Ok(Step(store - {id}, "Event removed"))
  }

  /** The response body of the attend handler. */
  datatype Attendance = Attendance(attending: bool, attendees: seq<UserId>, attendeesCount: nat)

  /** POST /api/events/:id/attend: join when not attending, leave otherwise;
      `attending` reports the actor's new state. */
  function AttendEvent(store: Store, id: DocId, actor: Actor): (r: Result<Step<Event, Attendance>>)
    ensures id !in store <==> r == Err(Reject(NotFound, EventNotFound))
    ensures id in store ==> r.Ok?
    ensures r.Ok? ==> id in store && id in r.value.store && var e := store[id]; var e' := r.value.store[id];
              && r.value.store == store[id := e']
              && e' == e.(attendees := e'.attendees)
              && e'.attendees == Toggle(e.attendees, actor.id)
              && r.value.body.attending == (actor.id in e'.attendees) == (actor.id !in e.attendees)
              && (forall u :: u != actor.id ==> (u in e'.attendees <==> u in e.attendees))
              && r.value.body.attendees == e'.attendees
              && r.value.body.attendeesCount == |e'.attendees|
  {
    var e :- Find(store, id, EventNotFound);
    var already := actor.id in e.attendees;
    var e' := e.(attendees := Toggle(e.attendees, actor.id));
    Ok(Step(store[id := e'], Attendance(!already, e'.attendees, |e'.attendees|)))
  }

  /** Joining and then leaving leaves the store as it was. */
  lemma AttendTwiceRestores(store: Store, id: DocId, actor: Actor)
    requires id in store && actor.id !in store[id].attendees
    ensures var s1 := AttendEvent(store, id, actor).value.store;
            AttendEvent(s1, id, actor).Ok? && AttendEvent(s1, id, actor).value.store == store
  {
    var e := store[id];
    ToggleTwiceRestores(e.attendees, actor.id);
    var s1 := AttendEvent(store, id, actor).value.store;
    assert s1[id].attendees == Toggle(e.attendees, actor.id);
    assert s1[id := s1[id].(attendees := e.attendees)] == store;
  }
}

=== FILE: http.dfy ===
/** Shared vocabulary of the backend handlers: identities, the authenticated
    actor, the error replies a handler can send, and the two authorization
    rules the controllers use. Every handler of the model is a pure function
    from a store (a map from document id to document) and the request to
    either an error reply or the new store together with the response body. */
module Http {

  /** Mongo ObjectIds, compared by their string form as the controllers do. */
  type UserId = string
  type DocId = string

  datatype Option<T> = None | Some(value: T)

  datatype Role = Member | Admin

  /** The identity the authentication middleware attaches to the request. */
  datatype Actor = Actor(id: UserId, role: Role)

  /** An error reply. `Reject` is a reply the handler sends itself, with its
      status and message; `Crash` is an exception (a TypeError on an absent
      field, a failed database call) that reaches the Express error handler,
      which answers 500. */
  datatype Error = Reject(status: int, message: string) | Crash

  datatype Result<T> = Ok(value: T) | Err(error: Error) {
    predicate IsFailure() {
      Err?
    }

    function PropagateFailure<U>(): Result<U>
      requires Err?
    {
      Err(error)
    }

    function Extract(): T
      requires Ok?
    {
      value
    }
  }

  /** The store after the request together with the response body. */
  datatype Step<D, B> = Step(store: map<DocId, D>, body: B)

  const BadRequest := 400
  const Unauthorized := 401
  const Forbidden := 403
  const NotFound := 404

  /** The creator-only rule (`doc.createdBy !== req.user._id`). */
  predicate IsOwner(actor: Actor, owner: UserId) {
    actor.id == owner
  }

  /** The creator-or-admin rule (`... && req.user.role !== 'admin'`). */
  predicate OwnerOrAdmin(actor: Actor, owner: UserId) {
    actor.id == owner || actor.role == Admin
  }

  /** `Model.findById(id)` followed by the handler's 404 reply when it is null. */
  function Find<D>(store: map<DocId, D>, id: DocId, message: string): (r: Result<D>)
    ensures r.Ok? <==> id in store
    ensures r.Ok? ==> r.value == store[id]
    ensures r.Err? ==> r.error == Reject(NotFound, message)
  {
    if id in store then Ok(store[id]) else Err(Reject(NotFound, message))
  }

  /** The image rule shared by the update handlers: the stored URL is kept
      unless a non-empty image different from it is supplied, in which case
      the media service's URL for the upload replaces it. */
  function KeepOrUpload(stored: string, supplied: string, upload: string -> string): (url: string)
    ensures supplied == "" || supplied == stored ==> url == stored
    ensures supplied != "" && supplied != stored ==> url == upload(supplied)
  {
    if supplied != "" && supplied != stored then upload(supplied) else stored
  }
}

=== FILE: membership.dfy ===
/** The like/upvote/attend toggles on a list of user ids. Two variants occur:
    the filter-all variant of the main controllers (remove every entry equal
    to the user if one is present, else push the user), and the
    index/splice variant of the showcase project controller, which also keeps
    a separate counter. */
module Membership {
  import opened Seqs

  /** `list.some(x => x === u) ? list.filter(x => x !== u) : [...list, u]` */
  function Toggle<T(==,!new)>(s: seq<T>, u: T): (r: seq<T>)
    ensures u in r <==> u !in s
    ensures Count(r, u) <= 1
    ensures forall x :: x != u ==> (x in r <==> x in s)
    ensures u in s ==> SubseqOf(r, s)
    ensures u !in s ==> |r| == |s| + 1 && r[..|s|] == s
  {
    if u in s then Filter(s, x => x != u)
    else CountAppend(s, [u], u); s + [u]
  }

  /** Every other user keeps exactly as many entries as before. */
  lemma ToggleKeepsOthers<T(!new)>(s: seq<T>, u: T, x: T)
    requires x != u
    ensures Count(Toggle(s, u), x) == Count(s, x)
  {
    if u in s {
      FilterCount(s, y => y != u, x);
    } else {
      CountAppend(s, [u], x);
    }
  }

  /** Toggling twice from "absent" gives back the original list. */
  lemma ToggleTwiceRestores<T(!new)>(s: seq<T>, u: T)
    requires u !in s
    ensures Toggle(Toggle(s, u), u) == s
  {
    FilterAppend(s, [u], x => x != u);
    FilterAllPass(s, x => x != u);
  }

  /** A duplicate-free list stays duplicate-free. */
  lemma ToggleKeepsNoDup<T(!new)>(s: seq<T>, u: T)
    requires NoDup(s)
    ensures NoDup(Toggle(s, u))
  {
    if u in s {
      FilterKeepsNoDup(s, x => x != u);
    } else {
      var r := s + [u];
      forall i, j | 0 <= i < j < |r| ensures r[i] != r[j] {
        if j == |s| {
          assert r[i] == s[i];
        } else {
          assert r[i] == s[i] && r[j] == s[j];
        }
      }
    }
  }

  /** `list.indexOf(u)`: the first position of `u`, or -1. */
  function IndexOf<T(==)>(s: seq<T>, u: T): (i: int)
    ensures -1 <= i < |s|
    ensures i == -1 <==> u !in s
    ensures i >= 0 ==> s[i] == u && u !in s[..i]
  {
    if |s| == 0 then -1
    else if s[0] == u then 0
    else
      var k := IndexOf(s[1..], u);
      assert k >= 0 ==> s[..k + 1] == [s[0]] + s[1..][..k];
      if k == -1 then -1 else k + 1
  }

  /** The counter-and-list like of the showcase projects: when `u` is absent
      it is pushed and the counter incremented; otherwise its first entry is
      spliced out and the counter decremented. */
  function CounterToggle<T(==)>(likes: int, likedBy: seq<T>, u: T): (r: (int, seq<T>))
    ensures u !in likedBy ==> r.0 == likes + 1 && r.1 == likedBy + [u]
    ensures u in likedBy ==> r.0 == likes - 1 && |r.1| == |likedBy| - 1
    ensures u in likedBy ==> multiset(r.1) == multiset(likedBy) - multiset{u}
    ensures u in likedBy ==> exists i :: 0 <= i < |likedBy| && likedBy[i] == u && u !in likedBy[..i]
                                      && r.1 == likedBy[..i] + likedBy[i + 1..]
  {
    var i := IndexOf(likedBy, u);
    if i == -1 then (likes + 1, likedBy + [u])
    else
      assert likedBy == likedBy[..i] + [u] + likedBy[i + 1..];
      (likes - 1, likedBy[..i] + likedBy[i + 1..])
  }

  /** Liking and then unliking restores both the counter and the list. */
  lemma CounterToggleTwiceRestores<T>(likes: int, likedBy: seq<T>, u: T)
    requires u !in likedBy
    ensures var r := CounterToggle(likes, likedBy, u); CounterToggle(r.0, r.1, u) == (likes, likedBy)
  {
    var s := likedBy + [u];
    var i := IndexOf(s, u);
    assert i == |likedBy|;
    assert s[..i] == likedBy && s[i + 1..] == [];
    assert s[..i] + s[i + 1..] == likedBy;
    assert CounterToggle(likes, likedBy, u) == (likes + 1, s);
    assert CounterToggle(likes + 1, s, u) == (likes, s[..i] + s[i + 1..]);
  }

  /** A duplicate-free list stays duplicate-free, and after an unlike the
      user is gone altogether. */
  lemma CounterToggleKeepsNoDup<T>(likes: int, likedBy: seq<T>, u: T)
    requires NoDup(likedBy)
    ensures NoDup(CounterToggle(likes, likedBy, u).1)
    ensures u in likedBy ==> u !in CounterToggle(likes, likedBy, u).1
  {
    var r := CounterToggle(likes, likedBy, u).1;
    if u in likedBy {
      var i := IndexOf(likedBy, u);
      assert r == likedBy[..i] + likedBy[i + 1..];
      assert forall k :: 0 <= k < |r| ==> r[k] == likedBy[if k < i then k else k + 1];
      forall a, b | 0 <= a < b < |r| ensures r[a] != r[b] {
        var a' := if a < i then a else a + 1;
        var b' := if b < i then b else b + 1;
        assert a' < b' && r[a] == likedBy[a'] && r[b] == likedBy[b'];
      }
    } else {
      forall a, b | 0 <= a < b < |r| ensures r[a] != r[b] {
        if b == |likedBy| {
          assert r[a] == likedBy[a];
        } else {
          assert r[a] == likedBy[a] && r[b] == likedBy[b];
        }
      }
    }
  }
}

=== FILE: paging.dfy ===
/** The list-query arithmetic every list handler repeats:
    `page = parseInt(q.page, 10) || 1`, `limit = parseInt(q.limit, 10) || 10`,
    `skip = (page - 1) * limit`, `totalPages = Math.ceil(total / limit)`, and
    the page of results the database returns for `.skip(skip).limit(limit)`. */
module Paging {
  import opened Http

  /** The outcome of `parseInt(x, 10)`: `NaN` for an absent or
      unparseable parameter. */
  datatype Parsed = NaN | Num(n: int)

  /** `parseInt(x, 10) || d`: `NaN` and `0` are falsy and give the default;
      every other number, negative ones included, is kept. */
  function OrDefault(p: Parsed, d: int): (v: int)
    ensures p.Num? && p.n != 0 ==> v == p.n
    ensures p.NaN? || p.n == 0 ==> v == d
  {
    if p.Num? && p.n != 0 then p.n else d
  }

  datatype Window = Window(page: int, limit: int, skip: int)

  const DefaultPage := 1
  const DefaultLimit := 10

  /** The page, limit and skip a list handler derives from its query. */
  function WindowOf(page: Parsed, limit: Parsed): (w: Window)
    ensures w.page != 0 && w.limit != 0
    ensures w.page == OrDefault(page, DefaultPage) && w.limit == OrDefault(limit, DefaultLimit)
    ensures w.skip == (w.page - 1) * w.limit
    ensures w.limit > 0 ==> (w.skip >= 0 <==> w.page >= 1)
  {
    var p := OrDefault(page, DefaultPage);
    var l := OrDefault(limit, DefaultLimit);
    assert l > 0 ==> (p >= 1 <==> (p - 1) * l >= 0) by {
      if l > 0 && p < 1 {
        assert (p - 1) * l <= -l;
      }
    }
    Window(p, l, (p - 1) * l)
  }

  /** `Math.ceil(a / b)` on integers, with JavaScript's exact division. */
  function CeilDiv(a: int, b: int): (q: int)
    requires b != 0
    ensures b > 0 ==> (q - 1) * b < a <= q * b
    ensures b < 0 ==> q * b <= a < (q - 1) * b
  {
    if b > 0 then
      var q := (a + b - 1) / b;
      assert q * b <= a + b - 1 < q * b + b;
      q
    else
      var q := a / b;
      assert q * b <= a < q * b - b;
      q
  }

  /** `.skip(skip).limit(limit)` on the matching documents in query order. */
  function Slice<T>(items: seq<T>, skip: nat, limit: nat): (r: seq<T>)
    ensures |r| <= limit
    ensures skip >= |items| ==> r == []
    ensures skip < |items| ==> |r| == if skip + limit <= |items| then limit else |items| - skip
    ensures forall k :: 0 <= k < |r| ==> r[k] == items[skip + k]
  {
    if skip >= |items| then []
    else if skip + limit <= |items| then items[skip..skip + limit]
    else items[skip..]
  }

  /** The fields of a list response besides the documents themselves. */
  datatype Listing<T> = Listing(items: seq<T>, count: nat, total: nat, totalPages: int, currentPage: int)

  /** A list handler's response for the documents that match its query, in
      the order the query sorts them. Only windows the database accepts
      (page and limit at least 1) are modelled. */
  function Paginate<T>(matching: seq<T>, page: Parsed, limit: Parsed): (r: Listing<T>)
    requires WindowOf(page, limit).page >= 1 && WindowOf(page, limit).limit >= 1
    ensures r.total == |matching| && r.count == |r.items|
    ensures r.currentPage == WindowOf(page, limit).page
    ensures r.items == Slice(matching, WindowOf(page, limit).skip, WindowOf(page, limit).limit)
    ensures (r.totalPages - 1) * WindowOf(page, limit).limit < r.total <= r.totalPages * WindowOf(page, limit).limit
  {
    var w := WindowOf(page, limit);
    var items := Slice(matching, w.skip, w.limit);
    Listing(items, |items|, |matching|, CeilDiv(|matching|, w.limit), w.page)
  }

  /** The page after the last one is empty, not an error. */
  lemma PageAfterLastIsEmpty<T>(matching: seq<T>, page: int, limit: int)
    requires page >= 1 && limit >= 1
    requires page == CeilDiv(|matching|, limit) + 1
    ensures Paginate(matching, Num(page), Num(limit)).items == []
  {
    var tp := CeilDiv(|matching|, limit);
    assert |matching| <= tp * limit;
    assert (page - 1) * limit == tp * limit;
  }

  lemma MulMono(a: int, b: int, l: int)
    requires l > 0 && a >= b
    ensures a * l >= b * l
  {
    var d := a - b;
    assert a * l == b * l + d * l;
  }

  lemma MulLess(a: int, b: int, l: int)
    requires l > 0 && a * l < b * l
    ensures a < b
  {
    if a >= b {
      MulMono(a, b, l);
    }
  }

  /** The page of the `k`-th match is within the last page. */
  lemma PageWithinTotal(k: int, n: int, limit: int, tp: int)
    requires limit >= 1 && 0 <= k < n <= tp * limit
    ensures k / limit < tp
  {
    var q := k / limit;
    assert q * limit <= k;
    MulLess(q, tp, limit);
  }

  /** Every matching document appears, on page `k / limit + 1` at position
      `k % limit`, and that page is within `totalPages`. */
  lemma EveryItemOnItsPage<T>(matching: seq<T>, limit: int, k: int)
    requires limit >= 1 && 0 <= k < |matching|
    ensures var page := k / limit + 1;
      var r := Paginate(matching, Num(page), Num(limit));
      && page <= r.totalPages
      && k % limit < |r.items| && r.items[k % limit] == matching[k]
  {
    var q := k / limit;
    var m := k % limit;
    DivMod(k, limit);
    PageWithinTotal(k, |matching|, limit, CeilDiv(|matching|, limit));
    var r := Paginate(matching, Num(q + 1), Num(limit));
    assert r.items == Slice(matching, q * limit, limit);
    assert q * limit <= k < |matching|;
  }

  lemma DivMod(k: int, limit: int)
    requires limit >= 1 && k >= 0
    ensures k == (k / limit) * limit + k % limit && 0 <= k % limit < limit && k / limit >= 0
  {
  }
}

=== FILE: profiles.dfy ===
/** The profile handlers of backend/controllers/userController.js. The
    account schema (backend/models/User.js) is not part of this model: its
    `matchPassword` is taken to be the bcrypt comparison the handler also
    calls directly, given here as the parameter `verify(plain, stored)`, and
    its save hook that hashes a changed password is the parameter `seal`. */
module Profiles {
  import opened Http
  import opened Seqs
  import opened Paging
  import Projects
  import Blogs
  import Questions
  import QuestionSearch

  datatype User = User(name: string, email: string, password: string, avatar: string, bio: string,
                       skills: seq<string>, github: string, linkedin: string, website: string, role: Role)

  type Users = map<UserId, User>

  const UserNotFound := "User not found"

  /** How many documents of a collection the user created; `owner` reads a
      document's `createdBy`. */
  function CountBy<D>(store: map<DocId, D>, owner: D -> UserId, id: UserId): (n: nat)
    ensures n <= |store|
  {
    var ks := set k | k in store && owner(store[k]) == id;
    SubsetCard(ks, store.Keys);
    |ks|
  }

  function ProjectOwner(p: Projects.Project): UserId { p.createdBy }
  function BlogOwner(b: Blogs.Blog): UserId { b.createdBy }
  function QuestionOwner(q: Questions.Question): UserId { q.createdBy }

  lemma SubsetCard<T>(a: set<T>, b: set<T>)
    requires a <= b
    ensures |a| <= |b|
  {
    assert b == a + (b - a);
  }

  /** The public profile: the account without its password, and the counts. */
  datatype Profile = Profile(user: User, projectsCount: nat, blogsCount: nat, questionsCount: nat)

  /** GET /api/users/:id */
  function GetUserProfile(users: Users, projects: Projects.Store, blogs: Blogs.Store,
                          questions: Questions.Store, id: UserId): (r: Result<Profile>)
    ensures id !in users <==> r == Err(Reject(NotFound, UserNotFound))
    ensures r.Ok? ==> && id in users && r.value.user == users[id].(password := "")
                      && r.value.projectsCount == CountBy(projects, ProjectOwner, id) <= |projects|
                      && r.value.blogsCount == CountBy(blogs, BlogOwner, id) <= |blogs|
                      && r.value.questionsCount == CountBy(questions, QuestionOwner, id) <= |questions|
  {
    var u :- Find(users, id, UserNotFound);
    Ok(Profile(u.(password := ""), CountBy(projects, ProjectOwner, id), CountBy(blogs, BlogOwner, id), CountBy(questions, QuestionOwner, id)))
  }

  /** Inserting a new document counts for its creator only. */
  lemma CountByInsert<D>(store: map<DocId, D>, owner: D -> UserId, id: DocId, d: D, u: UserId)
    requires id !in store
    ensures CountBy(store[id := d], owner, u) == CountBy(store, owner, u) + (if u == owner(d) then 1 else 0)
  {
    var s := store[id := d];
    var before := set k | k in store && owner(store[k]) == u;
    var after := set k | k in s && owner(s[k]) == u;
    if u == owner(d) {
      assert after == before + {id};
    } else {
      assert after == before;
    }
  }

  /** Creating a project adds exactly one to its creator's count and
      nothing to anybody else's. */
  lemma CreateProjectCounts(store: Projects.Store, id: DocId, actor: Actor, input: Projects.Input,
                            upload: string -> string, now: int, u: UserId)
    requires id !in store
    requires Projects.CreateProject(store, id, actor, input, upload, now).Ok?
    ensures var s := Projects.CreateProject(store, id, actor, input, upload, now).value.store;
            CountBy(s, ProjectOwner, u) == CountBy(store, ProjectOwner, u) + (if u == actor.id then 1 else 0)
  {
    var step := Projects.CreateProject(store, id, actor, input, upload, now).value;
    CountByInsert(store, ProjectOwner, id, step.body, u);
  }

  /** The profile form; an absent field is "" (or [] for the skills). */
  datatype ProfileInput = ProfileInput(name: string, avatar: string, bio: string, skills: seq<string>,
                                       github: string, linkedin: string, website: string)

  /** PUT /api/users/profile: an empty name keeps the old one, the other text
      fields are overwritten (with "" when absent), the avatar is kept
      unless a different one is sent; email, password and role never change.
      The reply leaves out the password. */
  function UpdateProfile(users: Users, actor: Actor, input: ProfileInput,
                         upload: string -> string): (r: Result<Step<User, User>>)
    ensures actor.id !in users <==> r == Err(Reject(NotFound, UserNotFound))
    ensures r.Ok? ==> actor.id in users && actor.id in r.value.store && var u := users[actor.id]; var u' := r.value.store[actor.id];
              && r.value.store == users[actor.id := u']
              && u'.name == (if input.name != "" then input.name else u.name)
              && u'.avatar == KeepOrUpload(u.avatar, input.avatar, upload)
              && u'.bio == input.bio && u'.skills == input.skills
              && u'.github == input.github && u'.linkedin == input.linkedin && u'.website == input.website
              && u'.email == u.email && u'.password == u.password && u'.role == u.role
              && r.value.body == u'.(password := "")
  {
    var u :- Find(users, actor.id, UserNotFound);
    var u' := u.(name := if input.name != "" then input.name else u.name,
                 avatar := KeepOrUpload(u.avatar, input.avatar, upload),
                 bio := input.bio, skills := input.skills, github := input.github,
                 linkedin := input.linkedin, website := input.website);
    Ok(Step(users[actor.id := u'], u'.(password := "")))
  }

  /** Sending the same form twice (with no new avatar) changes nothing the
      second time. */
  lemma UpdateProfileIdempotent(users: Users, actor: Actor, input: ProfileInput, upload: string -> string)
    requires actor.id in users && input.avatar == ""
    ensures var s1 := UpdateProfile(users, actor, input, upload).value.store;
            UpdateProfile(s1, actor, input, upload).value.store == s1
  {
  }

  /** PUT /api/users/password: both fields are required (400); a missing
      account makes `user.matchPassword` throw; a wrong current password is
      401; reusing the current password is 400; otherwise the new password
      is stored through the save hook. */
  function UpdatePassword(users: Users, actor: Actor, current: string, newPassword: string,
                          verify: (string, string) -> bool, seal: string -> string): (r: Result<Step<User, string>>)
    ensures current == "" || newPassword == "" <==> r == Err(Reject(BadRequest, "Please provide both current and new password"))
    ensures current != "" && newPassword != "" ==> (actor.id !in users <==> r == Err(Crash))
    ensures current != "" && newPassword != "" && actor.id in users ==>
              (!verify(current, users[actor.id].password) <==> r == Err(Reject(Unauthorized, "Current password is incorrect")))
    ensures current != "" && newPassword != "" && actor.id in users && verify(current, users[actor.id].password) ==>
              (verify(newPassword, users[actor.id].password) <==>
                 r == Err(Reject(BadRequest, "New password must be different from current password")))
    ensures r.Ok? ==> actor.id in users && r.value.store == users[actor.id := users[actor.id].(password := seal(newPassword))]
  {
    if current == "" || newPassword == "" then Err(Reject(BadRequest, "Please provide both current and new password"))
    else if actor.id !in users then Err(Crash)
    else
      var u := users[actor.id];
      if !verify(current, u.password) then Err(Reject(Unauthorized, "Current password is incorrect"))
      else if verify(newPassword, u.password) then Err(Reject(BadRequest, "New password must be different from current password"))
      else Ok(Step(users[actor.id := u.(password := seal(newPassword))], "Password updated successfully"))
  }

  /** When the stored hash accepts exactly the password it was made from,
      a change makes the new password the current one and the old password
      is refused from then on. */
  lemma PasswordChangeTakesEffect(users: Users, actor: Actor, current: string, newPassword: string, next: string,
                                  verify: (string, string) -> bool, seal: string -> string)
    requires forall p, q :: verify(p, seal(q)) <==> p == q
    requires UpdatePassword(users, actor, current, newPassword, verify, seal).Ok?
    requires next != ""
    ensures var s1 := UpdatePassword(users, actor, current, newPassword, verify, seal).value.store;
            && UpdatePassword(s1, actor, current, next, verify, seal) == Err(Reject(Unauthorized, "Current password is incorrect"))
            && (next != newPassword ==> UpdatePassword(s1, actor, newPassword, next, verify, seal).Ok?)
  {
    var u := users[actor.id];
    assert current != newPassword;
    assert !verify(current, seal(newPassword));
  }

  /** The paginated lists of one user's documents, newest first. */
  function CreatedBy(id: UserId): Projects.Project -> bool {
    (p: Projects.Project) => p.createdBy == id
  }

  /** GET /api/users/:id/projects */
  function GetUserProjects(sorted: seq<Projects.Project>, id: UserId, page: Parsed, limit: Parsed): (r: Listing<Projects.Project>)
    requires WindowOf(page, limit).page >= 1 && WindowOf(page, limit).limit >= 1
    ensures forall p :: p in r.items ==> p in sorted && p.createdBy == id
    ensures r.total == |Seqs.Filter(sorted, CreatedBy(id))|
  {
    var matching := Seqs.Filter(sorted, CreatedBy(id));
    var r := Paginate(matching, page, limit);
    assert forall k :: 0 <= k < |r.items| ==> r.items[k] in matching;
    r
  }

  /** The user's project list is the general project list filtered on that
      user alone. */
  lemma UserProjectsIsUserFilter(sorted: seq<Projects.Project>, id: UserId, page: Parsed, limit: Parsed,
                                 regex: (string, string) -> bool)
    requires id != ""
    requires WindowOf(page, limit).page >= 1 && WindowOf(page, limit).limit >= 1
    ensures GetUserProjects(sorted, id, page, limit)
            == Projects.GetProjects(sorted, Projects.Query("", "", "", "", id, page, limit), regex)
  {
    var q := Projects.Query("", "", "", "", id, page, limit);
    FilterExt(sorted, CreatedBy(id), Projects.Asks(q, regex));
  }

  function BlogsOf(id: UserId): Blogs.Blog -> bool {
    (b: Blogs.Blog) => b.createdBy == id
  }

  function QuestionsOf(id: UserId): Questions.Question -> bool {
    (q: Questions.Question) => q.createdBy == id
  }

  /** GET /api/users/:id/blogs: without their content. */
  function GetUserBlogs(sorted: seq<Blogs.Blog>, id: UserId, page: Parsed, limit: Parsed): (r: Listing<Blogs.Blog>)
    requires WindowOf(page, limit).page >= 1 && WindowOf(page, limit).limit >= 1
    ensures forall k :: 0 <= k < |r.items| ==> r.items[k].content == "" && r.items[k].createdBy == id
    ensures r.total == |Seqs.Filter(sorted, BlogsOf(id))| <= |sorted|
    ensures var p := Paginate(Seqs.Filter(sorted, BlogsOf(id)), page, limit);
            r == p.(items := Blogs.StripContent(p.items))
  {
    var matching := Seqs.Filter(sorted, BlogsOf(id));
    var page := Paginate(matching, page, limit);
    assert forall k :: 0 <= k < |page.items| ==> page.items[k] in matching;
    page.(items := Blogs.StripContent(page.items))
  }

  /** The user's blog list is the general blog list filtered on that user
      alone. */
  lemma UserBlogsIsUserFilter(sorted: seq<Blogs.Blog>, id: UserId, page: Parsed, limit: Parsed,
                              regex: (string, string) -> bool)
    requires id != ""
    requires WindowOf(page, limit).page >= 1 && WindowOf(page, limit).limit >= 1
    ensures GetUserBlogs(sorted, id, page, limit) == Blogs.GetBlogs(sorted, Blogs.Query("", "", id, page, limit), regex)
  {
    var q := Blogs.Query("", "", id, page, limit);
    FilterExt(sorted, BlogsOf(id), Blogs.Asks(q, regex));
  }

  /** GET /api/users/:id/questions */
  function GetUserQuestions(sorted: seq<Questions.Question>, id: UserId, page: Parsed, limit: Parsed): (r: Listing<Questions.Question>)
    requires WindowOf(page, limit).page >= 1 && WindowOf(page, limit).limit >= 1
    ensures forall q :: q in r.items ==> q in sorted && q.createdBy == id
    ensures r.total == |Seqs.Filter(sorted, QuestionsOf(id))| <= |sorted|
    ensures r == Paginate(Seqs.Filter(sorted, QuestionsOf(id)), page, limit)
  {
    var matching := Seqs.Filter(sorted, QuestionsOf(id));
    var r := Paginate(matching, page, limit);
    assert forall k :: 0 <= k < |r.items| ==> r.items[k] in matching;
    r
  }

  /** The user's question list is the general question list filtered on
      that user alone. */
  lemma UserQuestionsIsUserFilter(sorted: seq<Questions.Question>, id: UserId, page: Parsed, limit: Parsed,
                                  regex: (string, string) -> bool)
    requires id != ""
    requires WindowOf(page, limit).page >= 1 && WindowOf(page, limit).limit >= 1
    ensures GetUserQuestions(sorted, id, page, limit)
            == QuestionSearch.GetQuestions(sorted, QuestionSearch.Query("", "", id, "", page, limit), regex)
  {
    var q := QuestionSearch.Query("", "", id, "", page, limit);
    FilterExt(sorted, QuestionsOf(id), QuestionSearch.Asks(q, regex));
  }
}

=== FILE: project_filter.dfy ===
/** The client-side filter of the projects page
    (frontend/src/pages/projects/Projects.tsx). The page keeps the fetched
    list untouched and recomputes the shown list from it on every search or
    tag click, so the shown list is always a function of the fetched list
    and the two filter inputs. Lower-casing is ASCII only. */
module ProjectsPage {
  import opened Http
  import opened Seqs
  import opened Text
  import opened Membership

  /** A project as the page receives it; the fields read through `?.`
      may be missing. */
  datatype Card = Card(title: Option<string>, description: Option<string>,
                       techStack: Option<seq<string>>, tags: Option<seq<string>>)

  /** `field?.toLowerCase().includes(q)`: a missing field never matches. */
  predicate FieldHas(f: Option<string>, q: string) {
    f.Some? && Includes(Lower(f.value), q)
  }

  /** The search box: the lower-cased query occurs in the lower-cased
      title, description or some technology. */
  predicate QueryHit(p: Card, query: string) {
    var q := Lower(query);
    || FieldHas(p.title, q)
    || FieldHas(p.description, q)
    || (p.techStack.Some? && exists k :: 0 <= k < |p.techStack.value| && Includes(Lower(p.techStack.value[k]), q))
  }

  /** The tag chips, match-any: some selected tag is one of the project's
      tags or technologies, compared exactly. */
  predicate TagHit(p: Card, tags: seq<string>) {
    exists k :: 0 <= k < |tags| && ((p.tags.Some? && tags[k] in p.tags.value)
                                    || (p.techStack.Some? && tags[k] in p.techStack.value))
  }

  /** Whether a project is shown; an empty query or no selected tag does
      not filter. */
  predicate Wanted(p: Card, query: string, tags: seq<string>) {
    (query != "" ==> QueryHit(p, query)) && (|tags| > 0 ==> TagHit(p, tags))
  }

  function Searched(query: string): Card -> bool {
    p => QueryHit(p, query)
  }

  function Tagged(tags: seq<string>): Card -> bool {
    p => TagHit(p, tags)
  }

  function Shown(query: string, tags: seq<string>): Card -> bool {
    p => Wanted(p, query, tags)
  }

  /** `filterProjects`: from the fetched list, first the search, then the
      tags. */
  function FilterProjects(original: seq<Card>, query: string, tags: seq<string>): (r: seq<Card>)
    ensures SubseqOf(r, original)
    ensures forall p :: p in r <==> p in original && Wanted(p, query, tags)
    ensures query == "" && |tags| == 0 ==> r == original
  {
    var searched := if query != "" then Filter(original, Searched(query)) else original;
    SubseqRefl(original);
    var r := if |tags| > 0 then Filter(searched, Tagged(tags)) else searched;
    SubseqRefl(searched);
    SubseqTransitive(r, searched, original);
    r
  }

  /** The two passes are one filter on `Wanted`: the page shows exactly the
      wanted projects in their fetched order. */
  lemma FilterProjectsIsOneFilter(original: seq<Card>, query: string, tags: seq<string>)
    ensures FilterProjects(original, query, tags) == Filter(original, Shown(query, tags))
  {
    if query != "" && |tags| > 0 {
      FilterFilter(original, Searched(query), Tagged(tags), Shown(query, tags));
    } else if query != "" {
      FilterExt(original, Searched(query), Shown(query, tags));
    } else if |tags| > 0 {
      FilterExt(original, Tagged(tags), Shown(query, tags));
    } else {
      FilterAllPass(original, Shown(query, tags));
    }
  }

  /** The page's state: the search box, the selected tags, the shown list
      and the fetched list. */
  datatype Page = Page(query: string, selected: seq<string>, shown: seq<Card>, original: seq<Card>)

  /** The shown list is the fetched list filtered by the current inputs. */
  predicate Consistent(s: Page) {
    s.shown == FilterProjects(s.original, s.query, s.selected)
  }

  /** After the fetch: no query, no tag, everything shown. */
  function Loaded(fetched: seq<Card>): (s: Page)
    ensures Consistent(s) && s.shown == fetched
  {
    Page("", [], fetched, fetched)
  }

  /** `handleSearch` */
  function HandleSearch(s: Page, query: string): (s': Page)
    ensures s'.query == query && s'.selected == s.selected && s'.original == s.original
    ensures Consistent(s')
  {
    s.(query := query, shown := FilterProjects(s.original, query, s.selected))
  }

  /** `handleTagSelect`: a selected tag is removed (every copy), another is
      appended, and the list is filtered again. */
  function HandleTagSelect(s: Page, tag: string): (s': Page)
    ensures tag in s'.selected <==> tag !in s.selected
    ensures forall t :: t != tag ==> (t in s'.selected <==> t in s.selected)
    ensures s'.query == s.query && s'.original == s.original
    ensures Consistent(s')
  {
    var selected := Toggle(s.selected, tag);
    s.(selected := selected, shown := FilterProjects(s.original, s.query, selected))
  }

  /** `clearFilters` */
  function ClearFilters(s: Page): (s': Page)
    ensures s'.query == "" && s'.selected == [] && s'.original == s.original
    ensures Consistent(s') && s'.shown == s.original
  {
    Page("", [], s.original, s.original)
  }

  /** The inputs of the page's event handlers. */
  datatype Action = Search(query: string) | SelectTag(tag: string) | Clear

  function Apply(s: Page, a: Action): Page {
    match a
    case Search(q) => HandleSearch(s, q)
    case SelectTag(t) => HandleTagSelect(s, t)
    case Clear => ClearFilters(s)
  }

  function Run(s: Page, actions: seq<Action>): Page
    decreases |actions|
  {
    if |actions| == 0 then s else Run(Apply(s, actions[0]), actions[1..])
  }

  /** Whatever the user does, the fetched list is never touched and the
      shown list is always that list filtered by the current inputs. */
  lemma {:induction false} RunKeepsFetched(fetched: seq<Card>, actions: seq<Action>)
    ensures var s := Run(Loaded(fetched), actions);
            s.original == fetched && Consistent(s) && SubseqOf(s.shown, fetched)
  {
    RunFrom(Loaded(fetched), actions);
  }

  lemma {:induction false} RunFrom(s: Page, actions: seq<Action>)
    requires Consistent(s)
    ensures Run(s, actions).original == s.original && Consistent(Run(s, actions))
    ensures SubseqOf(Run(s, actions).shown, s.original)
    decreases |actions|
  {
    if |actions| > 0 {
      RunFrom(Apply(s, actions[0]), actions[1..]);
    } else {
      assert s.shown == FilterProjects(s.original, s.query, s.selected);
    }
  }

  /** Selecting a tag and deselecting it again restores the page. */
  lemma SelectTwiceRestores(s: Page, tag: string)
    requires Consistent(s) && tag !in s.selected
    ensures HandleTagSelect(HandleTagSelect(s, tag), tag) == s
  {
    ToggleTwiceRestores(s.selected, tag);
  }
}

=== FILE: projects.dfy ===
/** The project handlers of backend/controllers/projectController.js: create
    with an optional uploaded image, list with filters, update by the creator,
    delete by the creator or an admin, the like toggle and the comments. */
module Projects {
  import opened Http
  import opened Seqs
  import opened Text
  import opened Membership
  import opened Embedded
  import opened Paging

  datatype Project = Project(title: string, description: string, techStack: seq<string>, tags: seq<string>,
                             difficulty: string, githubLink: string, liveLink: string, image: string,
                             createdBy: UserId, likes: seq<UserId>, comments: seq<Comment>, createdAt: int)

  type Store = map<DocId, Project>

  /** The request body of create and update; `image` is the data the media
      service uploads, "" when absent. */
  datatype Input = Input(title: string, description: string, techStack: ListField, tags: ListField,
                         difficulty: string, githubLink: string, liveLink: string, image: string)

  const ProjectNotFound := "Project not found"
  const CommentRequired := "Comment text is required"

  /** The response body of the like handler. */
  datatype Likes = Likes(likes: seq<UserId>, likesCount: nat)

  /** POST /api/projects: the project belongs to the actor, its image is the
      uploaded URL or "" when none was sent, and it starts with no likes and
      no comments. A list field that is absent makes `split` throw. */
  function CreateProject(store: Store, id: DocId, actor: Actor, input: Input, upload: string -> string,
                         now: int): (r: Result<Step<Project, Project>>)
    requires id !in store
    ensures input.techStack.Absent? || input.tags.Absent? <==> r == Err(Crash)
    ensures r.Ok? || r == Err(Crash)
    ensures r.Ok? ==> var p := r.value.body;
              && r.value.store == store[id := p] && r.value.store.Keys == store.Keys + {id}
              && p.createdBy == actor.id && p.likes == [] && p.comments == []
              && p.title == input.title && p.description == input.description
              && p.techStack == ParseList(input.techStack).value && p.tags == ParseList(input.tags).value
              && p.difficulty == input.difficulty && p.githubLink == input.githubLink && p.liveLink == input.liveLink
              && p.createdAt == now
              && (input.image == "" ==> p.image == "")
              && (input.image != "" ==> p.image == upload(input.image))
  {
    var imageUrl := if input.image != "" then upload(input.image) else "";
    var techStack :- ParseList(input.techStack);
    var tags :- ParseList(input.tags);
    var p := Project(input.title, input.description, techStack, tags, input.difficulty,
                     input.githubLink, input.liveLink, imageUrl, actor.id, [], [], now);
    Ok(Step(store[id := p], p))
  }

  /** GET /api/projects/:id: a read that changes nothing. */
  function GetProjectById(store: Store, id: DocId): (r: Result<Project>)
    ensures id !in store <==> r == Err(Reject(NotFound, ProjectNotFound))
    ensures id in store ==> r.Ok?
    ensures r.Ok? ==> id in store && r.value == store[id]
  {
    Find(store, id, ProjectNotFound)
  }

  /** The list query's parameters; an absent one is "". */
  datatype Query = Query(search: string, techStack: string, tags: string, difficulty: string, user: string,
                         page: Parsed, limit: Parsed)

  predicate AnyListed(values: seq<string>, list: seq<string>) {
    exists k :: 0 <= k < |values| && values[k] in list
  }

  /** What the request asks for: every supplied parameter restricts the list. */
  predicate Wanted(q: Query, p: Project, regex: (string, string) -> bool) {
    && (q.search != "" ==> regex(p.title, q.search) || regex(p.description, q.search))
    && (q.techStack != "" ==> AnyListed(p.techStack, SplitTrim(q.techStack)))
    && (q.tags != "" ==> AnyListed(p.tags, SplitTrim(q.tags)))
    && (q.difficulty != "" ==> p.difficulty == q.difficulty)
    && (q.user != "" ==> p.createdBy == q.user)
  }

  /** The filter document the handler builds: one optional condition per
      field, each `$in` list split on commas and trimmed. */
  datatype Filter = Filter(search: Option<string>, techStack: Option<seq<string>>, tags: Option<seq<string>>,
                           difficulty: Option<string>, createdBy: Option<UserId>)

  predicate Matches(f: Filter, p: Project, regex: (string, string) -> bool) {
    && (f.search.Some? ==> regex(p.title, f.search.value) || regex(p.description, f.search.value))
    && (f.techStack.Some? ==> AnyListed(p.techStack, f.techStack.value))
    && (f.tags.Some? ==> AnyListed(p.tags, f.tags.value))
    && (f.difficulty.Some? ==> p.difficulty == f.difficulty.value)
    && (f.createdBy.Some? ==> p.createdBy == f.createdBy.value)
  }

  function Build(q: Query): (f: Filter)
    ensures f.search.Some? <==> q.search != ""
    ensures f.techStack.Some? <==> q.techStack != ""
    ensures f.tags.Some? <==> q.tags != ""
  {
    Filter(if q.search != "" then Some(q.search) else None,
           if q.techStack != "" then Some(SplitTrim(q.techStack)) else None,
           if q.tags != "" then Some(SplitTrim(q.tags)) else None,
           if q.difficulty != "" then Some(q.difficulty) else None,
           if q.user != "" then Some(q.user) else None)
  }

  /** The built filter selects exactly what the request asks for. */
  lemma BuildFaithful(q: Query, p: Project, regex: (string, string) -> bool)
    ensures Matches(Build(q), p, regex) <==> Wanted(q, p, regex)
  {
  }

  function Asks(q: Query, regex: (string, string) -> bool): Project -> bool {
    p => Wanted(q, p, regex)
  }

  /** GET /api/projects over the projects newest first: the requested page of
      those the query asks for, with their total. */
  function GetProjects(sorted: seq<Project>, q: Query, regex: (string, string) -> bool): (r: Listing<Project>)
    requires WindowOf(q.page, q.limit).page >= 1 && WindowOf(q.page, q.limit).limit >= 1
    ensures forall p :: p in r.items ==> p in sorted && Wanted(q, p, regex)
    ensures r.total == |Seqs.Filter(sorted, Asks(q, regex))|
    ensures r == Paginate(Seqs.Filter(sorted, Asks(q, regex)), q.page, q.limit)
  {
    forall p | p in sorted ensures Matches(Build(q), p, regex) == Asks(q, regex)(p) {
      BuildFaithful(q, p, regex);
    }
    FilterExt(sorted, p => Matches(Build(q), p, regex), Asks(q, regex));
    Paginate(Seqs.Filter(sorted, p => Matches(Build(q), p, regex)), q.page, q.limit)
  }

  /** PUT /api/projects/:id: the creator only (no admin override). The image
      is kept unless a different one is sent, which is uploaded; likes,
      comments, creator and creation time are kept. */
  function UpdateProject(store: Store, id: DocId, actor: Actor, input: Input,
                         upload: string -> string): (r: Result<Step<Project, Project>>)
    ensures id !in store <==> r == Err(Reject(NotFound, ProjectNotFound))
    ensures id in store && !IsOwner(actor, store[id].createdBy) <==>
              r == Err(Reject(Forbidden, "Not authorized to update this project"))
    ensures id in store && IsOwner(actor, store[id].createdBy) ==>
              (input.techStack.Absent? || input.tags.Absent? <==> r == Err(Crash))
    ensures id in store && IsOwner(actor, store[id].createdBy) && !input.techStack.Absent? && !input.tags.Absent? ==>
              r.Ok?
    ensures r.Ok? ==> id in store && var p := store[id]; var p' := r.value.body;
              && r.value.store == store[id := p'] && r.value.store.Keys == store.Keys
              && p'.createdBy == p.createdBy && p'.likes == p.likes && p'.comments == p.comments
              && p'.createdAt == p.createdAt
              && p'.title == input.title && p'.description == input.description
              && p'.techStack == ParseList(input.techStack).value && p'.tags == ParseList(input.tags).value
              && p'.difficulty == input.difficulty && p'.githubLink == input.githubLink && p'.liveLink == input.liveLink
              && p'.image == KeepOrUpload(p.image, input.image, upload)
              && (input.image == "" || input.image == p.image ==> p'.image == p.image)
  {
    var p :- Find(store, id, ProjectNotFound);
    if !IsOwner(actor, p.createdBy) then Err(Reject(Forbidden, "Not authorized to update this project"))
    else
      var imageUrl := KeepOrUpload(p.image, input.image, upload);
      var techStack :- ParseList(input.techStack);
      var tags :- ParseList(input.tags);
      var p' := p.(title := input.title, description := input.description, techStack := techStack,
                   tags := tags, difficulty := input.difficulty, githubLink := input.githubLink,
                   liveLink := input.liveLink, image := imageUrl);
      Ok(Step(store[id := p'], p'))
  }

  /** Sending the same form twice (with no new image) changes nothing the
      second time. */
  lemma UpdateProjectIdempotent(store: Store, id: DocId, actor: Actor, input: Input, upload: string -> string)
    requires UpdateProject(store, id, actor, input, upload).Ok?
    requires input.image == ""
    ensures var s1 := UpdateProject(store, id, actor, input, upload).value.store;
            UpdateProject(s1, id, actor, input, upload).Ok?
            && UpdateProject(s1, id, actor, input, upload).value.store == s1
  {
    var p' := UpdateProject(store, id, actor, input, upload).value.body;
    var s1 := store[id := p'];
    assert s1[id] == p';
    assert s1[id := p'] == s1;
  }

  /** DELETE /api/projects/:id: the creator or an admin. */
  function DeleteProject(store: Store, id: DocId, actor: Actor): (r: Result<Step<Project, string>>)
    ensures id !in store <==> r == Err(Reject(NotFound, ProjectNotFound))
    ensures id in store && !OwnerOrAdmin(actor, store[id].createdBy) <==>
              r == Err(Reject(Forbidden, "Not authorized to delete this project"))
    ensures id in store && OwnerOrAdmin(actor, store[id].createdBy) ==> r.Ok?
    ensures r.Ok? ==> r.value.store.Keys == store.Keys - {id}
                      && forall k :: k in r.value.store ==> r.value.store[k] == store[k]
  {
    var p :- Find(store, id, ProjectNotFound);
    if !OwnerOrAdmin(actor, p.createdBy) then Err(Reject(Forbidden, "Not authorized to delete this project"))
    else Ok(Step(store - {id}, "Project removed"))
  }

  /** POST /api/projects/:id/like: the filter-all toggle; only the likes change. */
  function LikeProject(store: Store, id: DocId, actor: Actor): (r: Result<Step<Project, Likes>>)
    ensures id !in store <==> r == Err(Reject(NotFound, ProjectNotFound))
    ensures id in store ==> r.Ok?
    ensures r.Ok? ==> id in store && id in r.value.store && var p := store[id]; var p' := r.value.store[id];
              && r.value.store == store[id := p']
              && p' == p.(likes := p'.likes)
              && p'.likes == Toggle(p.likes, actor.id)
              && (actor.id in p'.likes <==> actor.id !in p.likes)
              && (forall u :: u != actor.id ==> (u in p'.likes <==> u in p.likes))
              && r.value.body == Likes(p'.likes, |p'.likes|)
  {
    var p :- Find(store, id, ProjectNotFound);
    var p' := p.(likes := Toggle(p.likes, actor.id));
    Ok(Step(store[id := p'], Likes(p'.likes, |p'.likes|)))
  }

  /** Liking twice leaves the store as it was. */
  lemma LikeTwiceRestores(store: Store, id: DocId, actor: Actor)
    requires id in store && actor.id !in store[id].likes
    ensures var s1 := LikeProject(store, id, actor).value.store;
            LikeProject(s1, id, actor).Ok? && LikeProject(s1, id, actor).value.store == store
  {
    var p := store[id];
    ToggleTwiceRestores(p.likes, actor.id);
    var s1 := LikeProject(store, id, actor).value.store;
    assert s1[id].likes == Toggle(p.likes, actor.id);
    assert s1[id := s1[id].(likes := p.likes)] == store;
  }

  /** POST /api/projects/:id/comments: empty text is refused before the
      lookup; the actor's comment is appended and the full list returned. */
  function CommentOnProject(store: Store, id: DocId, actor: Actor, text: string, commentId: DocId,
                            now: int): (r: Result<Step<Project, seq<Comment>>>)
    ensures text == "" <==> r == Err(Reject(BadRequest, CommentRequired))
    ensures text != "" ==> (id !in store <==> r == Err(Reject(NotFound, ProjectNotFound)))
    ensures text != "" && id in store ==> r.Ok?
    ensures r.Ok? ==> id in store && id in r.value.store && var p := store[id]; var p' := r.value.store[id];
              && r.value.store == store[id := p']
              && p' == p.(comments := p.comments + [Comment(commentId, actor.id, text, now)])
              && r.value.body == p'.comments
  {
    if text == "" then Err(Reject(BadRequest, CommentRequired))
    else
      var p :- Find(store, id, ProjectNotFound);
      var p' := p.(comments := p.comments + [Comment(commentId, actor.id, text, now)]);
      Ok(Step(store[id := p'], p'.comments))
  }

  /** DELETE /api/projects/:id/comments/:commentId: the project must exist,
      then the comment rules of the embedded lists apply. */
  function DeleteProjectComment(store: Store, id: DocId, commentId: DocId, actor: Actor): (r: Result<Step<Project, seq<Comment>>>)
    ensures id !in store <==> r == Err(Reject(NotFound, ProjectNotFound))
    ensures id in store && DeleteComment(store[id].comments, commentId, actor).Err? ==>
              r == Err(DeleteComment(store[id].comments, commentId, actor).error)
    ensures id in store && DeleteComment(store[id].comments, commentId, actor).Ok? ==> r.Ok?
    ensures r.Ok? ==> id in store && id in r.value.store && var p := store[id]; var p' := r.value.store[id];
              && r.value.store == store[id := p']
              && p' == p.(comments := p'.comments)
              && SubseqOf(p'.comments, p.comments)
              && (forall c :: c in p'.comments <==> c in p.comments && c.id != commentId)
              && r.value.body == p'.comments
  {
    var p :- Find(store, id, ProjectNotFound);
    var comments :- DeleteComment(p.comments, commentId, actor);
    var p' := p.(comments := comments);
    Ok(Step(store[id := p'], comments))
  }

  /** A comment, once posted under a fresh id, can be deleted by its author,
      which gives back the store as it was. */
  lemma CommentThenDeleteRestores(store: Store, id: DocId, actor: Actor, text: string, commentId: DocId, now: int)
    requires id in store && text != ""
    requires forall k :: 0 <= k < |store[id].comments| ==> store[id].comments[k].id != commentId
    ensures var s1 := CommentOnProject(store, id, actor, text, commentId, now).value.store;
            DeleteProjectComment(s1, id, commentId, actor).Ok?
            && DeleteProjectComment(s1, id, commentId, actor).value.store == store
  {
    var p := store[id];
    var c := Comment(commentId, actor.id, text, now);
    var s1 := CommentOnProject(store, id, actor, text, commentId, now).value.store;
    var cs := p.comments + [c];
    assert s1[id].comments == cs;
    assert forall k :: 0 <= k < |p.comments| ==> CommentId(cs[k]) != commentId;
    assert CommentId(cs[|p.comments|]) == commentId;
    assert FindIndex(cs, CommentId, commentId) == |p.comments|;
    RemoveAppended(p.comments, CommentId, c);
    assert s1[id := s1[id].(comments := p.comments)] == store;
  }
}

=== FILE: question_search.dfy ===
/** The filter the question list handler builds from its query string
    (backend/controllers/questionController.js, getQuestions), and the list
    it answers. Matching a `$regex` with the `i` option is left to a
    parameter `regex(text, pattern)`; the order the database sorts the
    questions in is an input. */
module QuestionSearch {
  import opened Http
  import opened Seqs
  import opened Text
  import opened Paging
  import opened Questions

  /** The query-string parameters; an absent one is the empty string. */
  datatype Query = Query(search: string, tags: string, user: string, answered: string,
                         page: Parsed, limit: Parsed)

  /** The two alternatives a filter's single `$or` key can hold. */
  datatype Alternative = SearchText(pattern: string) | Unanswered

  /** The Mongo filter document as the handler writes it: one `$or` key,
      shared by the search and the "unanswered" condition. */
  datatype Filter = Filter(or: Option<Alternative>, tags: Option<seq<string>>,
                           createdBy: Option<UserId>, acceptedOnly: bool)

  predicate HasAccepted(x: Question) {
    exists k :: 0 <= k < |x.answers| && x.answers[k].isAccepted
  }

  predicate SearchHit(x: Question, pattern: string, regex: (string, string) -> bool) {
    regex(x.title, pattern) || regex(x.content, pattern)
  }

  /** `tags: {$in: list}` on an array field: some tag of the question is listed. */
  predicate TagHit(x: Question, list: seq<string>) {
    exists k :: 0 <= k < |x.tags| && x.tags[k] in list
  }

  /** What the request asks for: every supplied parameter restricts the list. */
  predicate Wanted(q: Query, x: Question, regex: (string, string) -> bool) {
    && (q.search != "" ==> SearchHit(x, q.search, regex))
    && (q.tags != "" ==> TagHit(x, SplitTrim(q.tags)))
    && (q.user != "" ==> x.createdBy == q.user)
    && (q.answered == "true" ==> HasAccepted(x))
    && (q.answered == "false" ==> !HasAccepted(x))
  }

  /** How the database evaluates a filter on one question. `$size: 0` is
      subsumed by `'answers.isAccepted': {$ne: true}`, which holds when no
      answer is accepted. */
  predicate Matches(f: Filter, x: Question, regex: (string, string) -> bool) {
    && (match f.or
        case None => true
        case Some(SearchText(p)) => SearchHit(x, p, regex)
        case Some(Unanswered) => !HasAccepted(x))
    && (f.tags.Some? ==> TagHit(x, f.tags.value))
    && (f.createdBy.Some? ==> x.createdBy == f.createdBy.value)
    && (f.acceptedOnly ==> HasAccepted(x))
  }

  /** The filter as the handler builds it: `answered=false` assigns
      `query.$or` a second time and so replaces the search condition. */
  function BuildAsWritten(q: Query): (f: Filter)
    ensures f.or == Some(Unanswered) <==> q.answered == "false"
    ensures f.or.Some? && f.or.value.SearchText? <==> q.search != "" && q.answered != "false"
    ensures f.acceptedOnly <==> q.answered == "true"
    ensures f.tags.Some? <==> q.tags != ""
    ensures f.createdBy.Some? <==> q.user != ""
  {
    var or := if q.search != "" then Some(SearchText(q.search)) else None;
    var tags := if q.tags != "" then Some(SplitTrim(q.tags)) else None;
    var user := if q.user != "" then Some(q.user) else None;
    if q.answered == "true" then Filter(or, tags, user, true)
    else if q.answered == "false" then Filter(Some(Unanswered), tags, user, false)
    else Filter(or, tags, user, false)
  }

  /** Whenever the request does not combine a search with `answered=false`,
      the handler's filter selects exactly what was asked for. */
  lemma AsWrittenFaithfulOtherwise(q: Query, x: Question, regex: (string, string) -> bool)
    requires !(q.search != "" && q.answered == "false")
    ensures Matches(BuildAsWritten(q), x, regex) <==> Wanted(q, x, regex)
  {
  }

  /** With both a search and `answered=false`, every unanswered question is
      listed, whether or not it contains the search term. */
  lemma AsWrittenDropsSearch(q: Query, x: Question, regex: (string, string) -> bool)
    requires q.search != "" && q.answered == "false" && q.tags == "" && q.user == ""
    requires !HasAccepted(x) && !SearchHit(x, q.search, regex)
    ensures Matches(BuildAsWritten(q), x, regex)
    ensures !Wanted(q, x, regex)
  {
  }

  /** The filter with each condition kept: the search and the answered
      condition as two conjuncts (`$and`) instead of one shared `$or` key. */
  datatype Conditions = Conditions(search: Option<string>, tags: Option<seq<string>>,
                                   createdBy: Option<UserId>, answered: Option<bool>)

  predicate Satisfies(c: Conditions, x: Question, regex: (string, string) -> bool) {
    && (c.search.Some? ==> SearchHit(x, c.search.value, regex))
    && (c.tags.Some? ==> TagHit(x, c.tags.value))
    && (c.createdBy.Some? ==> x.createdBy == c.createdBy.value)
    && (c.answered.Some? ==> (HasAccepted(x) <==> c.answered.value))
  }

  function Build(q: Query): (c: Conditions)
    ensures c.search.Some? <==> q.search != ""
    ensures c.answered.Some? <==> q.answered == "true" || q.answered == "false"
  {
    Conditions(if q.search != "" then Some(q.search) else None,
               if q.tags != "" then Some(SplitTrim(q.tags)) else None,
               if q.user != "" then Some(q.user) else None,
               if q.answered == "true" then Some(true)
               else if q.answered == "false" then Some(false)
               else None)
  }

  /** The corrected filter selects exactly what the request asks for. */
  lemma BuildFaithful(q: Query, x: Question, regex: (string, string) -> bool)
    ensures Satisfies(Build(q), x, regex) <==> Wanted(q, x, regex)
  {
  }

  /** The request's selection as a predicate on questions. */
  function Asks(q: Query, regex: (string, string) -> bool): Question -> bool {
    x => Wanted(q, x, regex)
  }

  /** GET /api/questions over the questions in the order the database sorts
      them: the requested page of the questions the query asks for, and the
      total and page count of all of them. */
  function GetQuestions(sorted: seq<Question>, q: Query, regex: (string, string) -> bool): (r: Listing<Question>)
    requires WindowOf(q.page, q.limit).page >= 1 && WindowOf(q.page, q.limit).limit >= 1
    ensures forall x :: x in r.items ==> x in sorted && Wanted(q, x, regex)
    ensures r.total == |Seqs.Filter(sorted, Asks(q, regex))|
    ensures (forall x :: x in sorted ==> Wanted(q, x, regex)) ==> r.total == |sorted|
    ensures r == Paginate(Seqs.Filter(sorted, Asks(q, regex)), q.page, q.limit)
  {
    var c := Build(q);
    var selects := x => Satisfies(c, x, regex);
    BuildSelectsAsked(sorted, q, regex);
    assert (forall x :: x in sorted ==> Wanted(q, x, regex)) ==> Seqs.Filter(sorted, Asks(q, regex)) == sorted by {
      if forall x :: x in sorted ==> Wanted(q, x, regex) {
        FilterAllPass(sorted, Asks(q, regex));
      }
    }
    Paginate(Seqs.Filter(sorted, selects), q.page, q.limit)
  }

  lemma BuildSelectsAsked(sorted: seq<Question>, q: Query, regex: (string, string) -> bool)
    ensures Seqs.Filter(sorted, x => Satisfies(Build(q), x, regex)) == Seqs.Filter(sorted, Asks(q, regex))
  {
    forall x | x in sorted ensures Satisfies(Build(q), x, regex) == Asks(q, regex)(x) {
      BuildFaithful(q, x, regex);
    }
    FilterExt(sorted, x => Satisfies(Build(q), x, regex), Asks(q, regex));
  }

  /** What the handler's own filter selects. */
  function Selects(q: Query, regex: (string, string) -> bool): Question -> bool {
    x => Matches(BuildAsWritten(q), x, regex)
  }

  /** GET /api/questions as the handler answers it: the requested page of
      what its filter selects. It is the corrected listing except when a
      search is combined with `answered=false`. */
  function GetQuestionsAsWritten(sorted: seq<Question>, q: Query, regex: (string, string) -> bool): (r: Listing<Question>)
    requires WindowOf(q.page, q.limit).page >= 1 && WindowOf(q.page, q.limit).limit >= 1
    ensures forall x :: x in r.items ==> x in sorted && Matches(BuildAsWritten(q), x, regex)
    ensures r.total == |Seqs.Filter(sorted, Selects(q, regex))|
    ensures r == Paginate(Seqs.Filter(sorted, Selects(q, regex)), q.page, q.limit)
    ensures !(q.search != "" && q.answered == "false") ==> r == GetQuestions(sorted, q, regex)
  {
    var r := Paginate(Seqs.Filter(sorted, Selects(q, regex)), q.page, q.limit);
    assert forall k :: 0 <= k < |r.items| ==> r.items[k] in Seqs.Filter(sorted, Selects(q, regex));
    assert !(q.search != "" && q.answered == "false") ==>
             Seqs.Filter(sorted, Selects(q, regex)) == Seqs.Filter(sorted, Asks(q, regex)) by {
      if !(q.search != "" && q.answered == "false") {
        SelectsAsked(sorted, q, regex);
      }
    }
    r
  }

  lemma SelectsAsked(sorted: seq<Question>, q: Query, regex: (string, string) -> bool)
    requires !(q.search != "" && q.answered == "false")
    ensures Seqs.Filter(sorted, Selects(q, regex)) == Seqs.Filter(sorted, Asks(q, regex))
  {
    forall x | x in sorted ensures Selects(q, regex)(x) == Asks(q, regex)(x) {
      AsWrittenFaithfulOtherwise(q, x, regex);
    }
    FilterExt(sorted, Selects(q, regex), Asks(q, regex));
  }
}

=== FILE: questions.dfy ===
/** The question-and-answer handlers of backend/controllers/questionController.js.
    A question embeds its answers; an answer carries its own upvotes and an
    `isAccepted` flag, which the question's creator moves with the accept
    handler. */
module Questions {
  import opened Http
  import opened Seqs
  import opened Text
  import opened Membership
  import opened Embedded

  datatype Answer = Answer(id: DocId, content: string, createdBy: UserId, createdAt: int,
                           upvotes: seq<UserId>, isAccepted: bool)

  datatype Question = Question(title: string, content: string, tags: seq<string>, createdBy: UserId,
                               answers: seq<Answer>, upvotes: seq<UserId>, views: int, createdAt: int)

  type Store = map<DocId, Question>

  const QuestionNotFound := "Question not found"
  const AnswerNotFound := "Answer not found"
  const AnswerRequired := "Answer content is required"

  function AnswerId(a: Answer): DocId {
    a.id
  }

  /** Where `answers.id(answerId)` finds its answer: the first position
      with that id, or -1. */
  function AnswerIndex(q: Question, answerId: DocId): (i: int)
    ensures -1 <= i < |q.answers|
    ensures i == -1 <==> forall k :: 0 <= k < |q.answers| ==> q.answers[k].id != answerId
    ensures i >= 0 ==> q.answers[i].id == answerId && forall k :: 0 <= k < i ==> q.answers[k].id != answerId
  {
    var i := FindIndex(q.answers, AnswerId, answerId);
    assert forall k :: 0 <= k < |q.answers| ==> AnswerId(q.answers[k]) == q.answers[k].id;
    i
  }

  /** Positions of accepted answers. */
  predicate AtMostOneAccepted(answers: seq<Answer>) {
    forall j, k :: 0 <= j < |answers| && 0 <= k < |answers| && answers[j].isAccepted && answers[k].isAccepted ==> j == k
  }

  /** Every question of the store has at most one accepted answer. */
  predicate Consistent(store: Store) {
    forall id :: id in store ==> AtMostOneAccepted(store[id].answers)
  }

  /** The response body of the two upvote handlers. */
  datatype Votes = Votes(upvotes: seq<UserId>, upvotesCount: nat)

  /** POST /api/questions: the new question belongs to the actor and starts
      with no answers, no upvotes and no views. */
  function CreateQuestion(store: Store, id: DocId, actor: Actor, title: string, content: string,
                          tags: ListField, now: int): (r: Result<Step<Question, Question>>)
    requires id !in store
    ensures tags.Absent? <==> r == Err(Crash)
    ensures r.Ok? || r == Err(Crash)
    ensures r.Ok? ==> var q := r.value.body;
              && r.value.store == store[id := q]
              && q.createdBy == actor.id && q.title == title && q.content == content
              && q.tags == ParseList(tags).value
              && q.answers == [] && q.upvotes == [] && q.views == 0
  {
    var tagList :- ParseList(tags);
    var q := Question(title, content, tagList, actor.id, [], [], 0, now);
    Ok(Step(store[id := q], q))
  }

  /** GET /api/questions/:id: every successful read counts one view. */
  function GetQuestionById(store: Store, id: DocId): (r: Result<Step<Question, Question>>)
    ensures id !in store <==> r == Err(Reject(NotFound, QuestionNotFound))
    ensures id in store ==> r.Ok?
    ensures r.Ok? ==> && r.value.body.views == store[id].views + 1
                      && r.value.body == store[id].(views := r.value.body.views)
                      && r.value.store == store[id := r.value.body]
  {
    var q :- Find(store, id, QuestionNotFound);
    var q' := q.(views := q.views + 1);
    Ok(Step(store[id := q'], q'))
  }

  /** PUT /api/questions/:id: creator only (an admin who is not the creator
      is refused too); rewrites title, content and tags and nothing else. */
  function UpdateQuestion(store: Store, id: DocId, actor: Actor, title: string, content: string,
                          tags: ListField): (r: Result<Step<Question, Question>>)
    ensures id !in store <==> r == Err(Reject(NotFound, QuestionNotFound))
    ensures id in store && !IsOwner(actor, store[id].createdBy) <==>
              r == Err(Reject(Forbidden, "Not authorized to update this question"))
    ensures id in store && IsOwner(actor, store[id].createdBy) ==> (tags.Absent? <==> r == Err(Crash))
    ensures id in store && IsOwner(actor, store[id].createdBy) && !tags.Absent? ==> r.Ok?
    ensures r.Ok? ==> && IsOwner(actor, store[id].createdBy)
                      && ParseList(tags).Ok?
                      && r.value.body == store[id].(title := title, content := content, tags := ParseList(tags).value)
                      && r.value.store == store[id := r.value.body]
  {
    var q :- Find(store, id, QuestionNotFound);
    if !IsOwner(actor, q.createdBy) then Err(Reject(Forbidden, "Not authorized to update this question"))
    else
      var tagList :- ParseList(tags);
      var q' := q.(title := title, content := content, tags := tagList);
      Ok(Step(store[id := q'], q'))
  }

  /** DELETE /api/questions/:id: the creator or an admin. */
  function DeleteQuestion(store: Store, id: DocId, actor: Actor): (r: Result<Step<Question, string>>)
    ensures id !in store <==> r == Err(Reject(NotFound, QuestionNotFound))
    ensures id in store && !OwnerOrAdmin(actor, store[id].createdBy) <==>
              r == Err(Reject(Forbidden, "Not authorized to delete this question"))
    ensures id in store && OwnerOrAdmin(actor, store[id].createdBy) ==> r.Ok?
    ensures r.Ok? ==> r.value.store == store - {id} && r.value.store.Keys == store.Keys - {id}
  {
    var q :- Find(store, id, QuestionNotFound);
    if !OwnerOrAdmin(actor, q.createdBy) then Err(Reject(Forbidden, "Not authorized to delete this question"))
    else Ok(Step(store - {id}, "Question removed"))
  }

  /** POST /api/questions/:id/upvote: removes every upvote of the actor if
      there is one, otherwise adds one; nothing else changes. */
  function UpvoteQuestion(store: Store, id: DocId, actor: Actor): (r: Result<Step<Question, Votes>>)
    ensures id !in store <==> r == Err(Reject(NotFound, QuestionNotFound))
    ensures id in store ==> r.Ok?
    ensures r.Ok? ==> id in store && id in r.value.store && var q := store[id]; var q' := r.value.store[id];
              && r.value.store == store[id := q']
              && q' == q.(upvotes := q'.upvotes)
              && q'.upvotes == Toggle(q.upvotes, actor.id)
              && (actor.id in q'.upvotes <==> actor.id !in q.upvotes)
              && Count(q'.upvotes, actor.id) <= 1
              && (forall u :: u != actor.id ==> (u in q'.upvotes <==> u in q.upvotes))
              && r.value.body == Votes(q'.upvotes, |q'.upvotes|)
  {
    var q :- Find(store, id, QuestionNotFound);
    var q' := q.(upvotes := Toggle(q.upvotes, actor.id));
    Ok(Step(store[id := q'], Votes(q'.upvotes, |q'.upvotes|)))
  }

  /** POST /api/questions/:id/answers: empty content is refused before the
      question is looked up; otherwise one unaccepted, unvoted answer by the
      actor is appended. The body is the full answer list. */
  function AddAnswer(store: Store, id: DocId, actor: Actor, content: string, answerId: DocId,
                     now: int): (r: Result<Step<Question, seq<Answer>>>)
    ensures content == "" <==> r == Err(Reject(BadRequest, AnswerRequired))
    ensures content != "" ==> (id !in store <==> r == Err(Reject(NotFound, QuestionNotFound)))
    ensures content != "" && id in store ==> r.Ok?
    ensures r.Ok? ==> id in store && id in r.value.store && var q := store[id]; var q' := r.value.store[id];
              && r.value.store == store[id := q']
              && q' == q.(answers := q'.answers)
              && |q'.answers| == |q.answers| + 1
              && q'.answers[..|q.answers|] == q.answers
              && q'.answers[|q.answers|] == Answer(answerId, content, actor.id, now, [], false)
              && r.value.body == q'.answers
  {
    if content == "" then Err(Reject(BadRequest, AnswerRequired))
    else
      var q :- Find(store, id, QuestionNotFound);
      var q' := q.(answers := q.answers + [Answer(answerId, content, actor.id, now, [], false)]);
      Ok(Step(store[id := q'], q'.answers))
  }

  /** PUT /api/questions/:id/answers/:answerId: only the answer's author
      (no admin override) may change its content, and nothing else changes. */
  function UpdateAnswer(store: Store, id: DocId, answerId: DocId, actor: Actor,
                        content: string): (r: Result<Step<Question, Answer>>)
    ensures content == "" <==> r == Err(Reject(BadRequest, AnswerRequired))
    ensures content != "" ==> (id !in store <==> r == Err(Reject(NotFound, QuestionNotFound)))
    ensures content != "" && id in store ==>
              (AnswerIndex(store[id], answerId) == -1 <==> r == Err(Reject(NotFound, AnswerNotFound)))
    ensures content != "" && id in store && AnswerIndex(store[id], answerId) != -1 ==>
              (store[id].answers[AnswerIndex(store[id], answerId)].createdBy != actor.id <==>
                 r == Err(Reject(Forbidden, "Not authorized to update this answer")))
    ensures (content != "" && id in store && AnswerIndex(store[id], answerId) != -1
             && store[id].answers[AnswerIndex(store[id], answerId)].createdBy == actor.id) ==> r.Ok?
    ensures r.Ok? ==> id in store && id in r.value.store && var q := store[id]; var q' := r.value.store[id];
              var i := AnswerIndex(q, answerId);
              && 0 <= i < |q.answers| && q.answers[i].createdBy == actor.id
              && q'.answers == q.answers[i := q.answers[i].(content := content)]
              && q' == q.(answers := q'.answers)
              && r.value.store == store[id := q']
              && r.value.body == q'.answers[i]
    ensures r.Err? && content != "" && id in store ==>
              r.error == Reject(NotFound, AnswerNotFound) || r.error == Reject(Forbidden, "Not authorized to update this answer")
  {
    if content == "" then Err(Reject(BadRequest, AnswerRequired))
    else
      var q :- Find(store, id, QuestionNotFound);
      var i := AnswerIndex(q, answerId);
      if i == -1 then Err(Reject(NotFound, AnswerNotFound))
      else if q.answers[i].createdBy != actor.id then Err(Reject(Forbidden, "Not authorized to update this answer"))
      else
        var a := q.answers[i].(content := content);
        var q' := q.(answers := q.answers[i := a]);
        Ok(Step(store[id := q'], a))
  }

  /** DELETE /api/questions/:id/answers/:answerId: the answer's author or an
      admin; every answer with that id is pulled, the others keep their order. */
  function DeleteAnswer(store: Store, id: DocId, answerId: DocId, actor: Actor): (r: Result<Step<Question, string>>)
    ensures id !in store <==> r == Err(Reject(NotFound, QuestionNotFound))
    ensures id in store ==>
              ((forall k :: 0 <= k < |store[id].answers| ==> store[id].answers[k].id != answerId)
                <==> r == Err(Reject(NotFound, AnswerNotFound)))
    ensures id in store && AnswerIndex(store[id], answerId) != -1 ==>
              (!OwnerOrAdmin(actor, store[id].answers[AnswerIndex(store[id], answerId)].createdBy) <==>
                 r == Err(Reject(Forbidden, "Not authorized to delete this answer")))
    ensures (id in store && AnswerIndex(store[id], answerId) != -1
             && OwnerOrAdmin(actor, store[id].answers[AnswerIndex(store[id], answerId)].createdBy)) ==> r.Ok?
    ensures r.Ok? ==> id in store && id in r.value.store && var q := store[id]; var q' := r.value.store[id];
              && r.value.store == store[id := q']
              && q' == q.(answers := q'.answers)
              && SubseqOf(q'.answers, q.answers)
              && (forall a :: a in q'.answers <==> a in q.answers && a.id != answerId)
              && 0 <= AnswerIndex(q, answerId) && OwnerOrAdmin(actor, q.answers[AnswerIndex(q, answerId)].createdBy)
  {
    var q :- Find(store, id, QuestionNotFound);
    var i := AnswerIndex(q, answerId);
    if i == -1 then Err(Reject(NotFound, AnswerNotFound))
    else if !OwnerOrAdmin(actor, q.answers[i].createdBy) then Err(Reject(Forbidden, "Not authorized to delete this answer"))
    else
      var q' := q.(answers := RemoveKey(q.answers, AnswerId, answerId));
      Ok(Step(store[id := q'], "Answer removed"))
  }

  /** Every flag cleared, then the one at `i` set. */
  function AcceptAt(answers: seq<Answer>, i: nat): (r: seq<Answer>)
    requires i < |answers|
    ensures |r| == |answers|
    ensures forall k :: 0 <= k < |r| ==> (r[k].isAccepted <==> k == i)
    ensures forall k :: 0 <= k < |r| ==> r[k] == answers[k].(isAccepted := r[k].isAccepted)
  {
    seq(|answers|, k requires 0 <= k < |answers| => answers[k].(isAccepted := k == i))
  }

  /** PUT /api/questions/:id/answers/:answerId/accept: the question must
      exist (404), the actor must be its creator (403, even when the answer
      does not exist), then the answer must exist (404). Afterwards exactly
      that answer is accepted. */
  function AcceptAnswer(store: Store, id: DocId, answerId: DocId, actor: Actor): (r: Result<Step<Question, Answer>>)
    ensures id !in store <==> r == Err(Reject(NotFound, QuestionNotFound))
    ensures id in store && !IsOwner(actor, store[id].createdBy) <==>
              r == Err(Reject(Forbidden, "Only the question author can accept an answer"))
    ensures id in store && IsOwner(actor, store[id].createdBy) ==>
              ((forall k :: 0 <= k < |store[id].answers| ==> store[id].answers[k].id != answerId)
                <==> r == Err(Reject(NotFound, AnswerNotFound)))
    ensures id in store && IsOwner(actor, store[id].createdBy) && AnswerIndex(store[id], answerId) != -1 ==> r.Ok?
    ensures r.Ok? ==> id in store && id in r.value.store && var q := store[id]; var q' := r.value.store[id];
              && r.value.store == store[id := q']
              && q' == q.(answers := q'.answers)
              && |q'.answers| == |q.answers|
              && AtMostOneAccepted(q'.answers)
              && var i := AnswerIndex(q, answerId);
                             && 0 <= i < |q.answers|
                             && (forall k :: 0 <= k < |q'.answers| ==> (q'.answers[k].isAccepted <==> k == i))
                             && (forall k :: 0 <= k < |q'.answers| ==> q'.answers[k] == q.answers[k].(isAccepted := k == i))
                             && r.value.body == q'.answers[i]
  {
    var q :- Find(store, id, QuestionNotFound);
    if !IsOwner(actor, q.createdBy) then Err(Reject(Forbidden, "Only the question author can accept an answer"))
    else
      var i := AnswerIndex(q, answerId);
      if i == -1 then Err(Reject(NotFound, AnswerNotFound))
      else
        var q' := q.(answers := AcceptAt(q.answers, i));
        Ok(Step(store[id := q'], q'.answers[i]))
  }

  /** Accepting the accepted answer again changes nothing. */
  lemma AcceptTwiceIsAcceptOnce(store: Store, id: DocId, answerId: DocId, actor: Actor)
    requires id in store && IsOwner(actor, store[id].createdBy)
    requires exists k :: 0 <= k < |store[id].answers| && store[id].answers[k].id == answerId
    ensures AcceptAnswer(store, id, answerId, actor).Ok?
    ensures var s1 := AcceptAnswer(store, id, answerId, actor).value.store;
            AcceptAnswer(s1, id, answerId, actor).Ok?
            && AcceptAnswer(s1, id, answerId, actor).value.store == s1
  {
    var a := store[id].answers;
    var i := AnswerIndex(store[id], answerId);
    var q1 := store[id].(answers := AcceptAt(a, i));
    assert AcceptAnswer(store, id, answerId, actor) == Ok(Step(store[id := q1], q1.answers[i]));
    var s1 := store[id := q1];
    var a1 := q1.answers;
    var j := AnswerIndex(q1, answerId);
    assert j == i by {
      assert a1[i].id == answerId;
      assert forall k :: 0 <= k < |a1| ==> a1[k].id == a[k].id;
    }
    assert AcceptAt(a1, i) == a1;
    assert q1.(answers := AcceptAt(a1, i)) == q1;
    assert s1[id := q1] == s1;
  }

  /** POST /api/questions/:id/answers/:answerId/upvote: the same toggle on
      the (first) answer with that id; the count is the new list's length. */
  function UpvoteAnswer(store: Store, id: DocId, answerId: DocId, actor: Actor): (r: Result<Step<Question, Votes>>)
    ensures id !in store <==> r == Err(Reject(NotFound, QuestionNotFound))
    ensures id in store ==>
              ((forall k :: 0 <= k < |store[id].answers| ==> store[id].answers[k].id != answerId)
                <==> r == Err(Reject(NotFound, AnswerNotFound)))
    ensures id in store && AnswerIndex(store[id], answerId) != -1 ==> r.Ok?
    ensures r.Ok? ==> id in store && id in r.value.store && var q := store[id]; var q' := r.value.store[id];
              && |q'.answers| == |q.answers|
              && var i := AnswerIndex(q, answerId);
              && 0 <= i < |q.answers|
                          && var a := q.answers[i]; var a' := q'.answers[i];
                          && q'.answers == q.answers[i := a']
                          && a' == a.(upvotes := a'.upvotes)
                          && a'.upvotes == Toggle(a.upvotes, actor.id)
                          && (actor.id in a'.upvotes <==> actor.id !in a.upvotes)
                          && (forall u :: u != actor.id ==> (u in a'.upvotes <==> u in a.upvotes))
                          && q' == q.(answers := q'.answers)
                          && r.value.store == store[id := q']
                          && r.value.body == Votes(a'.upvotes, |a'.upvotes|)
  {
    var q :- Find(store, id, QuestionNotFound);
    var i := AnswerIndex(q, answerId);
    if i == -1 then Err(Reject(NotFound, AnswerNotFound))
    else
      var a := q.answers[i].(upvotes := Toggle(q.answers[i].upvotes, actor.id));
      var q' := q.(answers := q.answers[i := a]);
      Ok(Step(store[id := q'], Votes(a.upvotes, |a.upvotes|)))
  }

  /** Every mutating request of the controller, for stating what they all
      preserve. */
  datatype Request =
    | Create(id: DocId, actor: Actor, title: string, content: string, tags: ListField, now: int)
    | View(id: DocId)
    | Update(id: DocId, actor: Actor, title: string, content: string, tags: ListField)
    | Delete(id: DocId, actor: Actor)
    | Upvote(id: DocId, actor: Actor)
    | Answer_(id: DocId, actor: Actor, content: string, answerId: DocId, now: int)
    | EditAnswer(id: DocId, answerId: DocId, actor: Actor, content: string)
    | RemoveAnswer(id: DocId, answerId: DocId, actor: Actor)
    | Accept(id: DocId, answerId: DocId, actor: Actor)
    | UpvoteAnswer_(id: DocId, answerId: DocId, actor: Actor)

  function Handle(store: Store, req: Request): Result<Store>
    requires req.Create? ==> req.id !in store
  {
    match req
    case Create(id, actor, title, content, tags, now) =>
      var s :- CreateQuestion(store, id, actor, title, content, tags, now); Ok(s.store)
    case View(id) => var s :- GetQuestionById(store, id); Ok(s.store)
    case Update(id, actor, title, content, tags) =>
      var s :- UpdateQuestion(store, id, actor, title, content, tags); Ok(s.store)
    case Delete(id, actor) => var s :- DeleteQuestion(store, id, actor); Ok(s.store)
    case Upvote(id, actor) => var s :- UpvoteQuestion(store, id, actor); Ok(s.store)
    case Answer_(id, actor, content, answerId, now) =>
      var s :- AddAnswer(store, id, actor, content, answerId, now); Ok(s.store)
    case EditAnswer(id, answerId, actor, content) =>
      var s :- UpdateAnswer(store, id, answerId, actor, content); Ok(s.store)
    case RemoveAnswer(id, answerId, actor) =>
      var s :- DeleteAnswer(store, id, answerId, actor); Ok(s.store)
    case Accept(id, answerId, actor) => var s :- AcceptAnswer(store, id, answerId, actor); Ok(s.store)
    case UpvoteAnswer_(id, answerId, actor) =>
      var s :- UpvoteAnswer(store, id, answerId, actor); Ok(s.store)
  }

  lemma SameFlagsKeepAtMostOne(a: seq<Answer>, b: seq<Answer>)
    requires AtMostOneAccepted(a) && |b| == |a|
    requires forall k :: 0 <= k < |a| ==> b[k].isAccepted == a[k].isAccepted
    ensures AtMostOneAccepted(b)
  {
  }

  lemma SubseqKeepsAtMostOne(a: seq<Answer>, b: seq<Answer>)
    requires AtMostOneAccepted(a) && SubseqOf(b, a)
    ensures AtMostOneAccepted(b)
    decreases |a|
  {
    if |b| > 0 {
      assert AtMostOneAccepted(a[1..]) by {
        forall j, k | 0 <= j < |a[1..]| && 0 <= k < |a[1..]| && a[1..][j].isAccepted && a[1..][k].isAccepted
          ensures j == k
        {
          assert a[j + 1].isAccepted && a[k + 1].isAccepted;
        }
      }
      if b[0] == a[0] && SubseqOf(b[1..], a[1..]) {
        SubseqKeepsAtMostOne(a[1..], b[1..]);
        if b[0].isAccepted {
          SubseqMembers(b[1..], a[1..]);
          forall k | 0 < k < |b| ensures !b[k].isAccepted {
            assert b[k] == b[1..][k - 1];
            assert b[k] in a[1..];
          }
        }
        forall j, k | 0 <= j < |b| && 0 <= k < |b| && b[j].isAccepted && b[k].isAccepted ensures j == k {
          if j > 0 && k > 0 {
            assert b[1..][j - 1].isAccepted && b[1..][k - 1].isAccepted;
          }
        }
      } else {
        SubseqKeepsAtMostOne(a[1..], b);
      }
    }
  }

  /** Deleting the accepted answer leaves the question with no accepted
      answer at all: the controller never promotes another one. */
  lemma {:induction false} DeleteAcceptedLeavesNone(store: Store, id: DocId, answerId: DocId, actor: Actor)
    requires id in store && AtMostOneAccepted(store[id].answers)
    requires AnswerIndex(store[id], answerId) != -1
    requires store[id].answers[AnswerIndex(store[id], answerId)].isAccepted
    requires DeleteAnswer(store, id, answerId, actor).Ok?
    ensures var q' := DeleteAnswer(store, id, answerId, actor).value.store[id];
            forall k :: 0 <= k < |q'.answers| ==> !q'.answers[k].isAccepted
  {
    var q := store[id];
    var i := AnswerIndex(q, answerId);
    var q' := DeleteAnswer(store, id, answerId, actor).value.store[id];
    forall k | 0 <= k < |q'.answers| ensures !q'.answers[k].isAccepted {
      var b := q'.answers[k];
      assert b in q'.answers;
      var j :| 0 <= j < |q.answers| && q.answers[j] == b;
      assert j != i by { assert b.id != answerId; }
    }
  }

  /** No request of the controller can leave a question with two accepted
      answers. */
  lemma HandleKeepsConsistent(store: Store, req: Request)
    requires req.Create? ==> req.id !in store
    requires Consistent(store)
    ensures Handle(store, req).Ok? ==> Consistent(Handle(store, req).value)
  {
    var r := Handle(store, req);
    if r.Ok? {
      var s := r.value;
      forall id | id in s ensures AtMostOneAccepted(s[id].answers) {
        if id == req.id && id in store {
          var a := store[id].answers;
          var b := s[id].answers;
          match req {
            case Answer_(_, _, _, _, _) =>
              forall j, k | 0 <= j < |b| && 0 <= k < |b| && b[j].isAccepted && b[k].isAccepted ensures j == k {
                assert j < |a| && k < |a|;
                assert b[j] == a[j] && b[k] == a[k];
              }
            case EditAnswer(_, _, _, _) =>
              SameFlagsKeepAtMostOne(a, b);
            case RemoveAnswer(_, _, _) =>
              SubseqKeepsAtMostOne(a, b);
            case UpvoteAnswer_(_, _, _) =>
              SameFlagsKeepAtMostOne(a, b);
            case _ =>
          }
        }
      }
    }
  }
}

=== FILE: route_guard.dfy ===
/** The Next.js middleware of the frontend (frontend/middleware.js): signed
    in users are sent away from the sign-in pages and signed out users away
    from the private pages. Only the presence of the `jwt` cookie is looked
    at, never its validity. */
module RouteGuard {

  const AuthPages: seq<string> := ["/login", "/signup"]
  const ProtectedRoutes: seq<string> := ["/dashboard", "/profile"]

  /** `config.matcher`: the paths the middleware runs on at all. */
  const Matcher: seq<string> := ["/login", "/signup", "/dashboard", "/profile"]

  datatype Decision = Redirect(to: string) | Next

  /** `middleware`, for a request to `path` with the cookie present or not. */
  function Middleware(hasToken: bool, path: string): (d: Decision)
    ensures hasToken && (path == "/login" || path == "/signup") <==> d == Redirect("/")
    ensures !hasToken && (path == "/dashboard" || path == "/profile") <==> d == Redirect("/login")
    ensures d.Redirect? ==> path in Matcher
  {
    if hasToken then (if path in AuthPages then Redirect("/") else Next)
    else if path in ProtectedRoutes then Redirect("/login") else Next
  }

  /** A path outside the matcher is never handled, so it always passes;
      the middleware decides the same for it whether it runs or not. */
  function Route(hasToken: bool, path: string): (d: Decision)
    ensures path !in Matcher ==> d == Next
    ensures d == Middleware(hasToken, path)
  {
    if path in Matcher then Middleware(hasToken, path) else Next
  }

  /** Following a redirect never leads to a second one: "/" is not guarded,
      and "/login" is only guarded for a signed-in user, who would not have
      been sent there. */
  lemma NoRedirectLoop(hasToken: bool, path: string)
    requires Middleware(hasToken, path).Redirect?
    ensures Route(hasToken, Middleware(hasToken, path).to) == Next
  {
  }
}

=== FILE: seqs.dfy ===
/** Sequence vocabulary used throughout the model: occurrence counts,
    duplicate-freedom, order-preserving subsequences and `Array.filter`. */
module Seqs {

  /** Number of occurrences of `x` in `s`. */
  function Count<T(==)>(s: seq<T>, x: T): (n: nat)
    ensures n <= |s|
    ensures n == 0 <==> x !in s
  {
    if |s| == 0 then 0
    else (if s[0] == x then 1 else 0) + Count(s[1..], x)
  }

  lemma CountAppend<T>(s: seq<T>, t: seq<T>, x: T)
    ensures Count(s + t, x) == Count(s, x) + Count(t, x)
  {
    if |s| == 0 {
      assert s + t == t;
    } else {
      assert (s + t)[1..] == s[1..] + t;
      CountAppend(s[1..], t, x);
    }
  }

  predicate NoDup<T(==)>(s: seq<T>) {
    forall i, j :: 0 <= i < j < |s| ==> s[i] != s[j]
  }

  /** `r` is obtained from `s` by deleting elements, keeping the order of the
      rest. */
  predicate SubseqOf<T(==)>(r: seq<T>, s: seq<T>)
    decreases |s|
  {
    |r| == 0 ||
    (|s| > 0 && ((r[0] == s[0] && SubseqOf(r[1..], s[1..])) || SubseqOf(r, s[1..])))
  }

  lemma SubseqRefl<T>(s: seq<T>)
    ensures SubseqOf(s, s)
  {
    if |s| > 0 {
      SubseqRefl(s[1..]);
    }
  }

  lemma {:induction false} SubseqMembers<T>(r: seq<T>, s: seq<T>)
    requires SubseqOf(r, s)
    ensures forall x :: x in r ==> x in s
    decreases |s|
  {
    if |r| > 0 {
      if r[0] == s[0] && SubseqOf(r[1..], s[1..]) {
        SubseqMembers(r[1..], s[1..]);
        forall x | x in r ensures x in s {
          if x != r[0] {
            assert x in r[1..];
          }
        }
      } else {
        SubseqMembers(r, s[1..]);
      }
    }
  }

  /** Every earlier element stands in `le` to every later one. */
  predicate Ordered<T>(s: seq<T>, le: (T, T) -> bool) {
    forall i, j :: 0 <= i < j < |s| ==> le(s[i], s[j])
  }

  /** A subsequence of an ordered list is ordered. */
  lemma {:induction false} SubseqOrdered<T>(r: seq<T>, s: seq<T>, le: (T, T) -> bool)
    requires SubseqOf(r, s) && Ordered(s, le)
    ensures Ordered(r, le)
    decreases |s|
  {
    if |r| > 0 {
      assert Ordered(s[1..], le) by {
        forall i, j | 0 <= i < j < |s[1..]| ensures le(s[1..][i], s[1..][j]) {
          assert s[1..][i] == s[i + 1] && s[1..][j] == s[j + 1];
        }
      }
      if r[0] == s[0] && SubseqOf(r[1..], s[1..]) {
        SubseqOrdered(r[1..], s[1..], le);
        SubseqMembers(r[1..], s[1..]);
        forall i, j | 0 <= i < j < |r| ensures le(r[i], r[j]) {
          assert r[j] == r[1..][j - 1];
          if i == 0 {
            assert r[j] in s[1..];
            var m :| 0 <= m < |s[1..]| && s[1..][m] == r[j];
            assert s[m + 1] == r[j];
          } else {
            assert r[i] == r[1..][i - 1];
          }
        }
      } else {
        SubseqOrdered(r, s[1..], le);
      }
    }
  }

  /** Deleting twice is deleting once: the subsequence relation is transitive. */
  lemma {:induction false} SubseqTransitive<T>(a: seq<T>, b: seq<T>, c: seq<T>)
    requires SubseqOf(a, b) && SubseqOf(b, c)
    ensures SubseqOf(a, c)
    decreases |c|
  {
    if |a| > 0 {
      assert |b| > 0 && |c| > 0;
      if SubseqOf(b, c[1..]) {
        SubseqTransitive(a, b, c[1..]);
      } else {
        assert b[0] == c[0] && SubseqOf(b[1..], c[1..]);
        if a[0] == b[0] && SubseqOf(a[1..], b[1..]) {
          SubseqTransitive(a[1..], b[1..], c[1..]);
        } else {
          SubseqTransitive(a, b[1..], c[1..]);
        }
      }
    }
  }

  /** `Array.prototype.filter`: the elements of `s` satisfying `p`, in order. */
  function Filter<T(!new)>(s: seq<T>, p: T -> bool): (r: seq<T>)
    ensures |r| <= |s|
    ensures forall x :: x in r <==> x in s && p(x)
    ensures SubseqOf(r, s)
  {
    if |s| == 0 then []
    else if p(s[0]) then [s[0]] + Filter(s[1..], p)
    else Filter(s[1..], p)
  }

  /** Filtering depends on the predicate only through its values on the list. */
  lemma {:induction false} FilterExt<T(!new)>(s: seq<T>, p: T -> bool, q: T -> bool)
    requires forall x :: x in s ==> p(x) == q(x)
    ensures Filter(s, p) == Filter(s, q)
    decreases |s|
  {
    if |s| > 0 {
      assert forall x :: x in s[1..] ==> x in s;
      FilterExt(s[1..], p, q);
    }
  }

  lemma {:induction false} FilterAllPass<T(!new)>(s: seq<T>, p: T -> bool)
    requires forall x :: x in s ==> p(x)
    ensures Filter(s, p) == s
  {
    if |s| > 0 {
      FilterAllPass(s[1..], p);
    }
  }

  lemma {:induction false} FilterAppend<T(!new)>(s: seq<T>, t: seq<T>, p: T -> bool)
    ensures Filter(s + t, p) == Filter(s, p) + Filter(t, p)
  {
    if |s| == 0 {
      assert s + t == t;
    } else {
      assert (s + t)[1..] == s[1..] + t;
      FilterAppend(s[1..], t, p);
    }
  }

  lemma {:induction false} FilterKeepsNoDup<T(!new)>(s: seq<T>, p: T -> bool)
    requires NoDup(s)
    ensures NoDup(Filter(s, p))
  {
    if |s| > 0 {
      assert NoDup(s[1..]) by {
        forall i, j | 0 <= i < j < |s[1..]| ensures s[1..][i] != s[1..][j] {
          assert s[1..][i] == s[i + 1] && s[1..][j] == s[j + 1];
        }
      }
      FilterKeepsNoDup(s[1..], p);
      var rest := Filter(s[1..], p);
      if p(s[0]) {
        assert s[0] !in s[1..] by {
          forall k | 0 <= k < |s[1..]| ensures s[1..][k] != s[0] {
            assert s[1..][k] == s[k + 1];
          }
        }
        assert s[0] !in rest;
        var r := [s[0]] + rest;
        forall i, j | 0 <= i < j < |r| ensures r[i] != r[j] {
          if i == 0 {
            assert r[j] == rest[j - 1];
            assert r[j] in rest;
          } else {
            assert r[i] == rest[i - 1] && r[j] == rest[j - 1];
          }
        }
      }
    }
  }

  /** Filtering removes every occurrence of rejected elements and keeps every
      occurrence of accepted ones. */
  lemma {:induction false} FilterCount<T(!new)>(s: seq<T>, p: T -> bool, x: T)
    ensures Count(Filter(s, p), x) == if p(x) then Count(s, x) else 0
  {
    if |s| > 0 {
      FilterCount(s[1..], p, x);
      if p(s[0]) {
        assert ([s[0]] + Filter(s[1..], p))[1..] == Filter(s[1..], p);
      }
    }
  }

  /** Filtering twice is filtering once on both conditions. */
  lemma {:induction false} FilterFilter<T(!new)>(s: seq<T>, p: T -> bool, q: T -> bool, both: T -> bool)
    requires forall x :: both(x) == (p(x) && q(x))
    ensures Filter(Filter(s, p), q) == Filter(s, both)
  {
    if |s| > 0 {
      FilterFilter(s[1..], p, q, both);
      if p(s[0]) {
        assert Filter(s, p)[0] == s[0] && Filter(s, p)[1..] == Filter(s[1..], p);
      }
    }
  }
}

=== FILE: showcase.dfy ===
/** The second project controller, backend/controllers/project.controller.js,
    behind the project showcase pages. Its projects keep a like counter
    beside the list of likers, store several uploaded images, and embed
    comments that carry the commenter's user name. The media service's
    upload is the parameter `upload` (a data URL to a secure URL); the
    deletions it is asked for are returned as the list of public ids. */
module Showcase {
  import opened Http
  import opened Seqs
  import opened Text
  import opened Membership

  datatype Remark = Remark(userId: UserId, username: string, text: string, createdAt: int)

  datatype Project = Project(title: string, description: string, techStack: seq<string>, category: string,
                             liveDemo: string, githubRepo: string, images: seq<string>, likes: int,
                             likedBy: seq<UserId>, comments: seq<Remark>, creator: UserId, createdAt: int)

  type Store = map<DocId, Project>

  const ProjectNotFound := "Project not found"

  /** Every image uploaded in order; the project records the secure URLs. */
  function UploadAll(images: seq<string>, upload: string -> string): (r: seq<string>)
    ensures |r| == |images|
    ensures forall k :: 0 <= k < |r| ==> r[k] == upload(images[k])
  {
    seq(|images|, k requires 0 <= k < |images| => upload(images[k]))
  }

  /** POST /api/projects (showcase): the account is looked up before the
      fields are checked, so a missing account answers 404 even for an empty
      form. `users` is the set of account ids. */
  function CreateProject(store: Store, users: set<UserId>, id: DocId, actor: Actor, title: string,
                         description: string, techStack: seq<string>, category: string, liveDemo: string,
                         githubRepo: string, images: seq<string>, upload: string -> string,
                         now: int): (r: Result<Step<Project, Project>>)
    requires id !in store
    ensures actor.id !in users <==> r == Err(Reject(NotFound, "User not found"))
    ensures actor.id in users ==>
              (title == "" || description == "" <==> r == Err(Reject(BadRequest, "Title and Description are required")))
    ensures r.Ok? ==> var p := r.value.body;
              && r.value.store == store[id := p] && r.value.store.Keys == store.Keys + {id}
              && p.creator == actor.id && p.title == title && p.description == description
              && p.likes == 0 && p.likedBy == [] && p.comments == []
              && |p.images| == |images|
              && forall k :: 0 <= k < |images| ==> p.images[k] == upload(images[k])
    ensures actor.id in users && title != "" && description != "" ==> r.Ok?
  {
    if actor.id !in users then Err(Reject(NotFound, "User not found"))
    else if title == "" || description == "" then Err(Reject(BadRequest, "Title and Description are required"))
    else
      var p := Project(title, description, techStack, category, liveDemo, githubRepo, UploadAll(images, upload),
                       0, [], [], actor.id, now);
      Ok(Step(store[id := p], p))
  }

  /** GET /api/projects/:projectId (showcase): a read that changes nothing. */
  function GetProjectById(store: Store, id: DocId): (r: Result<Project>)
    ensures id !in store <==> r == Err(Reject(NotFound, ProjectNotFound))
    ensures id in store ==> r == Ok(store[id])
  {
    Find(store, id, ProjectNotFound)
  }

  /** The like response: which way the toggle went and the new counter. */
  datatype LikeReply = LikeReply(message: string, likes: int)

  /** POST /api/projects/:projectId/like (showcase): `indexOf` decides; a
      like pushes and increments, an unlike splices the first entry out and
      decrements. */
  function LikeProject(store: Store, id: DocId, actor: Actor): (r: Result<Step<Project, LikeReply>>)
    ensures id !in store <==> r == Err(Reject(NotFound, ProjectNotFound))
    ensures id in store ==> r.Ok?
    ensures r.Ok? ==> id in store && id in r.value.store && var p := store[id]; var p' := r.value.store[id];
              && r.value.store == store[id := p']
              && p' == p.(likes := p'.likes, likedBy := p'.likedBy)
              && (actor.id !in p.likedBy ==> && p'.likes == p.likes + 1 && p'.likedBy == p.likedBy + [actor.id]
                                             && r.value.body == LikeReply("Project liked successfully", p'.likes))
              && (actor.id in p.likedBy ==> && p'.likes == p.likes - 1 && |p'.likedBy| == |p.likedBy| - 1
                                            && multiset(p'.likedBy) == multiset(p.likedBy) - multiset{actor.id}
                                            && r.value.body == LikeReply("Project unliked successfully", p'.likes))
  {
    var p :- Find(store, id, ProjectNotFound);
    var liked := actor.id in p.likedBy;
    var t := CounterToggle(p.likes, p.likedBy, actor.id);
    var p' := p.(likes := t.0, likedBy := t.1);
    Ok(Step(store[id := p'], LikeReply(if liked then "Project unliked successfully" else "Project liked successfully", t.0)))
  }

  /** The counter agrees with the likers and nobody is listed twice. */
  predicate LikesAgree(p: Project) {
    p.likes == |p.likedBy| && NoDup(p.likedBy)
  }

  /** The project after each user in turn toggles a like. */
  function LikeAll(store: Store, id: DocId, actors: seq<Actor>): Store
    requires id in store
    decreases |actors|
  {
    if |actors| == 0 then store
    else LikeAll(LikeProject(store, id, actors[0]).value.store, id, actors[1..])
  }

  /** However many likes and unlikes arrive, the counter keeps agreeing with
      the likers. */
  lemma {:induction false} LikeAllKeepsAgreement(store: Store, id: DocId, actors: seq<Actor>)
    requires id in store && LikesAgree(store[id])
    ensures id in LikeAll(store, id, actors) && LikesAgree(LikeAll(store, id, actors)[id])
    decreases |actors|
  {
    if |actors| > 0 {
      var p := store[id];
      var s1 := LikeProject(store, id, actors[0]).value.store;
      CounterToggleKeepsNoDup(p.likes, p.likedBy, actors[0].id);
      assert LikesAgree(s1[id]);
      LikeAllKeepsAgreement(s1, id, actors[1..]);
    }
  }

  /** A like followed by an unlike by the same user restores the store. */
  lemma LikeTwiceRestores(store: Store, id: DocId, actor: Actor)
    requires id in store && actor.id !in store[id].likedBy
    ensures var s1 := LikeProject(store, id, actor).value.store;
            LikeProject(s1, id, actor).Ok? && LikeProject(s1, id, actor).value.store == store
  {
    var p := store[id];
    CounterToggleTwiceRestores(p.likes, p.likedBy, actor.id);
    var s1 := LikeProject(store, id, actor).value.store;
    var t := CounterToggle(p.likes, p.likedBy, actor.id);
    assert s1[id] == p.(likes := t.0, likedBy := t.1);
    assert s1[id := s1[id].(likes := p.likes, likedBy := p.likedBy)] == store;
  }

  /** POST /api/projects/:projectId/comment (showcase): the comment records
      the actor's id and user name; the reply carries the full list. */
  function AddComment(store: Store, id: DocId, actor: Actor, username: string, text: string,
                      now: int): (r: Result<Step<Project, seq<Remark>>>)
    ensures text == "" <==> r == Err(Reject(BadRequest, "Comment text is required"))
    ensures text != "" ==> (id !in store <==> r == Err(Reject(NotFound, ProjectNotFound)))
    ensures text != "" && id in store ==> r.Ok?
    ensures r.Ok? ==> id in store && id in r.value.store && var p := store[id]; var p' := r.value.store[id];
              && r.value.store == store[id := p']
              && p' == p.(comments := p.comments + [Remark(actor.id, username, text, now)])
              && r.value.body == p'.comments
  {
    if text == "" then Err(Reject(BadRequest, "Comment text is required"))
    else
      var p :- Find(store, id, ProjectNotFound);
      var p' := p.(comments := p.comments + [Remark(actor.id, username, text, now)]);
      Ok(Step(store[id := p'], p'.comments))
  }

  /** The media service's id of an uploaded image:
      `url.split("/").pop().split(".")[0]`. */
  function PublicId(url: string): (r: string)
    ensures '/' !in r && '.' !in r
  {
    var segments := Split(url, '/');
    var last := segments[|segments| - 1];
    SplitKeepsOut(last, '.', '/');
    Split(last, '.')[0]
  }

  /** For a URL `base/name.ext` whose name has neither a slash nor a dot
      and whose extension has no slash, the public id is the name. */
  lemma PublicIdOfUrl(base: string, name: string, ext: string)
    requires '/' !in name && '.' !in name && '/' !in ext
    ensures PublicId(base + "/" + name + "." + ext) == name
  {
    var url := base + "/" + name + "." + ext;
    var tail := name + "." + ext;
    assert '/' !in tail;
    assert url == base + ['/'] + tail;
    SplitLast(base, tail, '/');
    assert tail == name + ['.'] + ext;
    SplitConcat(name, ext, '.');
  }

  /** The reply of a deletion, with the public ids handed to the media
      service's `destroy`, one per image in order. */
  datatype Removal = Removal(destroyed: seq<string>, message: string)

  /** DELETE /api/projects/:projectId (showcase): 404 when the project is
      missing or its creator's account no longer exists (`populate` gives
      null), then 401, not 403, for anybody but the creator (no admin
      override); every image is destroyed before the project is. */
  function DeleteProject(store: Store, users: set<UserId>, id: DocId, actor: Actor): (r: Result<Step<Project, Removal>>)
    ensures id !in store || store[id].creator !in users <==>
              r == Err(Reject(NotFound, "Project not found or missing creator"))
    ensures id in store && store[id].creator in users && store[id].creator != actor.id <==>
              r == Err(Reject(Unauthorized, "You are not authorized to delete this project"))
    ensures id in store && store[id].creator in users && store[id].creator == actor.id ==> r.Ok?
    ensures r.Ok? ==> && id in store
                      && r.value.store.Keys == store.Keys - {id}
                      && (forall k :: k in r.value.store ==> r.value.store[k] == store[k])
                      && |r.value.body.destroyed| == |store[id].images|
                      && forall k :: 0 <= k < |store[id].images| ==> r.value.body.destroyed[k] == PublicId(store[id].images[k])
  {
    if id !in store || store[id].creator !in users then Err(Reject(NotFound, "Project not found or missing creator"))
    else
      var p := store[id];
      if p.creator != actor.id then Err(Reject(Unauthorized, "You are not authorized to delete this project"))
      else
        var ids := seq(|p.images|, k requires 0 <= k < |p.images| => PublicId(p.images[k]));
        Ok(Step(store - {id}, Removal(ids, "Project deleted successfully")))
  }
}

=== FILE: signup_form.dfy ===
/** The sign-up form (frontend/src/components/auth/SignupForm.tsx): the
    per-field password checks run on every keystroke, and the gate the
    submit handler applies before it calls `signup`. Each input carries
    the HTML `required` attribute, so the browser refuses to submit while
    one is empty; that is the predicate `Filled`. */
module SignupForm {

  const ShortPassword := "Password must be at least 8 characters"
  const NoMatch := "Passwords do not match"

  datatype Form = Form(name: string, email: string, password: string, confirm: string, agreeTerms: bool,
                       passwordError: string, confirmError: string)

  const Initial := Form("", "", "", "", false, "", "")

  datatype Field = Name | Email | Password | Confirm

  /** `validatePasswords` for the password field. */
  function PasswordError(value: string): (e: string)
    ensures e != "" <==> |value| < 8
    ensures e == "" || e == ShortPassword
  {
    if |value| < 8 then ShortPassword else ""
  }

  /** `validatePasswords` for the confirmation, against the password as it
      is when the confirmation is typed. */
  function ConfirmError(value: string, password: string): (e: string)
    ensures e != "" <==> value != password
    ensures e == "" || e == NoMatch
  {
    if value != password then NoMatch else ""
  }

  /** `handleChange`: the field takes the value; a password field also
      refreshes its own error, and only its own. */
  function HandleChange(f: Form, field: Field, value: string): (f': Form)
    ensures field == Password ==> f' == f.(password := value, passwordError := PasswordError(value))
    ensures field == Confirm ==> f' == f.(confirm := value, confirmError := ConfirmError(value, f.password))
    ensures field == Name || field == Email ==>
              f'.password == f.password && f'.confirm == f.confirm
              && f'.passwordError == f.passwordError && f'.confirmError == f.confirmError
  {
    match field
    case Name => f.(name := value)
    case Email => f.(email := value)
    case Password => f.(password := value, passwordError := PasswordError(value))
    case Confirm => f.(confirm := value, confirmError := ConfirmError(value, f.password))
  }

  /** What a submit does: a toast about the terms, the mismatch error, a
      toast about outstanding errors, or the call to `signup`. */
  datatype Outcome = MustAgree | Mismatch | FixErrors | CallSignup(name: string, email: string, password: string)

  /** `handleSubmit`: the terms first, then the two passwords compared
      afresh, then the errors recorded while typing. */
  function HandleSubmit(f: Form): (r: (Form, Outcome))
    ensures !f.agreeTerms ==> r == (f, MustAgree)
    ensures f.agreeTerms && f.password != f.confirm ==> r == (f.(confirmError := NoMatch), Mismatch)
    ensures r.1.CallSignup? <==> && f.agreeTerms && f.password == f.confirm
                                 && f.passwordError == "" && f.confirmError == ""
    ensures r.1.CallSignup? ==> r == (f, CallSignup(f.name, f.email, f.password))
    ensures r.1 == FixErrors ==> r.0 == f && (f.passwordError != "" || f.confirmError != "")
  {
    if !f.agreeTerms then (f, MustAgree)
    else if f.password != f.confirm then (f.(confirmError := NoMatch), Mismatch)
    else if f.passwordError != "" || f.confirmError != "" then (f, FixErrors)
    else (f, CallSignup(f.name, f.email, f.password))
  }

  /** The things a user does before pressing the button. */
  datatype Edit = Type(field: Field, value: string) | Tick(checked: bool)

  function ApplyEdit(f: Form, e: Edit): Form {
    match e
    case Type(field, value) => HandleChange(f, field, value)
    case Tick(checked) => f.(agreeTerms := checked)
  }

  function Fill(f: Form, edits: seq<Edit>): Form
    decreases |edits|
  {
    if |edits| == 0 then f else Fill(ApplyEdit(f, edits[0]), edits[1..])
  }

  /** The password error describes the current password, except that an
      untouched empty password has no error yet. */
  predicate PasswordErrorTracks(f: Form) {
    && (f.passwordError != "" ==> |f.password| < 8)
    && (f.passwordError == "" ==> f.password == "" || |f.password| >= 8)
  }

  lemma {:induction false} FillKeepsTracking(f: Form, edits: seq<Edit>)
    requires PasswordErrorTracks(f)
    ensures PasswordErrorTracks(Fill(f, edits))
    decreases |edits|
  {
    if |edits| > 0 {
      var f1 := ApplyEdit(f, edits[0]);
      assert PasswordErrorTracks(f1);
      FillKeepsTracking(f1, edits[1..]);
    }
  }

  /** The browser's `required` check. */
  predicate Filled(f: Form) {
    f.name != "" && f.email != "" && f.password != "" && f.confirm != ""
  }

  /** Whatever was typed, a submit the browser lets through calls `signup`
      only with the terms accepted, a password of at least 8 characters,
      and a confirmation equal to it. */
  lemma SignupOnlyWhenValid(edits: seq<Edit>)
    requires Filled(Fill(Initial, edits))
    requires HandleSubmit(Fill(Initial, edits)).1.CallSignup?
    ensures var f := Fill(Initial, edits);
            f.agreeTerms && |f.password| >= 8 && f.password == f.confirm
  {
    FillKeepsTracking(Initial, edits);
  }

  /** The confirmation's error is not refreshed when the password changes
      afterwards: typing the confirmation first leaves a stale mismatch
      error that blocks an otherwise valid form until the confirmation is
      typed again. */
  lemma StaleConfirmErrorBlocks()
    ensures var f := Fill(Initial, [Type(Name, "Ann"), Type(Email, "a@b.c"), Type(Confirm, "password1"),
                                    Type(Password, "password1"), Tick(true)]);
            && f.password == f.confirm && |f.password| >= 8 && f.agreeTerms
            && HandleSubmit(f).1 == FixErrors
  {
    var f := Fill(Initial, [Type(Name, "Ann"), Type(Email, "a@b.c"), Type(Confirm, "password1"),
                            Type(Password, "password1"), Tick(true)]);
    assert f.confirmError == NoMatch;
  }
}

=== FILE: tag_input.dfy ===
/** The ask-a-question and create-event forms
    (frontend/src/pages/questions/CreateQuestion.tsx and
    frontend/src/pages/events/CreateEvent.tsx): the tag input the two
    forms share word for word, their validation schemas, and the rule of
    the event form's end-date picker. The schema's string lengths are
    counted in characters. */
module TagInput {
  import opened Http
  import opened Seqs
  import opened Text

  const MaxTags := 5
  const TooManyTags := "Maximum 5 tags allowed"

  /** The tag part of a form: the tags so far, the text box, and the error
      shown under the tags ("" when none). */
  datatype TagBox = TagBox(tags: seq<string>, input: string, error: string)

  datatype Key = Enter | OtherKey

  /** `handleAddTag`: only Enter with a non-blank box does anything; a
      duplicate is ignored before the limit is looked at; at the limit the
      error is set; otherwise the trimmed text is appended, the error
      cleared and the box emptied. */
  function HandleAddTag(b: TagBox, key: Key): (b': TagBox)
    ensures key == OtherKey || Trim(b.input) == "" ==> b' == b
    ensures Trim(b.input) in b.tags ==> b' == b
    ensures b'.tags == b.tags || b'.tags == b.tags + [Trim(b.input)]
    ensures b'.tags != b.tags <==> key == Enter && Trim(b.input) != "" && Trim(b.input) !in b.tags && |b.tags| < MaxTags
    ensures b'.tags != b.tags ==> b'.input == "" && b'.error == ""
    ensures key == Enter && Trim(b.input) != "" && Trim(b.input) !in b.tags && |b.tags| >= MaxTags ==>
              b' == b.(error := TooManyTags)
  {
    var t := Trim(b.input);
    if key != Enter || t == "" then b
    else if t in b.tags then b
    else if |b.tags| >= MaxTags then b.(error := TooManyTags)
    else TagBox(b.tags + [t], "", "")
  }

  /** `removeTag`: every tag equal to the one clicked goes, the others keep
      their order. */
  function RemoveTag(tags: seq<string>, t: string): (r: seq<string>)
    ensures t !in r
    ensures forall x :: x != t ==> Count(r, x) == Count(tags, x)
    ensures SubseqOf(r, tags)
  {
    var r := Filter(tags, (x: string) => x != t);
    forall x | x != t ensures Count(r, x) == Count(tags, x) {
      FilterCount(tags, (x: string) => x != t, x);
    }
    r
  }

  /** Removing a tag that was just added gives back the tags before. */
  lemma AddThenRemove(b: TagBox)
    requires HandleAddTag(b, Enter).tags != b.tags
    ensures RemoveTag(HandleAddTag(b, Enter).tags, Trim(b.input)) == RemoveTag(b.tags, Trim(b.input))
  {
    var t := Trim(b.input);
    FilterAppend(b.tags, [t], (x: string) => x != t);
  }

  /** What the tag box guarantees about its tags: at most five, no two
      equal, each non-blank and without surrounding white space. */
  predicate WellFormed(tags: seq<string>) {
    && |tags| <= MaxTags
    && NoDup(tags)
    && forall k :: 0 <= k < |tags| ==> tags[k] != "" && !IsSpace(tags[k][0]) && !IsSpace(tags[k][|tags[k]| - 1])
  }

  /** The things a user can do in the tag box. */
  datatype Edit = Type(text: string) | Press(key: Key) | Remove(tag: string)

  function ApplyEdit(b: TagBox, e: Edit): TagBox {
    match e
    case Type(text) => b.(input := text)
    case Press(key) => HandleAddTag(b, key)
    case Remove(t) => b.(tags := RemoveTag(b.tags, t))
  }

  function Session(b: TagBox, edits: seq<Edit>): TagBox
    decreases |edits|
  {
    if |edits| == 0 then b else Session(ApplyEdit(b, edits[0]), edits[1..])
  }

  /** One edit keeps the tags well formed. */
  lemma ApplyEditKeepsWellFormed(b: TagBox, e: Edit)
    requires WellFormed(b.tags)
    ensures WellFormed(ApplyEdit(b, e).tags)
  {
    match e
    case Type(_) =>
    case Press(key) =>
      var t := Trim(b.input);
      var r := HandleAddTag(b, key).tags;
      if r != b.tags {
        assert r == b.tags + [t] && t !in b.tags;
        forall i, j | 0 <= i < j < |r| ensures r[i] != r[j] {
          if j == |b.tags| {
            assert r[i] == b.tags[i];
          } else {
            assert r[i] == b.tags[i] && r[j] == b.tags[j];
          }
        }
      }
    case Remove(x) =>
      var r := RemoveTag(b.tags, x);
      FilterKeepsNoDup(b.tags, (y: string) => y != x);
      forall k | 0 <= k < |r| ensures r[k] != "" && !IsSpace(r[k][0]) && !IsSpace(r[k][|r[k]| - 1]) {
        assert r[k] in b.tags;
      }
  }

  /** From well-formed tags (the empty list of a new form is one), whatever
      is typed, pressed or removed,
      the tags stay well formed: never more than five and never a
      duplicate. */
  lemma {:induction false} SessionKeepsWellFormed(b: TagBox, edits: seq<Edit>)
    requires WellFormed(b.tags)
    ensures WellFormed(Session(b, edits).tags)
    decreases |edits|
  {
    if |edits| > 0 {
      ApplyEditKeepsWellFormed(b, edits[0]);
      SessionKeepsWellFormed(ApplyEdit(b, edits[0]), edits[1..]);
    }
  }

  /** The ask-a-question schema, in field order: the messages of the checks
      that fail. */
  function ValidateQuestion(title: string, content: string, tags: seq<string>): (errors: seq<string>)
    ensures errors == [] <==> 10 <= |title| <= 150 && |content| >= 30 && 1 <= |tags| <= 5
    ensures |title| < 10 ==> "Title must be at least 10 characters" in errors
    ensures |title| > 150 ==> "Title cannot exceed 150 characters" in errors
    ensures |content| < 30 ==> "Question details must be at least 30 characters" in errors
    ensures |tags| == 0 ==> "Add at least one tag" in errors
    ensures |tags| > 5 ==> TooManyTags in errors
  {
    (if |title| < 10 then ["Title must be at least 10 characters"] else [])
    + (if |title| > 150 then ["Title cannot exceed 150 characters"] else [])
    + (if |content| < 30 then ["Question details must be at least 30 characters"] else [])
    + (if |tags| < 1 then ["Add at least one tag"] else [])
    + (if |tags| > 5 then [TooManyTags] else [])
  }

  /** The create-event schema (the meeting link's URL check is not
      modelled): title 5 to 100 characters, description at least 20, an
      event type, a start date, and one to five tags. */
  function ValidateEvent(title: string, description: string, eventType: string, startDate: Option<int>,
                         tags: seq<string>): (errors: seq<string>)
    ensures errors == [] <==> && 5 <= |title| <= 100 && |description| >= 20 && eventType != ""
                              && startDate.Some? && 1 <= |tags| <= 5
    ensures startDate.None? ==> "Start date is required" in errors
    ensures eventType == "" ==> "Please select an event type" in errors
    ensures |tags| == 0 ==> "Add at least one tag" in errors
  {
    (if |title| < 5 then ["Title must be at least 5 characters"] else [])
    + (if |title| > 100 then ["Title cannot exceed 100 characters"] else [])
    + (if |description| < 20 then ["Description must be at least 20 characters"] else [])
    + (if |eventType| < 1 then ["Please select an event type"] else [])
    + (if startDate.None? then ["Start date is required"] else [])
    + (if |tags| < 1 then ["Add at least one tag"] else [])
    + (if |tags| > 5 then [TooManyTags] else [])
  }

  /** Tags entered through the tag box never trip the schema's upper
      bound: once one tag is in, the tag check passes. */
  lemma TagBoxSatisfiesSchema(title: string, content: string, b: TagBox, edits: seq<Edit>)
    requires b.tags == []
    requires 10 <= |title| <= 150 && |content| >= 30
    requires |Session(b, edits).tags| >= 1
    ensures ValidateQuestion(title, content, Session(b, edits).tags) == []
  {
    SessionKeepsWellFormed(b, edits);
  }

  /** The end-date picker: a day is disabled when a start date is chosen
      and the day is before it. */
  function EndDateDisabled(startDate: Option<int>, date: int): (disabled: bool)
    ensures disabled <==> startDate.Some? && date < startDate.value
  {
    startDate.Some? && date < startDate.value
  }

  /** Any end date the picker lets through is no earlier than the start. */
  lemma PickedEndNotBeforeStart(startDate: int, date: int)
    requires !EndDateDisabled(Some(startDate), date)
    ensures startDate <= date
  {
  }
}

=== FILE: text.dfy ===
/** The JavaScript string operations the handlers and pages rely on:
    `String.split` on one character, `String.trim`, `toLowerCase` (ASCII only)
    and `String.includes`, plus the `Array.isArray(x) ? x : x.split(',')...`
    idiom the controllers use for list fields. */
module Text {
  import opened Http

  /** `s.split(sep)` for a one-character separator: the pieces between
      separators, empty pieces included; `"".split(sep)` is `[""]`. */
  function Split(s: string, sep: char): (r: seq<string>)
    ensures |r| >= 1
    ensures forall k :: 0 <= k < |r| ==> sep !in r[k]
  {
    if |s| == 0 then [""]
    else
      var rest := Split(s[1..], sep);
      if s[0] == sep then [""] + rest
      else [[s[0]] + rest[0]] + rest[1..]
  }

  /** `parts.join(sep)`. */
  function Join(parts: seq<string>, sep: char): string
    requires |parts| >= 1
  {
    if |parts| == 1 then parts[0] else parts[0] + [sep] + Join(parts[1..], sep)
  }

  function CountChar(s: string, c: char): nat {
    if |s| == 0 then 0 else (if s[0] == c then 1 else 0) + CountChar(s[1..], c)
  }

  lemma JoinConsHead(c: char, parts: seq<string>, sep: char)
    requires |parts| >= 1
    ensures Join([[c] + parts[0]] + parts[1..], sep) == [c] + Join(parts, sep)
  {
    var q := [[c] + parts[0]] + parts[1..];
    if |parts| > 1 {
      assert q[1..] == parts[1..];
    }
  }

  /** Splitting and re-joining gives back the string. */
  lemma {:induction false} JoinSplit(s: string, sep: char)
    ensures Join(Split(s, sep), sep) == s
  {
    if |s| > 0 {
      var rest := Split(s[1..], sep);
      JoinSplit(s[1..], sep);
      if s[0] == sep {
        assert ([""] + rest)[1..] == rest;
        assert s == [s[0]] + s[1..];
      } else {
        JoinConsHead(s[0], rest, sep);
        assert s == [s[0]] + s[1..];
      }
    }
  }

  lemma {:induction false} SplitNoSep(s: string, sep: char)
    requires sep !in s
    ensures Split(s, sep) == [s]
  {
    if |s| > 0 {
      SplitNoSep(s[1..], sep);
      assert [s[0]] + s[1..] == s;
    }
  }

  lemma {:induction false} SplitConcat(a: string, b: string, sep: char)
    requires sep !in a
    ensures Split(a + [sep] + b, sep) == [a] + Split(b, sep)
  {
    if |a| == 0 {
      assert a + [sep] + b == [sep] + b;
      assert ([sep] + b)[1..] == b;
    } else {
      var s := a + [sep] + b;
      assert s[0] == a[0] && s[1..] == a[1..] + [sep] + b;
      SplitConcat(a[1..], b, sep);
      assert [a[0]] + a[1..] == a;
    }
  }

  /** A character absent from the string is absent from every piece. */
  lemma {:induction false} SplitKeepsOut(s: string, sep: char, c: char)
    requires c !in s
    ensures forall k :: 0 <= k < |Split(s, sep)| ==> c !in Split(s, sep)[k]
  {
    if |s| > 0 {
      SplitKeepsOut(s[1..], sep, c);
    }
  }

  /** The last piece of `a + sep + b` is `b` when `b` holds no separator. */
  lemma {:induction false} SplitLast(a: string, b: string, sep: char)
    requires sep !in b
    ensures |Split(a + [sep] + b, sep)| >= 2
    ensures Split(a + [sep] + b, sep)[|Split(a + [sep] + b, sep)| - 1] == b
  {
    var s := a + [sep] + b;
    if |a| == 0 {
      assert s == [sep] + b;
      assert s[1..] == b;
      SplitNoSep(b, sep);
    } else {
      assert s[1..] == a[1..] + [sep] + b;
      SplitLast(a[1..], b, sep);
    }
  }

  /** Joining pieces free of the separator and splitting again gives back
      the pieces. */
  lemma {:induction false} SplitJoin(parts: seq<string>, sep: char)
    requires |parts| >= 1
    requires forall k :: 0 <= k < |parts| ==> sep !in parts[k]
    ensures Split(Join(parts, sep), sep) == parts
  {
    if |parts| == 1 {
      SplitNoSep(parts[0], sep);
    } else {
      SplitJoin(parts[1..], sep);
      SplitConcat(parts[0], Join(parts[1..], sep), sep);
      assert [parts[0]] + parts[1..] == parts;
    }
  }

  /** One piece more than there are separators. */
  lemma {:induction false} SplitLength(s: string, sep: char)
    ensures |Split(s, sep)| == CountChar(s, sep) + 1
  {
    if |s| > 0 {
      SplitLength(s[1..], sep);
    }
  }

  /** The characters `String.prototype.trim` strips: the ECMAScript WhiteSpace
      and LineTerminator characters outside the Unicode Zs category beyond
      U+00A0. */
  predicate IsSpace(c: char) {
    c == ' ' || c == '\t' || c == '\n' || c == '\r' || c == '\U{000B}' || c == '\U{000C}'
    || c == '\U{00A0}' || c == '\U{FEFF}' || c == '\U{2028}' || c == '\U{2029}'
  }

  /** Index of the first non-space character at or after `k` (or `|s|`). */
  function SkipSpaces(s: string, k: nat): (i: nat)
    requires k <= |s|
    ensures k <= i <= |s|
    ensures forall m :: k <= m < i ==> IsSpace(s[m])
    ensures i < |s| ==> !IsSpace(s[i])
    decreases |s| - k
  {
    if k < |s| && IsSpace(s[k]) then SkipSpaces(s, k + 1) else k
  }

  /** Index just past the last non-space character at or after `lo` (or `lo`). */
  function SkipSpacesBack(s: string, lo: nat, k: nat): (j: nat)
    requires lo <= k <= |s|
    requires forall m :: k <= m < |s| ==> IsSpace(s[m])
    ensures lo <= j <= k
    ensures forall m :: j <= m < |s| ==> IsSpace(s[m])
    ensures j > lo ==> !IsSpace(s[j - 1])
    decreases k
  {
    if k > lo && IsSpace(s[k - 1]) then SkipSpacesBack(s, lo, k - 1) else k
  }

  /** `s.trim()`: the middle `s[i..j]` of `s` left after stripping white
      space at both ends; it neither starts nor ends with white space, and it
      is empty exactly when `s` is all white space. */
  function Trim(s: string): (r: string)
    ensures exists i, j ::
              && 0 <= i <= j <= |s| && r == s[i..j]
              && (forall m :: 0 <= m < i ==> IsSpace(s[m]))
              && (forall m :: j <= m < |s| ==> IsSpace(s[m]))
    ensures |r| > 0 ==> !IsSpace(r[0]) && !IsSpace(r[|r| - 1])
    ensures r == "" <==> forall m :: 0 <= m < |s| ==> IsSpace(s[m])
  {
    var i := SkipSpaces(s, 0);
    var j := SkipSpacesBack(s, i, |s|);
    assert j > i ==> s[i..j][0] == s[i] && s[i..j][j - i - 1] == s[j - 1];
    s[i..j]
  }

  lemma TrimKeepsOut(s: string, c: char)
    requires c !in s
    ensures c !in Trim(s)
  {
    var r := Trim(s);
    var i, j :| 0 <= i <= j <= |s| && r == s[i..j];
    assert forall m :: 0 <= m < |r| ==> r[m] == s[i + m];
  }

  /** `s.split(',').map(x => x.trim())`: one trimmed piece per comma-separated
      field, empty pieces kept. */
  function SplitTrim(s: string): (r: seq<string>)
    ensures |r| == |Split(s, ',')| == CountChar(s, ',') + 1
    ensures forall k :: 0 <= k < |r| ==> r[k] == Trim(Split(s, ',')[k])
    ensures forall k :: 0 <= k < |r| ==> ',' !in r[k]
    ensures forall k :: 0 <= k < |r| && |r[k]| > 0 ==> !IsSpace(r[k][0]) && !IsSpace(r[k][|r[k]| - 1])
  {
    SplitLength(s, ',');
    var parts := Split(s, ',');
    seq(|parts|, k requires 0 <= k < |parts| => TrimKeepsOut(parts[k], ','); Trim(parts[k]))
  }

  /** A list-valued body or query field: already an array, a comma-separated
      string, or absent. */
  datatype ListField = List(items: seq<string>) | Text(text: string) | Absent

  /** `Array.isArray(x) ? x : x.split(',').map(t => t.trim())`; on an absent
      field `x.split` throws. */
  function ParseList(f: ListField): (r: Result<seq<string>>)
    ensures f.List? ==> r == Ok(f.items)
    ensures f.Text? ==> r.Ok? && |r.value| == |Split(f.text, ',')| == CountChar(f.text, ',') + 1
    ensures f.Text? ==> forall k :: 0 <= k < |r.value| ==> r.value[k] == Trim(Split(f.text, ',')[k])
    ensures f.Text? ==> forall k :: 0 <= k < |r.value| ==>
              ',' !in r.value[k] && (|r.value[k]| > 0 ==> !IsSpace(r.value[k][0]) && !IsSpace(r.value[k][|r.value[k]| - 1]))
    ensures f.Absent? <==> r == Err(Crash)
  {
    match f
    case List(items) => Ok(items)
    case Text(t) => Ok(SplitTrim(t))
    case Absent => Err(Crash)
  }

  /** `c.toLowerCase()` restricted to ASCII letters. */
  function LowerChar(c: char): char {
    if 'A' <= c <= 'Z' then (c as int + 32) as char else c
  }

  function Lower(s: string): (r: string)
    ensures |r| == |s|
    ensures forall k :: 0 <= k < |s| ==> r[k] == LowerChar(s[k])
  {
    seq(|s|, k requires 0 <= k < |s| => LowerChar(s[k]))
  }

  /** `q` occurs in `s` at position `i`. */
  predicate OccursAt(s: string, q: string, i: int) {
    0 <= i && i + |q| <= |s| && s[i..i + |q|] == q
  }

  /** `s.includes(q)`, scanning from the left. */
  function Includes(s: string, q: string): (b: bool)
    decreases |s|
  {
    if q <= s then true
    else if |s| <= |q| then false
    else Includes(s[1..], q)
  }

  /** `Includes` says exactly that `q` occurs somewhere in `s`. */
  lemma {:induction false} IncludesSpec(s: string, q: string)
    ensures Includes(s, q) <==> exists i :: OccursAt(s, q, i)
    decreases |s|
  {
    if q <= s {
      assert OccursAt(s, q, 0);
    } else if |s| <= |q| {
      forall i ensures !OccursAt(s, q, i) {
        if 0 <= i && i + |q| <= |s| {
          assert i == 0 && |q| == |s|;
          assert s[0..|q|] == s;
        }
      }
    } else {
      IncludesSpec(s[1..], q);
      if Includes(s[1..], q) {
        var i :| OccursAt(s[1..], q, i);
        assert s[i + 1..i + 1 + |q|] == s[1..][i..i + |q|];
        assert OccursAt(s, q, i + 1);
      } else {
        forall i ensures !OccursAt(s, q, i) {
          if i == 0 {
            assert !(q <= s);
          } else if 0 < i && i + |q| <= |s| {
            assert s[1..][i - 1..i - 1 + |q|] == s[i..i + |q|];
            assert !OccursAt(s[1..], q, i - 1);
          }
        }
      }
    }
  }
}
